=== FILE: README.md ===
# Node monitor model

A Dafny model of the node monitor of noobaa-core
(`src/server/node_services/nodes_monitor.js`). The monitor keeps one item per
storage or gateway agent. It indexes the items by node id, peer id, name and
host, and it derives each item's status from its connection, heartbeat,
detention timers and lifecycle flags. It also drives the data activity
(grace, rebuilding, wiping) that evacuates a node being deleted,
decommissioned, migrated or restored. Dirty items are written back to the
node store in batches. The monitor answers filtered, counted and paginated
listings, and it consolidates the nodes of a host into a host mode.

The model is a set of pure functions over immutable values:

- A `Registry` holds `items: map<Handle, Item>`, where a `Handle` stands for the
  identity of an item object. It also holds the id, peer, name and host
  indexes, the dirty set, and the started and loaded flags.
- The current time, the configuration thresholds and the outcome of every
  remote call are parameters. These are the probes, the store writes, the
  rebuild batches and the token exchange.

Modules, in dependency order:

| file | module | models |
|---|---|---|
| base.dfy | `Base` | options, results, ASCII lower-casing, decimal rendering |
| types.dfy | `Types` | node, item, status, issue and activity records; constants |
| storage.dfy | `Storage` | `_node_storage_info` |
| status.dfy | `StatusEngine` | `_get_connection_status`, the `_get_item_*` functions, trust and detention |
| activity.dfy | `DataActivity` | activity reason, stage machine, progress, scheduling, `_rebuild_node` |
| registry.dfy | `NodeRegistry` | the index maps, `_add_existing_node`, `_add_new_node`, removal, `_get_node` |
| monitor.dfy | `Monitor` | `_update_status`, connections, decommission, recommission, delete |
| probes.dfy | `Probes` | `_test_nodes_validity` and its three tests |
| persistence.dfy | `Persistence` | `_update_nodes_store` and its three write paths |
| hostmode.dfy | `HostMode` | `_consolidate_host` flags and `_calculate_host_mode` |
| query.dfy | `Query` | `_filter_nodes` counting order, `_paginate_nodes_list` |
| issues.dfy | `Issues` | `report_error_on_node_blocks` and the bounded issue log |
| names.dfy | `Names` | the name de-collision loop of `_get_agent_info` |
| drives.dfy | `Drives` | `_should_enable_agent`, `_should_include_drives` |
| schedule.dfy | `Schedule` | the delay clamp of `_schedule_next_run` |

Two details of the source that the model keeps:

- `_remove_node_from_maps` leaves the host index alone, and so does the
  model.
- `_update_status` on an item with a stale connection calls
  `_disconnect_node`, and that call runs a complete status pass of its own
  before the outer pass continues. The model runs the two passes in that
  order.

Three steps of the source evidently do not do what their authors intended.
They are listed under "## Findings", and each is modelled twice: as written,
and corrected. The operations built on them use the corrected step:

- `Monitor.StatusPass`, `Monitor.UpdateStatus` and `DataActivity.RebuildNode`
  run the corrected `DataActivity.UpdateDataActivity`.
- `Persistence.CompleteFlush` removes items with the corrected
  `NodeRegistry.RemoveNodesFromMaps`.
- `Issues.ReportOne` appends with the corrected `Issues.Append`.

## Model

| member | source | states |
|---|---|---|
| Storage.NodeStorageInfo | src/server/node_services/nodes_monitor.js:2781-2810 | the reserve is at most the clamped free space and is zero for internal, cloud and mongo nodes; free space splits into reserve plus free for a healthy node, and into reserve plus unavailable for a node with issues; `usedOther` completes the breakdown to the total whenever the total is not already exceeded |
| StatusEngine.HasTamperingIssue | src/server/node_services/nodes_monitor.js:1475-1487 | a log marks a node untrusted exactly when some entry's reason is `TAMPERING` |
| StatusEngine.ReportedErrorsTimer | src/server/node_services/nodes_monitor.js:1488-1503 | a running reported-errors timer is kept; a stopped one starts exactly when enough recent read/write/replicate issues are logged |
| StatusEngine.IoDetention | src/server/node_services/nodes_monitor.js:1556-1565 | detention is zero iff all four timers are zero; otherwise it is one of the running timers and no later than any of them |
| StatusEngine.LowCapacityThreshold | src/server/node_services/nodes_monitor.js:1621-1647 | the truncated free-ratio test `<= 20` holds exactly when free space is strictly below 21% of free plus used |
| StatusEngine.ModeOf | src/server/node_services/nodes_monitor.js:1621-1647 | the mode of a node is always one of the sixteen node modes, never a host-only mode |
| StatusEngine.ModeIsFirstMatch | src/server/node_services/nodes_monitor.js:1621-1647 | the chosen mode's condition holds, and no condition earlier in the priority chain holds |
| StatusEngine.OfflineBeatsDecommissioned | src/server/node_services/nodes_monitor.js:1621-1647 | an offline node that is also decommissioned reports OFFLINE |
| StatusEngine.Derive | src/server/node_services/nodes_monitor.js:1532-1618 | writable implies readable and no issues; accessibility is FULL_ACCESS, READ_ONLY or NO_ACCESS exactly by readable and writable; trust is lost by the tampering flag or a tampering report; an offline node is OFFLINE, has issues and is not readable; OPTIMAL implies online, trusted and not detained |
| DataActivity.ActivityReason | src/server/node_services/nodes_monitor.js:1667-1677 | the reason is DELETING, DECOMMISSIONING, MIGRATING or RESTORING exactly under the source's priority of lifecycle flags, and RESTORING only for an offline, untrusted or detained node |
| DataActivity.UpdateStage | src/server/node_services/nodes_monitor.js:1679-1763 | only RESTORING enters the grace stage; a finished REBUILDING completes a RESTORING activity and starts a fresh WIPING under any other reason; a finished WIPING applies the reason's terminal effect; lifecycle flags change only then, and the node is otherwise kept or only loses its migrating flag and gains decommissioned; outside RESTORING the stage never moves backwards |
| DataActivity.WipingFlagsOnlyKeeps | src/server/node_services/nodes_monitor.js:1747-1760 | the terminal WIPING effects keep every node field but the migrating and decommissioned flags; decommissioned never reverts and is only set on a decommissioning node |
| DataActivity.WipingFlagsOnlyTransitive | src/server/node_services/nodes_monitor.js:1747-1760 | applying the terminal WIPING effects twice amounts to applying them once |
| DataActivity.UpdateStageDecommissioned | src/server/node_services/nodes_monitor.js:1679-1763 | a stage step never reverts decommissioned, sets it only on a decommissioning node, and keeps the stored record |
| DataActivity.RefreshRemaining | src/server/node_services/nodes_monitor.js:1765-1782 | the remaining size plus the completed size (capped at the total) equals the total; nothing else changes |
| DataActivity.UpdateDataActivity | src/server/node_services/nodes_monitor.js:1651-1665 | corrected as in the first finding (a change of reason starts the activity afresh): the activity is dropped exactly when no reason applies; otherwise it carries the current reason and a stage; status, connection and stored copy are untouched; the node is kept or only takes the terminal WIPING flags, so decommissioned is monotone |
| DataActivity.UpdateDataActivityAsWritten | src/server/node_services/nodes_monitor.js:1651-1665 | the source's version: the activity is dropped exactly when no reason applies, else it carries the current reason |
| DataActivity.UpdateDataActivityKeepsWiping | src/server/node_services/nodes_monitor.js:1651-1665 | the corrected update keeps the invariant that a done activity finished its WIPING (or was a RESTORING activity that never wiped) |
| DataActivity.Schedule | src/server/node_services/nodes_monitor.js:1784-1832 | a finished (or missing) activity, and nothing else, is handed to persistence: dropped from the rebuild set and added to the items needing a store update; an unfinished REBUILDING outside maintenance and not running is enqueued; WIPING is enqueued only for an online node |
| DataActivity.AsWrittenWipingNeverScheduled | src/server/node_services/nodes_monitor.js:1651-1665 | there is a node whose finished RESTORING activity, once the node is decommissioned, enters an unfinished WIPING stage while still done, so the online node's WIPING is handed to persistence instead of being enqueued |
| DataActivity.WipingIsScheduled | src/server/node_services/nodes_monitor.js:1784-1832 | with the correction, an online node in an unfinished WIPING stage with no batch in flight is always enqueued |
| DataActivity.RecordError | src/server/node_services/nodes_monitor.js:1866-1917 | the first failed batch records the checkpoint marker and completed size; later failures change nothing |
| DataActivity.RebuildBatch | src/server/node_services/nodes_monitor.js:1866-1917 | a running batch is not re-entered; completed bytes grow only on success; the first failure records a checkpoint; the end of a scan after an error rewinds to it; the end of a clean scan finishes the stage |
| DataActivity.RebuildNode | src/server/node_services/nodes_monitor.js:1866-1917 | an item with no activity, or with a batch in flight, is left unchanged; otherwise status, connection and stored copy are kept and the node only takes the terminal WIPING flags |
| DataActivity.RebuildNodeKeepsWiping | src/server/node_services/nodes_monitor.js:1866-1917 | with the corrected activity update, a rebuild batch never makes an activity done before its WIPING stage has finished |
| DataActivity.RebuildNodeAppliesBatch | src/server/node_services/nodes_monitor.js:1866-1917 | when the activity is idle, keeps its reason, is past any grace period and the batch leaves its stage unfinished, the item's stage afterwards is the batch's stage (marker, completed size, error checkpoint), with only the remaining size refreshed |
| DataActivity.RebuildNodeKeepsCheckpoint | src/server/node_services/nodes_monitor.js:1866-1917 | after a batch the error checkpoint never lies ahead of the completed size |
| DataActivity.DeletingNodeFinishesWiping | src/server/node_services/nodes_monitor.js:1750-1760 | the last clean batch of a deleting node's WIPING scan finishes the activity and leaves the item ready to be deleted |
| DataActivity.UpdateStageKeepsCheckpoint | src/server/node_services/nodes_monitor.js:1679-1763 | a stage step keeps the error checkpoint behind the completed size |
| DataActivity.DecommissionPassesThroughWiping | src/server/node_services/nodes_monitor.js:1679-1917 | a decommissioning node goes REBUILDING, then WIPING, and becomes decommissioned only when WIPING finishes |
| NodeRegistry.KeyPreservingUpdate | src/server/node_services/nodes_monitor.js:617-641 | replacing items by versions with the same keys keeps the indexes consistent and every registration |
| NodeRegistry.ConsistentIndexesAreInjective | src/server/node_services/nodes_monitor.js:617-641 | in a consistent registry no item is filed under two ids |
| NodeRegistry.AddNodeToMaps | src/server/node_services/nodes_monitor.js:617-641 | adding fails exactly when one of the item's keys is mapped to a different item, and the error names the first such index in the order id, peer id, name; on success all three indexes send the item's keys to it, gain exactly those keys, and keep every other entry |
| NodeRegistry.AddNodeToMapsKeepsConsistent | src/server/node_services/nodes_monitor.js:617-641 | a successful add keeps a consistent registry consistent and every other item registered |
| NodeRegistry.AddToHostsMap | src/server/node_services/nodes_monitor.js:643-649 | the item is appended to its host's list, creating the list when absent; other hosts are untouched |
| NodeRegistry.LoadedItem | src/server/node_services/nodes_monitor.js:565-577 | a loaded node starts disconnected, with its stored copy, no activity and the falsy initial status |
| NodeRegistry.AddExistingNode | src/server/node_services/nodes_monitor.js:565-577 | a stored node is registered, disconnected and not dirty, exactly when none of its keys collides |
| NodeRegistry.AddNewNode | src/server/node_services/nodes_monitor.js:579-612 | a new item is always kept and marked dirty, even when indexing it fails; it is registered exactly when no key collides; a failed add leaves the indexes as they were |
| NodeRegistry.RemoveNodesFromMapsAsWritten | src/server/node_services/nodes_monitor.js:651-656 | the source's removal: the items leave the dirty set and their id, peer and name keys are gone, whoever they pointed to; no key is added and every other entry is kept |
| NodeRegistry.RemoveNodesFromMaps | src/server/node_services/nodes_monitor.js:651-656 | after removal no index points at a removed item, they leave the dirty set, every other item stays registered, and consistency is kept |
| NodeRegistry.RemovalAgreesOnRegisteredItems | src/server/node_services/nodes_monitor.js:651-656 | for items that are registered, the corrected removal and the source's removal are the same |
| NodeRegistry.AsWrittenRemovalUnregistersAnotherNode | src/server/node_services/nodes_monitor.js:579-656 | a new node whose name collides stays dirty but unindexed, and the source's removal of it then unregisters the other node; the corrected removal does not |
| NodeRegistry.GetNode | src/server/node_services/nodes_monitor.js:2580-2604 | refused before load; missing is an error exactly when not allowed; offline is an error exactly when the node is found without a connection and offline is not allowed; otherwise the looked-up item |
| NodeRegistry.RegisteredItemIsFound | src/server/node_services/nodes_monitor.js:2580-2597 | a registered item is found by its id, name, peer id and its `n2n://` address |
| Monitor.CloseConnection | src/server/node_services/nodes_monitor.js:697-704 | the connection is gone and the rpc address cleared; nothing else changes |
| Monitor.StatusPass | src/server/node_services/nodes_monitor.js:1469-1518 | with the corrected activity update: online as given; writable implies readable; OFFLINE iff offline; keys, connection and stored copy are kept; the node is kept or only takes the terminal WIPING flags; the activity invariant is preserved |
| Monitor.UpdateStatus | src/server/node_services/nodes_monitor.js:1454-1518 | an unstored item is untouched; a stored item is online and keeps its connection exactly when its connection is live within the heartbeat grace; it is OFFLINE otherwise; writable implies readable; keys, lifecycle requests and the issue log are kept; decommissioned only appears on a decommissioning node |
| Monitor.UpdateStatusKeepsDoneOnlyAfterWiping | src/server/node_services/nodes_monitor.js:1651-1665 | with the activity update corrected as in the first finding, a status pass keeps the invariant that a done activity finished its WIPING; the source's update breaks it |
| Monitor.StaleHeartbeatGoesOffline | src/server/node_services/nodes_monitor.js:1458-1467 | a stale heartbeat closes the connection and makes the node OFFLINE; a fresh one keeps it online with its connection |
| Monitor.Put | src/server/node_services/nodes_monitor.js:617-641 | storing an item with the same keys keeps the indexes consistent and every registration |
| Monitor.Touch | src/server/node_services/nodes_monitor.js:823-839 | the changed item is stored after a status pass and marked dirty; no other item changes |
| Monitor.RebuildStep | src/server/node_services/nodes_monitor.js:1866-1917 | the item becomes the batch's result and nothing else in the registry changes; it is marked dirty exactly when a batch ran and left its activity done, the store-update request at 1798-1801, and no other dirty mark changes |
| Monitor.RebuildStepKeepsConsistent | src/server/node_services/nodes_monitor.js:1866-1917 | a rebuild step keeps every index entry filed under its item's own key |
| Monitor.Disconnect | src/server/node_services/nodes_monitor.js:706-710 | the node loses its connection, becomes OFFLINE when stored, and is marked dirty; its issue log and every other item are kept |
| Monitor.SetConnection | src/server/node_services/nodes_monitor.js:712-744 | the same connection is a no-op; a different live agent from another host is refused as a duplicate; otherwise the connection and heartbeat are taken and a stored node becomes online |
| Monitor.ConnectNode | src/server/node_services/nodes_monitor.js:683-688 | an unknown node id is refused; a known one is connected |
| Monitor.OnConnectionClose | src/server/node_services/nodes_monitor.js:725-733 | a close event for a connection the item no longer holds is ignored; otherwise the node is disconnected and marked dirty |
| Monitor.ReplacedConnectionCloseIsIgnored | src/server/node_services/nodes_monitor.js:712-733 | after a reconnect, the old connection's close event cannot take the node offline |
| Monitor.SetDecommission | src/server/node_services/nodes_monitor.js:823-832 | the node becomes decommissioning, and a gateway node becomes decommissioned at once; it is marked dirty |
| Monitor.ClearDecommission | src/server/node_services/nodes_monitor.js:834-839 | neither decommissioning nor decommissioned remains set; the node is marked dirty |
| Monitor.DecommissionNode | src/server/node_services/nodes_monitor.js:408-418 | up to the forced store flush: a monitor not started refuses with MONITOR_NOT_STARTED; otherwise it fails exactly as the lookup with offline nodes allowed fails; a node already decommissioning or decommissioned is left as it is; otherwise it becomes decommissioning and dirty; no other item changes |
| Monitor.RecommissionNode | src/server/node_services/nodes_monitor.js:433-443 | up to the forced store flush: a monitor not started refuses with MONITOR_NOT_STARTED; otherwise it fails exactly as the lookup fails; a node neither decommissioning nor decommissioned is left as it is; otherwise it loses both marks and is marked dirty; no other item changes |
| Monitor.DeleteNode | src/server/node_services/nodes_monitor.js:499-510 | up to the forced store flush: a monitor not started refuses with MONITOR_NOT_STARTED; otherwise it fails exactly as the lookup fails, with the lookup's error; otherwise that node is deleting and dirty, and no other item changes |
| Probes.TimerAfter | src/server/node_services/nodes_monitor.js:1044-1169 | a failure keeps a running timer or starts it now; a success stops the timer only once the detention threshold has passed |
| Probes.ApplyRound | src/server/node_services/nodes_monitor.js:1044-1188 | deleted or unstored nodes are not probed; failing probes start or keep their timers; a successful store test clears storage-not-exist and auth-failed; a timer never starts on a success |
| Probes.MarkAfter | src/server/node_services/nodes_monitor.js:1066-1087 | a successful store test clears a store mark; a failure with the mark's own reason code sets it to now unless already set; any other failure keeps it |
| Probes.FailedStoreTestDetains | src/server/node_services/nodes_monitor.js:1044-1092 | after a failed store test the node is detained, neither readable nor writable, and has issues |
| Probes.SuccessfulRoundReleasesDetention | src/server/node_services/nodes_monitor.js:1044-1188 | an all-success round after the threshold has passed releases detention |
| Persistence.PlanFlush | src/server/node_services/nodes_monitor.js:1216-1247 | a flush runs only with force or enough dirty items; the dirty set is split into to-delete, existing and new parts that are disjoint and cover it, and it is cleared |
| Persistence.DecideNewNode | src/server/node_services/nodes_monitor.js:1266-1338 | a disconnected new node is discarded; a connected one still named with the no-name prefix is held back |
| Persistence.Requeued | src/server/node_services/nodes_monitor.js:1216-1409 | only items of the plan are queued again |
| Persistence.Removed | src/server/node_services/nodes_monitor.js:1266-1409 | only new or deleted items of the plan are removed from the maps |
| Persistence.AfterWrite | src/server/node_services/nodes_monitor.js:1266-1409 | a created node gains its stored copy and a status pass, keeping its connection exactly when it is live; a node sent for deletion is marked deleted with its stored copy kept; keys never change |
| Persistence.ApplyWrites | src/server/node_services/nodes_monitor.js:1266-1409 | created items are stored, items sent for deletion are marked deleted, every other item is unchanged, and consistency and registrations are kept |
| Persistence.CompleteFlush | src/server/node_services/nodes_monitor.js:1216-1409 | with the corrected removal: removed items are unreachable from every index, every other item stays registered, and the dirty set is the old one minus the removed, plus the requeued and the created items whose status pass disconnected them |
| Persistence.FlushRequeues | src/server/node_services/nodes_monitor.js:1249-1338 | held-back new nodes, new nodes without a token, new nodes the store reported as failed and created nodes whose connection went stale are dirty again; nothing outside the plan becomes dirty |
| Persistence.FlushRequeuesStored | src/server/node_services/nodes_monitor.js:1249-1264 | a stored item is dirty after the flush exactly when it was re-dirtied meanwhile, or its batch was not rejected and the store reported its write as failed |
| Persistence.ExistingRequeuedOnFailure | src/server/node_services/nodes_monitor.js:1249-1264 | a stored item is never removed or created by a flush, and is requeued exactly when its batch was not rejected and the store reported it failed |
| Persistence.NewItemFate | src/server/node_services/nodes_monitor.js:1266-1338 | a new item is removed exactly when it is discarded; held-back items, refused items and creations the store reported failed are requeued; a created item with a stale connection is re-dirtied |
| Persistence.DeletedItemFate | src/server/node_services/nodes_monitor.js:1342-1408 | an item sent for deletion leaves the indexes exactly when the store wrote it, is requeued exactly when the store reported it failed, and is never a creation |
| Persistence.RejectedDeletionsStay | src/server/node_services/nodes_monitor.js:1342-1408 | when the deletion batch is rejected, every item sent for deletion stays registered and marked deleted, and is dirty only if it was re-dirtied meanwhile |
| Persistence.FlushWrites | src/server/node_services/nodes_monitor.js:1266-1409 | every created item ends with a stored copy, a new item the store did not create keeps none, and every item sent for deletion is marked deleted |
| Persistence.FinishedWipingIsFlushedForDeletion | src/server/node_services/nodes_monitor.js:1216-1247 | a deleting node whose WIPING scan ends with a clean batch is dirty and ready to be deleted, so the next flush that runs sends it with the deletions |
| HostMode.StorageRollup | src/server/node_services/nodes_monitor.js:2071-2139 | the storage mode is OFFLINE iff all storage nodes are offline; DECOMMISSIONED and DECOMMISSIONING only when all nodes are; HAS_ISSUES only with an issue mode present; OPTIMAL only with no issue and enough free space |
| HostMode.NormaliseS3 | src/server/node_services/nodes_monitor.js:2117-2124 | a gateway mode is kept and any other mode becomes HTTP_SRV_ERRORS |
| HostMode.NormaliseS3Idempotent | src/server/node_services/nodes_monitor.js:2117-2124 | normalising twice is normalising once, and a mode is its own normalisation exactly when it is a gateway mode |
| HostMode.S3Rollup | src/server/node_services/nodes_monitor.js:2071-2139 | the gateway mode is the first gateway node's normalised mode, OPTIMAL when there is none |
| HostMode.CombineHostMode | src/server/node_services/nodes_monitor.js:2140-2151 | OFFLINE iff both parts are offline; UNTRUSTED iff storage is; issues on either part prevent OPTIMAL; OPTIMAL only when both parts are optimal or decommissioning |
| HostMode.CalculateHostMode | src/server/node_services/nodes_monitor.js:2071-2151 | the host mode combines the storage roll-up, computed on the host's storage breakdown, with the gateway roll-up |
| HostMode.HostOfflineIff | src/server/node_services/nodes_monitor.js:2071-2151 | a host is OFFLINE exactly when it has storage nodes, all offline, and a first gateway node that is offline |
| HostMode.HostOptimalHasNoIssues | src/server/node_services/nodes_monitor.js:2071-2151 | an OPTIMAL host has no storage node in an issue mode or untrusted, and its gateway is optimal or decommissioned |
| HostMode.SomeMeans | src/server/node_services/nodes_monitor.js:2040-2056 | the folded `some` holds exactly when some node has the flag |
| HostMode.EveryMeans | src/server/node_services/nodes_monitor.js:2040-2056 | the folded `every` holds exactly when every node has the flag |
| HostMode.ConsolidateFlags | src/server/node_services/nodes_monitor.js:2040-2056 | never reports a host both decommissioned and decommissioning; what each flag means over the nodes is stated by HostMode.ConsolidateFlagsMeaning and HostMode.ConsolidateErrorFlags |
| HostMode.ConsolidateFlagsMeaning | src/server/node_services/nodes_monitor.js:2040-2056 | a host is online if any node is; trusted and decommissioned only if all nodes are; decommissioning if all nodes are one or the other but not all decommissioned; migrating if any node is |
| HostMode.ConsolidateErrorFlags | src/server/node_services/nodes_monitor.js:2040-2056 | each error flag of a host is raised exactly when some node's timer of that kind runs |
| HostMode.SingleNodeHostFlags | src/server/node_services/nodes_monitor.js:2040-2056 | a host with one node reports that node's own flags |
| HostMode.AddingNodeJoinsFlags | src/server/node_services/nodes_monitor.js:2040-2056 | adding a node joins its flags to the host's: it can only turn online, migrating and the error flags on, and trusted and decommissioned off |
| Query.Counted | src/server/node_services/nodes_monitor.js:1926-1973 | the counted items are re-evaluated stored items that pass the base predicates |
| Query.Listed | src/server/node_services/nodes_monitor.js:1926-1973 | every listed item passes the has-issues, online and mode predicates |
| Query.CountedStep | src/server/node_services/nodes_monitor.js:1926-1973 | one more candidate is counted exactly when it is stored and its re-evaluated version passes the base predicates |
| Query.AddCount | src/server/node_services/nodes_monitor.js:1953-1955 | counting an item adds one to the total, to the online count when online, and to its mode's count |
| Query.AddCountStep | src/server/node_services/nodes_monitor.js:1953-1955 | counts that describe a list describe it after one more item is appended |
| Query.FilterNodes | src/server/node_services/nodes_monitor.js:1926-1973 | the list is exactly the counted items that pass the post-count predicates, and the total, online and per-mode counts describe all counted items |
| Query.CountedIgnoresPostFilters | src/server/node_services/nodes_monitor.js:1926-1973 | the counted items do not depend on the has-issues, online and mode predicates |
| Query.ListedWithoutPostFiltersIsCounted | src/server/node_services/nodes_monitor.js:1926-1973 | without post-count predicates every counted item is listed |
| Query.CountsIgnorePostFilters | src/server/node_services/nodes_monitor.js:1926-1973 | a query counts the same items as the query stripped of its post-count predicates, which lists all of them |
| Query.Paginate | src/server/node_services/nodes_monitor.js:2246-2250 | the page holds the items from `skip` on, at most `limit` of them (all when the limit is 0), clamped to the list |
| Query.PagesConcatenate | src/server/node_services/nodes_monitor.js:2246-2250 | two consecutive pages of one size make up the double-size page |
| Issues.FoldOldestAsWritten | src/server/node_services/nodes_monitor.js:2753-2761 | the source's trim step drops the oldest entry and keeps the rest in place |
| Issues.FoldOldest | src/server/node_services/nodes_monitor.js:2753-2761 | the corrected trim step keeps every report: the next entry absorbs the dropped one with everything it had absorbed, and `countSince` is the earliest of their times |
| Issues.TrimAsWritten | src/server/node_services/nodes_monitor.js:2753-2761 | the source's trim loop bounds the log at twenty entries |
| Issues.Trim | src/server/node_services/nodes_monitor.js:2753-2761 | corrected as in the third finding: the trimmed log has at most twenty entries, keeps the newest entries verbatim and accounts for every report |
| Issues.Append | src/server/node_services/nodes_monitor.js:2746-2761 | corrected as in the third finding: a report is appended as the newest entry, the log stays bounded, and it accounts for one more report |
| Issues.RepresentedAppend | src/server/node_services/nodes_monitor.js:2746-2751 | appending an entry adds its own reports to the log's total |
| Issues.FoldOldestAsWrittenLoses | src/server/node_services/nodes_monitor.js:2753-2761 | each as-written trim step loses exactly the reports the dropped entry had absorbed |
| Issues.TrimAsWrittenOverflow | src/server/node_services/nodes_monitor.js:2753-2761 | a log one entry over the bound is trimmed by a single step |
| Issues.AsWrittenUndercounts | src/server/node_services/nodes_monitor.js:2746-2761 | two more reports against a full log leave the as-written log accounting for fewer reports than were made |
| Issues.AppendKeepsEveryReport | src/server/node_services/nodes_monitor.js:2746-2761 | the corrected log accounts for every report ever made |
| Issues.AppendAll | src/server/node_services/nodes_monitor.js:2746-2761 | a bounded log stays bounded under any number of reports |
| Issues.ReportOne | src/server/node_services/nodes_monitor.js:2735-2767 | with the corrected append: a report for an unknown node changes nothing; a known node, online or not, gets the issue appended, loses its connection and is marked dirty, and no other item changes |
| Issues.ReportErrors | src/server/node_services/nodes_monitor.js:2733-2769 | refused with MONITOR_NOT_STARTED while the monitor is not started and with MONITOR_NOT_LOADED while it has not loaded, and only then; otherwise every report is applied and consistency is kept |
| Issues.ReportErrorsKeepsLogsBounded | src/server/node_services/nodes_monitor.js:2733-2769 | no node's issue log ever grows past twenty entries |
| Names.CandidateInjective | src/server/node_services/nodes_monitor.js:889-893 | different counters give different candidate names |
| Names.Tried | src/server/node_services/nodes_monitor.js:889-893 | every candidate numbered below the counter has been tried |
| Names.TriedExcludesLater | src/server/node_services/nodes_monitor.js:889-893 | a candidate numbered at or past the counter has not been tried yet |
| Names.TriedCard | src/server/node_services/nodes_monitor.js:889-893 | the counter minus one distinct candidates have been tried |
| Names.UniqueName | src/server/node_services/nodes_monitor.js:886-893 | the chosen name is free; it is the agent's name when that is free, and otherwise the lowest-numbered free `<base>-<n>` with every lower candidate taken |
| Names.AssignName | src/server/node_services/nodes_monitor.js:886-895 | the node's old name key is dropped, the chosen free name is filed under the node and becomes its name, and the node is marked dirty; consistency and every other registration with a different name are kept |
| Names.Rename | src/server/node_services/nodes_monitor.js:886-895 | renaming keeps the registry consistent: the old name key is dropped, the new name is filed under the node, which alone changes and is marked dirty |
| Names.RenameKeepsOthersRegistered | src/server/node_services/nodes_monitor.js:886-895 | every other node registered under a different name stays registered after a rename |
| Drives.DriveSpellingsNormalise | src/server/node_services/nodes_monitor.js:1433-1441 | every spelling of a drive letter (`x`, `x:`, `x:\`, in either case) normalises to the same `x:`, which is its own normalisation |
| Drives.ShouldIncludeDrives | src/server/node_services/nodes_monitor.js:1431-1446 | on Windows the mount is included iff no normalised exclusion equals its lower-cased form; elsewhere iff it is not excluded verbatim |
| Drives.LowerDriveName | src/server/node_services/nodes_monitor.js:1433-1443 | lower-casing `X:` gives `x:`, and lower-casing is idempotent on a letter |
| Drives.WindowsDriveSpellingsAgree | src/server/node_services/nodes_monitor.js:1431-1446 | on Windows, excluding `C`, `c`, `C:`, `C:\` or `c:\` excludes both `C:` and `c:` |
| Drives.ExcludedBy | src/server/node_services/nodes_monitor.js:1431-1443 | on Windows, an exclusion that normalises to the lower-cased mount excludes it |
| Drives.OtherSystemsAreCaseSensitive | src/server/node_services/nodes_monitor.js:1445 | elsewhere excluding `/MNT` does not exclude `/mnt` |
| Drives.ShouldEnableAgent | src/server/node_services/nodes_monitor.js:1418-1429 | a gateway follows `use_s3`; a storage agent is disabled by `use_storage` off or too little storage, and is otherwise decided by its first drive; other agents are enabled; a storage agent with no drive is an error |
| Drives.ExcludedWindowsDriveDisablesAgent | src/server/node_services/nodes_monitor.js:1418-1446 | on Windows a storage agent whose first drive is excluded under any spelling of its letter, anywhere in the list, is not enabled |
| Schedule.RunDelay | src/server/node_services/nodes_monitor.js:746-748 | the delay lies in [0, RUN_DELAY_MS]; a missing request gives the full delay and a negative one no delay |
| Schedule.ScheduleNextRun | src/server/node_services/nodes_monitor.js:746-765 | the pending run afterwards is the earlier of the pending run, if any, and now plus the clamped delay |
| Schedule.SchedulingNeverPostpones | src/server/node_services/nodes_monitor.js:746-765 | a request never postpones a pending run, always leaves one pending, and leaves it at most RUN_DELAY_MS away |
| Schedule.SchedulingTwiceKeepsEarlier | src/server/node_services/nodes_monitor.js:746-765 | two requests at the same moment leave the earlier of the two clamped delays pending |

## Left out

- Remote calls are inputs, not calls. This covers the RPCs to agents, the node
  store, system store, the token exchange, the block scans, dispatcher alerts
  and logging. Each outcome is a parameter (`Round`, `WriteOutcomes`,
  `BatchOutcome`) or is left out.
- Timers, promises and serial queues are left out. Each operation is one
  atomic step. Interleavings between a write to the store and a concurrent
  status change are not modelled.
- `Date.now()` is the `now` parameter. Configuration values are fields of
  `Config`, or parameters such as the minimum agent storage.
- Floating-point averages (latency, disk speed), `_dispatch_node_event`,
  `_update_data_activity_progress`'s time estimate and `scale_number_token`
  are left out.
- Sorting and shuffling of listings are left out, and so are
  `_aggregate_nodes_list`, `_suggest_pool_assign`, `allocate_nodes` and the
  n2n proxying and diagnostics entry points.
- The listing filters on regular expressions, geolocation, system and
  connectivity, and the data-activity query fields, are not part of the
  query model.
- The candidates of a listing are an input sequence. The source builds them
  from all indexed items, or as a set of the nodes the query names. The
  status pass a listing runs is reflected in the listed items but not written
  back to the registry, and neither is the store update that pass asks for
  when it finds an activity finished.
- Lower-casing folds only ASCII `A`-`Z`. JavaScript's `toLowerCase` also
  folds other alphabets.
- Names.UniqueName treats a missing agent name as the empty string, which is
  de-collided like any other name. The source keeps it `undefined`, which its
  name index never reports as taken (891). So the source never de-collides a
  missing name.
- Names.AssignName files a nameless node under its de-collided name. The
  source files it under the key `"undefined"` (895), overwriting an earlier
  nameless node's entry.
- Monitor.DecommissionNode stops before the forced store flush at 419, and
  leaves out the event and alert sent after it. That flush writes every dirty
  item, not only this one; it is modelled on its own by Persistence.PlanFlush
  and Persistence.CompleteFlush.
- Monitor.RecommissionNode stops before the forced store flush at 444, and
  leaves out the event and alert sent after it.
- Monitor.DeleteNode stops before the forced store flush at 511.
- Monitor.StatusPass works on one item. When its activity update finds the
  activity finished, the source also asks for a store update (1798-1801).
  The registry-level callers apply that request: Monitor.Touch marks every
  item it passes dirty, and Monitor.RebuildStep marks exactly those items.
- `start`, `stop` and `_load_from_store` are not operations of the model.
  Whether the monitor is started and whether it has loaded are registry
  fields. The source is loaded only while started (209-211, 551-555); the
  model does not rely on that, because a monitor not started refuses first.
- NodeRegistry.AddNewNode stops after indexing (612). Attaching the connection
  (614) is Monitor.SetConnection. `_set_node_defaults` (613) has nothing to do
  in the model, because every node field always has a value.
- HostMode.CalculateHostMode takes the host's root item as a parameter. The
  source picks the first storage node whose first drive is mounted at `/` or
  `c:`, else the first storage node (2024-2032). A host with no storage node
  has no root item and the source fails at 2033-2034; the model still returns
  a mode for it.
- `_get_agent_info` also changes the host id, and it applies the new name to
  the node only after further asynchronous steps. The model renames the
  index and the node in one step and leaves the host id alone.
- The node store's `bulk_update` either rejects a whole batch or reports each
  item as failed or updated. An updated creation is assumed to get its stored
  copy.
- Monitor.StatusPass runs the corrected activity update. On the first
  finding's input the source keeps `done` where the model clears it.
- Monitor.UpdateStatus inherits that correction from its status passes, so
  Monitor.UpdateStatusKeepsDoneOnlyAfterWiping holds for the corrected
  program only.
- DataActivity.RebuildNode re-runs the corrected activity update, so
  DataActivity.RebuildNodeKeepsWiping holds for the corrected program only.
- Persistence.CompleteFlush removes items with the corrected removal. With the
  source's removal, discarding a new node whose keys collide also unregisters
  the node that holds those keys (the second finding), so "every other item
  stays registered" holds for the corrected program only.
- Issues.ReportOne appends with the corrected fold. Once the source's log has
  folded an entry it accounts for fewer reports (the third finding). The
  length bound holds for both.
- HostMode.ConsolidateFlags takes the host's items as they are after the
  status pass that `_consolidate_host` first runs on each of them. That pass
  is not part of the function.
- Issues.TrimAsWritten: only the length bound is stated. What the as-written
  loop loses is stated by Issues.FoldOldestAsWrittenLoses and
  Issues.AsWrittenUndercounts.
- StatusEngine.ModeOf: its own contract only bounds the mode. The priority
  chain is stated by StatusEngine.ModeIsFirstMatch.

## Findings

| source | as written | input that shows it | evidently intended | confidence | as-written member | corrected member |
|---|---|---|---|---|---|---|
| src/server/node_services/nodes_monitor.js:1660-1662 | a reused data activity keeps its `done` flag when its reason changes | an untrusted node's RESTORING activity finishes, then the node is decommissioned: the activity gets a fresh WIPING stage but stays done, so WIPING is never scheduled and the node never becomes decommissioned | a change of reason starts the activity afresh (not done) | medium, not executed | DataActivity.AsWrittenWipingNeverScheduled | DataActivity.WipingIsScheduled |
| src/server/node_services/nodes_monitor.js:651-656 | removal deletes the item's id, peer and name keys whoever they point to | a new node whose generated name collides with an existing node is kept in the dirty set but not indexed; when the store write discards it, removal deletes the other node's name key | remove only the keys that point at the removed item | medium, not executed | NodeRegistry.AsWrittenRemovalUnregistersAnotherNode | NodeRegistry.RemoveNodesFromMaps |
| src/server/node_services/nodes_monitor.js:2753-2761 | trimming the issue log adds 1 to the next entry's count and drops the counts the oldest entry had absorbed | twenty-two reports against an empty log: the log accounts for twenty-one | carry the dropped entry's count (and its `count_since`) into the next entry | high, not executed | Issues.AsWrittenUndercounts | Issues.AppendKeepsEveryReport |

=== FILE: activity.dfy ===
/** The data-activity state machine: which reason a node has for moving data,
    the staged workflow OFFLINE_GRACE -> REBUILDING -> WIPING -> done, the
    scheduling decision taken after each step, and the bookkeeping of one
    rebuild batch (resumable marker, completed bytes, error checkpoint). */
module DataActivity {
  import opened Base
  import opened Types

  /** Items that can have an activity at all: stored, not deleted, not S3. */
  predicate Eligible(item: Item)
  {
    item.stored.Some? && !item.node.deleted && !item.node.s3Agent
  }

  /** `_get_data_activity_reason`, read against the item's current status. */
  function ActivityReason(item: Item): (r: Option<Reason>)
    ensures r == Some(ActDeleting) <==> Eligible(item) && item.node.deleting
    ensures r == Some(ActDecommissioning) <==>
      Eligible(item) && !item.node.deleting && !item.node.decommissioned && item.node.decommissioning
    ensures r == Some(ActMigrating) <==>
      Eligible(item) && !item.node.deleting && !item.node.decommissioned && !item.node.decommissioning
      && item.node.migratingToPool
    ensures r == Some(ActRestoring) <==>
      Eligible(item) && !item.node.deleting && !item.node.decommissioned && !item.node.decommissioning
      && !item.node.migratingToPool
      && (!item.status.online || !item.status.trusted || item.status.ioDetention != 0)
  {
    if item.stored.None? then None
    else if item.node.deleted then None
    else if item.node.s3Agent then None
    else if item.node.deleting then Some(ActDeleting)
    else if item.node.decommissioned then None
    else if item.node.decommissioning then Some(ActDecommissioning)
    else if item.node.migratingToPool then Some(ActMigrating)
    else if !item.status.online || !item.status.trusted || item.status.ioDetention != 0 then Some(ActRestoring)
    else None
  }

  /** The grace window starts at the detention time, else at the last heartbeat. */
  function GraceStart(item: Item): nat
  {
    if item.status.ioDetention != 0 then item.status.ioDetention else item.node.heartbeat
  }

  function GraceEnd(item: Item, cfg: Config): nat
  {
    GraceStart(item) + cfg.rebuildNodeOfflineGrace
  }

  function GraceStage(start: nat, end: nat): Stage
  {
    Stage(OfflineGrace, start, end, None, false, None, false, None, 0)
  }

  /** A REBUILDING or WIPING stage starting now over `used` bytes. */
  function FreshStage(name: StageName, now: nat, used: nat): Stage
  {
    Stage(name, now, 0, Some(Size(used, used, 0)), false, None, false, None, 0)
  }

  function StageRank(n: StageName): nat
  {
    match n
    case OfflineGrace => 0
    case Rebuilding => 1
    case Wiping => 2
  }

  predicate HasStage(item: Item, name: StageName)
  {
    item.activity.Some? && item.activity.value.stage.Some? && item.activity.value.stage.value.name == name
  }

  predicate StageFinished(item: Item, name: StageName)
  {
    HasStage(item, name) && item.activity.value.stage.value.done
  }

  /** A node differs from an earlier version at most by the terminal effects
      of a finished WIPING stage: migration cleared, and decommissioned set
      when the node was being decommissioned. */
  predicate WipingFlagsOnly(before: Node, after: Node)
  {
    after == before
    || after == before.(migratingToPool := false,
                        decommissioned := before.decommissioned || before.decommissioning)
  }

  /** What such a change keeps: every other field, and decommissioned only
      ever moves from unset to set on a decommissioning node. */
  lemma WipingFlagsOnlyKeeps(before: Node, after: Node)
    requires WipingFlagsOnly(before, after)
    ensures after == before.(migratingToPool := after.migratingToPool, decommissioned := after.decommissioned)
    ensures before.decommissioned ==> after.decommissioned
    ensures after.decommissioned ==> before.decommissioned || before.decommissioning
  {
  }

  /** Two such changes in a row are one such change. */
  lemma WipingFlagsOnlyTransitive(a: Node, b: Node, c: Node)
    requires WipingFlagsOnly(a, b) && WipingFlagsOnly(b, c)
    ensures WipingFlagsOnly(a, c)
  {
  }

  /** `_update_data_activity_stage`: one step of the staged workflow. */
  function UpdateStage(item: Item, now: nat, cfg: Config): (r: Item)
    requires item.activity.Some?
    // only the node, the deletion mark and the activity can change
    ensures r == item.(node := r.node, readyToBeDeleted := r.readyToBeDeleted, activity := r.activity)
    ensures r.activity.Some? && r.activity.value.stage.Some?
    ensures r.activity.value.reason == item.activity.value.reason
    ensures r.activity.value.running == item.activity.value.running
    ensures r.node.id == item.node.id && r.node.name == item.node.name && r.connection == item.connection
    ensures r.status == item.status && r.node.storage == item.node.storage
    // the node either stays as it was or takes the terminal WIPING flags
    ensures WipingFlagsOnly(item.node, r.node)
    // a grace stage is only ever entered for RESTORING
    ensures HasStage(r, OfflineGrace) ==>
      item.activity.value.reason == ActRestoring || HasStage(item, OfflineGrace)
    // a finished REBUILDING under RESTORING completes the activity without WIPING
    ensures item.activity.value.reason == ActRestoring && now >= GraceEnd(item, cfg)
            && StageFinished(item, Rebuilding)
            ==> r.activity.value.done && r.activity.value.stage == item.activity.value.stage
    // under any other reason a finished REBUILDING becomes a fresh WIPING
    ensures item.activity.value.reason != ActRestoring && StageFinished(item, Rebuilding)
            ==> r.activity.value.stage == Some(FreshStage(Wiping, now, item.node.storage.used))
                && r.activity.value.done == item.activity.value.done
    // a finished WIPING applies the terminal effects of the reason
    ensures !(item.activity.value.reason == ActRestoring && now < GraceEnd(item, cfg))
            && StageFinished(item, Wiping)
            ==> r.activity.value.done && !r.node.migratingToPool
                && (item.node.decommissioning ==> r.node.decommissioned)
                && (item.node.deleting ==> r.readyToBeDeleted)
    // the node's lifecycle flags change only when a WIPING stage finishes
    ensures !StageFinished(item, Wiping) ==> r.node == item.node && r.readyToBeDeleted == item.readyToBeDeleted
    // outside RESTORING the workflow never moves backwards
    ensures item.activity.value.reason != ActRestoring && item.activity.value.stage.Some?
            ==> StageRank(r.activity.value.stage.value.name) >= StageRank(item.activity.value.stage.value.name)
  {
    var act := item.activity.value;
    var start := GraceStart(item);
    var end := GraceEnd(item, cfg);
    if now < end && act.reason == ActRestoring then
      item.(activity := Some(act.(stage := Some(GraceStage(start, end)))))
    else
      var stage := if now >= end && act.stage.Some? && act.stage.value.name == OfflineGrace
                   then None else act.stage;
      if stage.None? then
        item.(activity := Some(act.(stage := Some(FreshStage(Rebuilding, now, item.node.storage.used)))))
      else if !stage.value.done then item
      else if stage.value.name == Rebuilding then
        if act.reason == ActRestoring then item.(activity := Some(act.(done := true)))
        else item.(activity := Some(act.(stage := Some(FreshStage(Wiping, now, item.node.storage.used)))))
      else if stage.value.name == Wiping then
        item.(node := item.node.(migratingToPool := false,
                                 decommissioned := item.node.decommissioned || item.node.decommissioning),
              readyToBeDeleted := item.readyToBeDeleted || item.node.deleting,
              activity := Some(act.(done := true)))
      else item
  }

  /** Decommissioned never reverts, and is only set on a node that is being
      decommissioned; the stored record is kept. */
  lemma UpdateStageDecommissioned(item: Item, now: nat, cfg: Config)
    requires item.activity.Some?
    ensures var r := UpdateStage(item, now, cfg);
      (item.node.decommissioned ==> r.node.decommissioned)
      && (r.node.decommissioned ==> item.node.decommissioned || item.node.decommissioning)
      && r.stored == item.stored
  {
  }

  /** The integer part of `_update_data_activity_progress`: the remaining size
      is what the total leaves after the completed part, never negative. */
  function RefreshRemaining(item: Item): (r: Item)
    ensures r == item.(activity := r.activity)
    ensures r.activity.Some? <==> item.activity.Some?
    ensures r.activity.Some? ==>
      r.activity.value == item.activity.value.(stage := r.activity.value.stage)
    ensures HasStageSize(r) <==> HasStageSize(item)
    ensures HasStageSize(item) ==>
      var s := r.activity.value.stage.value;
      var s0 := item.activity.value.stage.value;
      s == s0.(size := s.size)
      && s.size.value.total == s0.size.value.total
      && s.size.value.completed == s0.size.value.completed
      && s.size.value.remaining + Min(s.size.value.completed, s.size.value.total) == s.size.value.total
    ensures !HasStageSize(item) ==> r == item
    ensures r.node == item.node && r.status == item.status && r.readyToBeDeleted == item.readyToBeDeleted
  {
    if HasStageSize(item) then
      var act := item.activity.value;
      var st := act.stage.value;
      var sz := st.size.value;
      var remaining: nat := Max(0, sz.total - sz.completed);
      item.(activity := Some(act.(stage := Some(st.(size := Some(sz.(remaining := remaining)))))))
    else item
  }

  predicate HasStageSize(item: Item)
  {
    item.activity.Some? && item.activity.value.stage.Some? && item.activity.value.stage.value.size.Some?
  }

  /** `_update_data_activity`: drop the activity when no reason remains,
      otherwise create or update it and advance its stage. A reused activity
      whose reason changed is no longer done. */
  function UpdateDataActivity(item: Item, now: nat, cfg: Config): (r: Item)
    // only the node, the deletion mark and the activity can change
    ensures r == item.(node := r.node, readyToBeDeleted := r.readyToBeDeleted, activity := r.activity)
    ensures ActivityReason(item).None? ==> r == item.(activity := None)
    ensures ActivityReason(item).Some? ==>
      r.activity.Some? && r.activity.value.stage.Some?
      && r.activity.value.reason == ActivityReason(item).value
    ensures r.status == item.status && r.connection == item.connection && r.stored == item.stored
    ensures WipingFlagsOnly(item.node, r.node)
    ensures item.node.decommissioned ==> r.node.decommissioned
    ensures r.node.decommissioned ==> item.node.decommissioned || item.node.decommissioning
  {
    var reason := ActivityReason(item);
    if reason.None? then item.(activity := None)
    else
      var act := if item.activity.Some? then item.activity.value
                 else Activity(reason.value, None, false, false);
      var act1 := act.(reason := reason.value, done := act.done && act.reason == reason.value);
      UpdateStageDecommissioned(item.(activity := Some(act1)), now, cfg);
      RefreshRemaining(UpdateStage(item.(activity := Some(act1)), now, cfg))
  }

  /** `_update_data_activity` exactly as the source writes it: a reused
      activity keeps its `done` flag even when its reason changes. */
  function UpdateDataActivityAsWritten(item: Item, now: nat, cfg: Config): (r: Item)
    ensures ActivityReason(item).None? ==> r == item.(activity := None)
    ensures ActivityReason(item).Some? ==>
      r.activity.Some? && r.activity.value.reason == ActivityReason(item).value
  {
    var reason := ActivityReason(item);
    if reason.None? then item.(activity := None)
    else
      var act := if item.activity.Some? then item.activity.value
                 else Activity(reason.value, None, false, false);
      RefreshRemaining(UpdateStage(item.(activity := Some(act.(reason := reason.value))), now, cfg))
  }

  /** A done activity has either finished its WIPING stage, or is a
      RESTORING activity that never entered WIPING. */
  predicate DoneOnlyAfterWiping(item: Item)
  {
    item.activity.Some? && item.activity.value.done
    ==> StageFinished(item, Wiping)
        || (item.activity.value.reason == ActRestoring && !HasStage(item, Wiping))
  }

  lemma UpdateDataActivityKeepsWiping(item: Item, now: nat, cfg: Config)
    ensures DoneOnlyAfterWiping(item) ==> DoneOnlyAfterWiping(UpdateDataActivity(item, now, cfg))
  {
    var reason := ActivityReason(item);
    if DoneOnlyAfterWiping(item) && reason.Some? {
      var act := if item.activity.Some? then item.activity.value
                 else Activity(reason.value, None, false, false);
      var act1 := act.(reason := reason.value, done := act.done && act.reason == reason.value);
      var i1 := item.(activity := Some(act1));
      assert DoneOnlyAfterWiping(i1);
      var i2 := UpdateStage(i1, now, cfg);
      assert DoneOnlyAfterWiping(i2);
    }
  }

  /** The scheduling verdict of `_update_data_activity_schedule` (timers and
      the worker pool are not modelled). `Persist` drops the item from the
      items needing a rebuild batch and adds it to the items whose record
      needs a store update; `Enqueue` adds it to the items needing a rebuild
      batch. */
  datatype ScheduleDecision = Persist | WaitMaintenance | WaitNodeOffline | Enqueue | AlreadyRunning | Idle

  function Schedule(item: Item, inMaintenance: bool): (d: ScheduleDecision)
    requires item.activity.Some? ==> item.activity.value.stage.Some?
    ensures d == Enqueue ==> item.activity.Some? && !item.activity.value.done && !inMaintenance
                             && !item.activity.value.running
    ensures d == Enqueue && HasStage(item, Wiping) ==> item.status.online
    ensures (item.activity.Some? && !item.activity.value.done && !inMaintenance
             && !item.activity.value.running && HasStage(item, Rebuilding)) ==> d == Enqueue
    // a finished (or missing) activity asks for a store update, and nothing else does
    ensures d == Persist <==> item.activity.None? || item.activity.value.done
  {
    if item.activity.None? then Persist
    else
      var act := item.activity.value;
      if act.done then Persist
      else if inMaintenance then WaitMaintenance
      else if act.stage.value.name == Rebuilding then (if act.running then AlreadyRunning else Enqueue)
      else if act.stage.value.name == Wiping then
        (if !item.status.online then WaitNodeOffline else if act.running then AlreadyRunning else Enqueue)
      else Idle
  }

  /** The store-update request of the schedule step on its own: it is made
      exactly for a finished (or missing) activity. */
  function PersistRequested(item: Item, inMaintenance: bool): (p: bool)
    requires item.activity.Some? ==> item.activity.value.stage.Some?
    ensures p <==> item.activity.None? || item.activity.value.done
  {
    Schedule(item, inMaintenance) == Persist
  }

  /** Counterexample for the source as written: an untrusted node whose
      RESTORING activity finished is then decommissioned. The activity moves
      to a fresh WIPING stage but stays done, so WIPING is never scheduled and
      the node never becomes decommissioned. */
  lemma AsWrittenWipingNeverScheduled()
    ensures exists item: Item, now: nat, cfg: Config ::
      DoneOnlyAfterWiping(item)
      && var r := UpdateDataActivityAsWritten(item, now, cfg);
         !DoneOnlyAfterWiping(r) && HasStage(r, Wiping) && !StageFinished(r, Wiping)
         && r.status.online && Schedule(r, false) == Persist
  {
    var storage := StorageCounters(100, 50, 50, 0, 0, 0, 0);
    var node := Node("id", "peer", "name", "host", "pool", "n2n://peer", 1000, BlockStoreFs,
                     false, false, false, false, false, true, false, false, false, false, storage, []);
    var status := Status(true, false, 0, false, true, false, false, NoAccess, Untrusted);
    var finished := Stage(Rebuilding, 0, 0, Some(Size(50, 0, 50)), true, None, false, None, 0);
    var act := Activity(ActRestoring, Some(finished), true, false);
    var item := Item(node, Some(Connection(1, "h", true)), Some(StoredRecord(false)),
                     0, 0, 0, 0, 0, 0, false, status, Some(act));
    var cfg := Config(0, 0, 1, 0);
    var now: nat := 2000;
    assert ActivityReason(item) == Some(ActDecommissioning);
    var r := UpdateDataActivityAsWritten(item, now, cfg);
    assert r.activity.value.done;
    assert HasStage(r, Wiping) && !StageFinished(r, Wiping);
  }

  /** With the correction, an online node whose activity sits in an unfinished
      WIPING stage is always handed to the rebuild workers (outside
      maintenance and when no batch is in flight). */
  lemma WipingIsScheduled(item: Item, now: nat, cfg: Config)
    requires DoneOnlyAfterWiping(item)
    requires item.status.online
    ensures var r := UpdateDataActivity(item, now, cfg);
      HasStage(r, Wiping) && !StageFinished(r, Wiping) && !r.activity.value.running
      ==> Schedule(r, false) == Enqueue
  {
    UpdateDataActivityKeepsWiping(item, now, cfg);
  }

  /** Outcome of one rebuild batch, supplied by the chunk iterator and the
      chunk builder: the iterator failed; it returned a marker but building
      failed; or the batch of `blocksSize` bytes succeeded. */
  datatype BatchOutcome =
    | IterateFailed
    | BuildFailed(nextMarker: Option<nat>)
    | BatchSucceeded(nextMarker: Option<nat>, blocksSize: nat)

  predicate RebuildReady(act: Activity)
  {
    act.stage.Some? && act.stage.value.size.Some?
  }

  /** The first failure since the last rewind remembers where the failed batch
      started and how much was completed at that point; later failures keep it. */
  function RecordError(st: Stage, startMarker: Option<nat>): (r: Stage)
    requires st.size.Some?
    ensures r.size == st.size && r.marker == st.marker && r.rebuildError
    ensures !st.rebuildError ==> r.errorMarker == startMarker && r.errorMarkerCompleted == st.size.value.completed
    ensures st.rebuildError ==> r == st
  {
    if st.rebuildError then st
    else st.(rebuildError := true, errorMarker := startMarker, errorMarkerCompleted := st.size.value.completed)
  }

  /** While an error checkpoint is held, it never lies ahead of the progress. */
  predicate CheckpointBehind(st: Stage)
  {
    st.size.Some? && (st.rebuildError ==> st.errorMarkerCompleted <= st.size.value.completed)
  }

  /** The bookkeeping of `_rebuild_node` for one batch. */
  function RebuildBatch(act: Activity, outcome: BatchOutcome): (r: Activity)
    requires RebuildReady(act)
    ensures RebuildReady(r)
    ensures act.running ==> r == act
    ensures r.reason == act.reason && r.done == act.done
    ensures !act.running ==> !r.running
    ensures r.stage.value.name == act.stage.value.name
    ensures act.stage.value.done ==> r.stage.value.done
    ensures CheckpointBehind(act.stage.value) ==> CheckpointBehind(r.stage.value)
    // completed bytes grow only on a successful batch
    ensures !act.running && !outcome.BatchSucceeded? ==>
      r.stage.value.size.value.completed == act.stage.value.size.value.completed
    ensures !act.running && outcome.BatchSucceeded? && outcome.nextMarker.Some? ==>
      r.stage.value.size.value.completed == act.stage.value.size.value.completed + outcome.blocksSize
      && r.stage.value.marker == outcome.nextMarker
    // the first failure records the checkpoint
    ensures !act.running && !outcome.BatchSucceeded? && !act.stage.value.rebuildError ==>
      r.stage.value.rebuildError
      && r.stage.value.errorMarker == act.stage.value.marker
      && r.stage.value.errorMarkerCompleted == act.stage.value.size.value.completed
    // the end of a scan after an error rewinds to the checkpoint
    ensures !act.running && outcome.BatchSucceeded? && outcome.nextMarker.None? && act.stage.value.rebuildError ==>
      r.stage.value.marker == act.stage.value.errorMarker
      && r.stage.value.size.value.completed == act.stage.value.errorMarkerCompleted
      && !r.stage.value.rebuildError && r.stage.value.errorMarker.None?
      && r.stage.value.done == act.stage.value.done
    // the end of a clean scan finishes the stage
    ensures !act.running && outcome.BatchSucceeded? && outcome.nextMarker.None? && !act.stage.value.rebuildError ==>
      r.stage.value.done
  {
    if act.running then act
    else
      var st := act.stage.value;
      var sz := st.size.value;
      var act0 := act.(running := false);
      match outcome
      case IterateFailed => act0.(stage := Some(RecordError(st, st.marker)))
      case BuildFailed(m) => act0.(stage := Some(RecordError(st.(marker := m), st.marker)))
      case BatchSucceeded(m, b) =>
        var st1 := st.(marker := m, size := Some(sz.(completed := sz.completed + b)));
        if m.Some? then act0.(stage := Some(st1))
        else if st1.rebuildError then
          act0.(stage := Some(st1.(marker := st.errorMarker,
                                   size := Some(sz.(completed := st.errorMarkerCompleted)),
                                   rebuildError := false, errorMarker := None, errorMarkerCompleted := 0)))
        else act0.(stage := Some(st1.(done := true)))
  }

  /** `_rebuild_node`: apply one batch, then re-run the activity update. */
  function RebuildNode(item: Item, outcome: BatchOutcome, now: nat, cfg: Config): (r: Item)
    requires item.activity.Some? ==> RebuildReady(item.activity.value)
    ensures item.activity.None? || item.activity.value.running ==> r == item
    ensures r.activity.Some? ==> r.activity.value.stage.Some?
    ensures r.status == item.status && r.connection == item.connection && r.stored == item.stored
    ensures WipingFlagsOnly(item.node, r.node)
  {
    if item.activity.None? then item
    else if item.activity.value.running then item
    else UpdateDataActivity(item.(activity := Some(RebuildBatch(item.activity.value, outcome))), now, cfg)
  }

  /** A rebuild batch never lets an activity be done before its WIPING stage
      finished: the batch keeps the stage and the done flag, and a finished
      stage stays finished. */
  lemma RebuildNodeKeepsWiping(item: Item, outcome: BatchOutcome, now: nat, cfg: Config)
    requires item.activity.Some? ==> RebuildReady(item.activity.value)
    requires DoneOnlyAfterWiping(item)
    ensures DoneOnlyAfterWiping(RebuildNode(item, outcome, now, cfg))
  {
    if item.activity.Some? && !item.activity.value.running {
      var m := item.(activity := Some(RebuildBatch(item.activity.value, outcome)));
      assert DoneOnlyAfterWiping(m);
      UpdateDataActivityKeepsWiping(m, now, cfg);
    }
  }

  /** A batch reaches the item: when the activity is idle, keeps its reason,
      is past any grace period and the batch leaves its stage unfinished, the
      item's stage afterwards is the batch's stage (marker, completed size and
      error checkpoint), with only the remaining size refreshed. */
  lemma RebuildNodeAppliesBatch(item: Item, outcome: BatchOutcome, now: nat, cfg: Config)
    requires item.activity.Some? && RebuildReady(item.activity.value) && !item.activity.value.running
    requires var b := RebuildBatch(item.activity.value, outcome);
      var m := item.(activity := Some(b));
      ActivityReason(m) == Some(b.reason) && !b.stage.value.done && b.stage.value.name != OfflineGrace
      && !(b.reason == ActRestoring && now < GraceEnd(m, cfg))
    ensures var b := RebuildBatch(item.activity.value, outcome);
      var st := b.stage.value;
      var r := RebuildNode(item, outcome, now, cfg);
      r.activity.Some? && r.activity.value == b.(stage := r.activity.value.stage)
      && r.activity.value.stage.Some? && r.activity.value.stage.value == st.(size := r.activity.value.stage.value.size)
      && r.activity.value.stage.value.size.Some?
      && r.activity.value.stage.value.size.value.completed == st.size.value.completed
  {
    var b := RebuildBatch(item.activity.value, outcome);
    var m := item.(activity := Some(b));
    assert m.activity.value.(reason := b.reason, done := b.done && b.reason == b.reason) == b;
    assert UpdateStage(m, now, cfg) == m;
  }

  /** The error checkpoint never lies ahead of the progress after a batch:
      the batch keeps it behind, and a stage step either keeps the stage or
      starts one without a checkpoint. */
  lemma RebuildNodeKeepsCheckpoint(item: Item, outcome: BatchOutcome, now: nat, cfg: Config)
    requires item.activity.Some? ==> RebuildReady(item.activity.value)
    requires item.activity.Some? ==> CheckpointBehind(item.activity.value.stage.value)
    ensures var r := RebuildNode(item, outcome, now, cfg);
      HasStageSize(r) ==> CheckpointBehind(r.activity.value.stage.value)
  {
    if item.activity.Some? && !item.activity.value.running {
      var m := item.(activity := Some(RebuildBatch(item.activity.value, outcome)));
      var reason := ActivityReason(m);
      if reason.Some? {
        var act := m.activity.value;
        var m1 := m.(activity := Some(act.(reason := reason.value, done := act.done && act.reason == reason.value)));
        UpdateStageKeepsCheckpoint(m1, now, cfg);
      }
    }
  }

  /** A stage step keeps the stage it is given, or starts one without a
      checkpoint. */
  lemma UpdateStageKeepsCheckpoint(item: Item, now: nat, cfg: Config)
    requires item.activity.Some?
    requires HasStageSize(item) ==> CheckpointBehind(item.activity.value.stage.value)
    ensures var r := UpdateStage(item, now, cfg);
      HasStageSize(r) ==> CheckpointBehind(r.activity.value.stage.value)
  {
  }

  /** The last clean batch of a deleting node's WIPING scan finishes the
      activity and leaves the item ready to be deleted. */
  lemma DeletingNodeFinishesWiping(item: Item, b: nat, now: nat, cfg: Config)
    requires Eligible(item) && item.node.deleting
    requires item.activity.Some? && RebuildReady(item.activity.value) && !item.activity.value.running
    requires HasStage(item, Wiping) && !item.activity.value.stage.value.rebuildError
    ensures var r := RebuildNode(item, BatchSucceeded(None, b), now, cfg);
      r.activity.Some? && r.activity.value.done && r.readyToBeDeleted
  {
    var m := item.(activity := Some(RebuildBatch(item.activity.value, BatchSucceeded(None, b))));
    assert ActivityReason(m) == Some(ActDeleting);
    var act := m.activity.value;
    var m1 := m.(activity := Some(act.(reason := ActDeleting, done := act.done && act.reason == ActDeleting)));
    assert StageFinished(m1, Wiping);
    var m2 := UpdateStage(m1, now, cfg);
    assert m2.activity.value.done && m2.readyToBeDeleted;
  }

  /** A decommissioning node that is online goes through REBUILDING and then
      WIPING, and after two clean scans is decommissioned with its activity
      done. */
  lemma DecommissionPassesThroughWiping(item: Item, now: nat, cfg: Config, b1: nat, b2: nat)
    requires Eligible(item) && !item.node.deleting && !item.node.decommissioned
    requires item.node.decommissioning && item.activity.None?
    ensures var a1 := UpdateDataActivity(item, now, cfg);
      HasStage(a1, Rebuilding) && !a1.activity.value.done
      && var a2 := RebuildNode(a1, BatchSucceeded(None, b1), now, cfg);
         HasStage(a2, Wiping) && !a2.activity.value.done && !a2.node.decommissioned
         && var a3 := RebuildNode(a2, BatchSucceeded(None, b2), now, cfg);
            a3.node.decommissioned && a3.activity.Some? && a3.activity.value.done
            && HasStage(a3, Wiping)
  {
    var a1 := UpdateDataActivity(item, now, cfg);
    assert ActivityReason(item) == Some(ActDecommissioning);
    assert HasStage(a1, Rebuilding) && !a1.activity.value.stage.value.done;
    var b := RebuildBatch(a1.activity.value, BatchSucceeded(None, b1));
    var m1 := a1.(activity := Some(b));
    assert ActivityReason(m1) == Some(ActDecommissioning);
    assert StageFinished(m1, Rebuilding);
    var a2 := RebuildNode(a1, BatchSucceeded(None, b1), now, cfg);
    assert a2 == UpdateDataActivity(m1, now, cfg);
    assert HasStage(a2, Wiping) && !a2.activity.value.stage.value.done;
    var c := RebuildBatch(a2.activity.value, BatchSucceeded(None, b2));
    var m2 := a2.(activity := Some(c));
    assert ActivityReason(m2) == Some(ActDecommissioning);
    assert StageFinished(m2, Wiping);
  }
}

=== FILE: base.dfy ===
/** Small shared vocabulary: optional values, results, and the handful of
    string operations the monitor performs (ASCII lower-casing, prefix tests,
    decimal rendering of counters). */
module Base {

  datatype Option<+T> = None | Some(value: T)

  datatype Result<+R, +E> = Success(value: R) | Failure(error: E)

  function Min(a: int, b: int): int { if a <= b then a else b }

  function Max(a: int, b: int): int { if a >= b then a else b }

  /** Lower-case one character; only the ASCII letters A-Z are folded. */
  function LowerChar(c: char): char
  {
    if 'A' <= c <= 'Z' then ((c as int) + 32) as char else c
  }

  function Lower(s: string): (r: string)
    ensures |r| == |s|
    ensures forall i :: 0 <= i < |s| ==> r[i] == LowerChar(s[i])
  {
    if |s| == 0 then [] else [LowerChar(s[0])] + Lower(s[1..])
  }

  predicate StartsWith(s: string, prefix: string)
  {
    |prefix| <= |s| && s[..|prefix|] == prefix
  }

  predicate IsDigit(c: char) { '0' <= c <= '9' }

  function DigitChar(d: nat): (c: char)
    requires d < 10
    ensures IsDigit(c)
  {
    ((d + ('0' as int)) as char)
  }

  function DigitValue(c: char): nat
    requires IsDigit(c)
  {
    (c as int) - ('0' as int)
  }

  /** Decimal rendering of a natural number, as JavaScript's `String(n)`. */
  function NatToString(n: nat): (s: string)
    ensures |s| >= 1
    ensures forall i :: 0 <= i < |s| ==> IsDigit(s[i])
    decreases n
  {
    if n < 10 then [DigitChar(n)] else NatToString(n / 10) + [DigitChar(n % 10)]
  }

  /** Reads a string of decimal digits back into the number it denotes. */
  function ParseNat(s: string): nat
    requires forall i :: 0 <= i < |s| ==> IsDigit(s[i])
  {
    if |s| == 0 then 0 else ParseNat(s[..|s| - 1]) * 10 + DigitValue(s[|s| - 1])
  }

  lemma {:induction false} ParseNatToString(n: nat)
    ensures ParseNat(NatToString(n)) == n
    decreases n
  {
    var s := NatToString(n);
    if n < 10 {
      assert s[..0] == [];
    } else {
      ParseNatToString(n / 10);
      assert s[..|s| - 1] == NatToString(n / 10);
    }
  }

  /** Distinct counters render as distinct strings. */
  lemma NatToStringInjective(a: nat, b: nat)
    requires NatToString(a) == NatToString(b)
    ensures a == b
  {
    ParseNatToString(a);
    ParseNatToString(b);
  }
}

=== FILE: drives.dfy ===
/** Whether a new agent's services start (`_should_enable_agent`), and the
    excluded-drives test it uses (`_should_include_drives`). Windows drive
    names are compared case-insensitively after normalising `c`, `c:` and
    `c:\` to the same form; other systems compare mount points verbatim. */
module Drives {
  import opened Base
  import opened Types

  /** One exclusion entry as it is compared on Windows: a bare letter gains a
      colon, one trailing backslash is dropped, and the result is lower-cased. */
  function NormaliseWinDrive(drv: string): (r: string)
    ensures |drv| == 1 ==> r == Lower(drv + ":")
    ensures |drv| != 1 && |drv| > 0 && drv[|drv| - 1] == '\\' ==> r == Lower(drv[..|drv| - 1])
    ensures |drv| != 1 && (|drv| == 0 || drv[|drv| - 1] != '\\') ==> r == Lower(drv)
  {
    var ret :=
      if |drv| == 1 then drv + ":"
      else if |drv| > 0 && drv[|drv| - 1] == '\\' then drv[..|drv| - 1]
      else drv;
    Lower(ret)
  }

  function NormaliseWinDrives(excluded: seq<string>): (r: seq<string>)
    ensures |r| == |excluded|
    ensures forall i :: 0 <= i < |r| ==> r[i] == NormaliseWinDrive(excluded[i])
  {
    seq(|excluded|, i requires 0 <= i < |excluded| => NormaliseWinDrive(excluded[i]))
  }

  predicate IsWindows(osType: string)
  {
    osType == "Windows_NT"
  }

  function ShouldIncludeDrives(mount: string, osType: string, excluded: seq<string>): (r: bool)
    ensures IsWindows(osType) ==>
      (r <==> forall i :: 0 <= i < |excluded| ==> NormaliseWinDrive(excluded[i]) != Lower(mount))
    ensures !IsWindows(osType) ==> (r <==> mount !in excluded)
  {
    if IsWindows(osType) then Lower(mount) !in NormaliseWinDrives(excluded)
    else mount !in excluded
  }

  /** Lower-casing a two-character drive spelling `X:` gives `x:`. */
  lemma LowerDriveName(letter: char)
    requires 'A' <= letter <= 'Z' || 'a' <= letter <= 'z'
    ensures Lower([letter, ':']) == [LowerChar(letter), ':']
    ensures LowerChar(LowerChar(letter)) == LowerChar(letter)
  {
    var r := Lower([letter, ':']);
    assert r[0] == LowerChar(letter) && r[1] == LowerChar(':');
  }

  /** On Windows, excluding a drive by its bare letter, by `X:` or by `X:\`,
      in either case, excludes the mount `x:` and `X:` alike. */
  lemma WindowsDriveSpellingsAgree(letter: char, mount: string, osType: string)
    requires 'A' <= letter <= 'Z' && IsWindows(osType)
    requires mount == [letter, ':'] || mount == [LowerChar(letter), ':']
    ensures !ShouldIncludeDrives(mount, osType, [[letter]])
    ensures !ShouldIncludeDrives(mount, osType, [[LowerChar(letter)]])
    ensures !ShouldIncludeDrives(mount, osType, [[letter, ':']])
    ensures !ShouldIncludeDrives(mount, osType, [[letter, ':', '\\']])
    ensures !ShouldIncludeDrives(mount, osType, [[LowerChar(letter), ':', '\\']])
  {
    var low := LowerChar(letter);
    var lowered := [low, ':'];
    LowerDriveName(letter);
    LowerDriveName(low);
    assert Lower(mount) == lowered;
    assert [letter] + ":" == [letter, ':'];
    assert [low] + ":" == [low, ':'];
    ExcludedBy(mount, osType, [letter]);
    ExcludedBy(mount, osType, [low]);
    ExcludedBy(mount, osType, [letter, ':']);
    assert [letter, ':', '\\'][..2] == [letter, ':'];
    ExcludedBy(mount, osType, [letter, ':', '\\']);
    assert [low, ':', '\\'][..2] == [low, ':'];
    ExcludedBy(mount, osType, [low, ':', '\\']);
  }

  /** Every spelling of a drive letter, `x`, `x:` or `x:\` in either case,
      normalises to the same `x:`, and that form is its own normalisation. */
  lemma DriveSpellingsNormalise(letter: char)
    requires 'A' <= letter <= 'Z' || 'a' <= letter <= 'z'
    ensures var canon := [LowerChar(letter), ':'];
      NormaliseWinDrive([letter]) == canon
      && NormaliseWinDrive([letter, ':']) == canon
      && NormaliseWinDrive([letter, ':', '\\']) == canon
      && NormaliseWinDrive(canon) == canon
  {
    LowerDriveName(letter);
    LowerDriveName(LowerChar(letter));
    assert [letter] + ":" == [letter, ':'];
    assert [letter, ':', '\\'][..2] == [letter, ':'];
  }

  lemma ExcludedBy(mount: string, osType: string, drv: string)
    requires IsWindows(osType) && NormaliseWinDrive(drv) == Lower(mount)
    ensures !ShouldIncludeDrives(mount, osType, [drv])
  {
    assert NormaliseWinDrive([drv][0]) == Lower(mount);
  }

  /** Elsewhere the comparison is exact: excluding `/MNT` leaves `/mnt` in. */
  lemma OtherSystemsAreCaseSensitive(osType: string)
    requires !IsWindows(osType)
    ensures ShouldIncludeDrives("/mnt", osType, ["/MNT"])
    ensures !ShouldIncludeDrives("/mnt", osType, ["/mnt"])
  {
    assert "/mnt" != "/MNT" by { assert "/mnt"[1] != "/MNT"[1]; }
  }

  /** The agent configuration fields the decision reads, with the source's
      defaults applied by the caller. */
  datatype AgentConfig = AgentConfig(useS3: bool, useStorage: bool, excludeDrives: seq<string>)

  /** The parts of an agent's first report the decision reads; `mounts` are
      the drives' mount points in reported order. */
  datatype AgentInfo = AgentInfo(nodeType: NodeType, storageTotal: nat, mounts: seq<string>, osType: string)

  datatype EnableError = NoDrives

  /** `_should_enable_agent`. A storage agent that passes the storage checks
      but reports no drive makes the source fail on `drives[0]`. */
  function ShouldEnableAgent(info: AgentInfo, ac: AgentConfig, minimumTotalStorage: nat): (r: Result<bool, EnableError>)
    ensures info.nodeType == EndpointS3 ==> r == Success(ac.useS3)
    ensures info.nodeType == OtherNodeType ==> r == Success(true)
    ensures info.nodeType == BlockStoreFs && (!ac.useStorage || info.storageTotal < minimumTotalStorage)
            ==> r == Success(false)
    ensures r.Failure? <==> info.nodeType == BlockStoreFs && ac.useStorage
                            && info.storageTotal >= minimumTotalStorage && |info.mounts| == 0
    ensures r == Success(true) && info.nodeType == BlockStoreFs ==>
      ac.useStorage && info.storageTotal >= minimumTotalStorage
      && ShouldIncludeDrives(info.mounts[0], info.osType, ac.excludeDrives)
  {
    match info.nodeType
    case EndpointS3 => Success(ac.useS3)
    case BlockStoreFs =>
      if !ac.useStorage then Success(false)
      else if info.storageTotal < minimumTotalStorage then Success(false)
      else if |info.mounts| == 0 then Failure(NoDrives)
      else Success(ShouldIncludeDrives(info.mounts[0], info.osType, ac.excludeDrives))
    case OtherNodeType => Success(true)
  }

  /** A storage agent that passes the storage checks is enabled exactly when
      its first drive is not excluded: on Windows no exclusion normalises to
      the drive's lower-cased name, elsewhere the mount point is not listed. */
  lemma StorageAgentEnabledExactly(info: AgentInfo, ac: AgentConfig, minimumTotalStorage: nat)
    requires info.nodeType == BlockStoreFs && |info.mounts| > 0
    ensures ShouldEnableAgent(info, ac, minimumTotalStorage) == Success(true) <==>
      ac.useStorage && info.storageTotal >= minimumTotalStorage
      && (IsWindows(info.osType) ==>
            forall j :: 0 <= j < |ac.excludeDrives| ==> NormaliseWinDrive(ac.excludeDrives[j]) != Lower(info.mounts[0]))
      && (!IsWindows(info.osType) ==> info.mounts[0] !in ac.excludeDrives)
  {
  }

  /** On Windows, a storage agent whose first drive `X:` is excluded under any
      spelling of its letter, in any position of the list, is not enabled. */
  lemma ExcludedWindowsDriveDisablesAgent(info: AgentInfo, ac: AgentConfig, minimumTotalStorage: nat,
                                          letter: char, j: nat)
    requires info.nodeType == BlockStoreFs && IsWindows(info.osType) && 'A' <= letter <= 'Z'
    requires |info.mounts| > 0 && (info.mounts[0] == [letter, ':'] || info.mounts[0] == [LowerChar(letter), ':'])
    requires j < |ac.excludeDrives|
    requires var e := ac.excludeDrives[j];
      e == [letter] || e == [letter, ':'] || e == [letter, ':', '\\']
      || e == [LowerChar(letter)] || e == [LowerChar(letter), ':'] || e == [LowerChar(letter), ':', '\\']
    ensures ShouldEnableAgent(info, ac, minimumTotalStorage) != Success(true)
  {
    DriveSpellingsNormalise(letter);
    DriveSpellingsNormalise(LowerChar(letter));
    LowerDriveName(letter);
    assert Lower(info.mounts[0]) == [LowerChar(letter), ':'];
    assert NormaliseWinDrive(ac.excludeDrives[j]) == Lower(info.mounts[0]);
    StorageAgentEnabledExactly(info, ac, minimumTotalStorage);
  }
}

=== FILE: hostmode.dfy ===
/** A host groups the nodes one agent machine runs: storage nodes and S3
    gateway nodes. Its mode is a rollup of the storage nodes' modes, combined
    with the (normalised) mode of the first gateway node through a fixed
    table (`_calculate_host_mode`); a few host flags are rollups of the nodes'
    flags (`_consolidate_host`). */
module HostMode {
  import opened Base
  import opened Types
  import Storage
  import S = StatusEngine

  predicate AllIn(ms: seq<Mode>, p: set<Mode>)
  {
    forall i :: 0 <= i < |ms| ==> ms[i] in p
  }

  predicate AnyIn(ms: seq<Mode>, p: set<Mode>)
  {
    exists i :: 0 <= i < |ms| && ms[i] in p
  }

  /** Storage node modes that count as a node with issues. */
  const IssueModes: set<Mode> := {Offline, StorageNotExist, IoErrors, N2nErrors, GatewayErrors}

  /** Storage rollups that make the host report HAS_ISSUES. */
  const StorageIssueModes: set<Mode> := {HasIssues, Detention, MemoryPressure, NoCapacity, LowCapacity}

  /** Gateway modes that are reported as they are; any other one is reported
      as an HTTP server error. */
  const S3Modes: set<Mode> :=
    {Offline, Untrusted, Initializing, Decommissioned, N2nErrors, GatewayErrors, Optimal, HttpSrvErrors}

  /** The storage-node rollup: the first matching rule of the chain, with the
      host's aggregated free and used space for the capacity rules. A host
      without storage nodes counts as OPTIMAL. */
  function StorageRollup(ms: seq<Mode>, free: nat, used: nat): (r: Mode)
    ensures |ms| == 0 ==> r == Optimal
    ensures r == Offline <==> |ms| > 0 && AllIn(ms, {Offline})
    ensures r == Decommissioned ==> AllIn(ms, {Decommissioned})
    ensures r == Decommissioning ==> AllIn(ms, {Decommissioned, Decommissioning})
    ensures r == Untrusted ==> AnyIn(ms, {Untrusted})
    ensures r == Detention ==> AllIn(ms, {IoErrors, N2nErrors, GatewayErrors})
    ensures r == HasIssues ==> AnyIn(ms, IssueModes)
    ensures r == NoCapacity ==> free <= MB
    ensures r == Optimal && |ms| > 0 ==>
      !AnyIn(ms, IssueModes + {Untrusted, MemoryPressure, Migrating, Decommissioning, Initializing})
      && free > MB && S.FreeRatio(free, used) > 20
  {
    if |ms| == 0 then Optimal
    else if AllIn(ms, {Offline}) then Offline
    else if AllIn(ms, {Decommissioned}) then Decommissioned
    else if AllIn(ms, {Decommissioned, Decommissioning}) then Decommissioning
    else if AnyIn(ms, {Untrusted}) then Untrusted
    else if AllIn(ms, {IoErrors, N2nErrors, GatewayErrors}) then Detention
    else if AnyIn(ms, IssueModes) then HasIssues
    else if AnyIn(ms, {MemoryPressure}) then MemoryPressure
    else if free <= MB then NoCapacity
    else if AnyIn(ms, {Migrating, Decommissioning}) then DataActivity
    else if S.FreeRatio(free, used) <= 20 then LowCapacity
    else if AnyIn(ms, {Initializing}) then Initializing
    else Optimal
  }

  /** A gateway mode outside the reported set becomes HTTP_SRV_ERRORS. */
  function NormaliseS3(m: Mode): (r: Mode)
    ensures r in S3Modes
    ensures m in S3Modes ==> r == m
    ensures m !in S3Modes ==> r == HttpSrvErrors
  {
    if m in S3Modes then m else HttpSrvErrors
  }

  /** Normalising a normalised mode changes nothing, and a mode survives
      exactly when it is one of the reported gateway modes. */
  lemma NormaliseS3Idempotent(m: Mode)
    ensures NormaliseS3(NormaliseS3(m)) == NormaliseS3(m)
    ensures NormaliseS3(m) == m <==> m in S3Modes
  {
  }

  /** The gateway modes after normalisation (the source rewrites the gateway
      items' modes in place). */
  function NormaliseS3Modes(ms: seq<Mode>): (r: seq<Mode>)
    ensures |r| == |ms|
    ensures forall i :: 0 <= i < |ms| ==> r[i] == NormaliseS3(ms[i])
    ensures AllIn(r, S3Modes)
  {
    seq(|ms|, i requires 0 <= i < |ms| => NormaliseS3(ms[i]))
  }

  /** Only the first gateway node decides the gateway mode. */
  function S3Rollup(ms: seq<Mode>): (r: Mode)
    ensures r in S3Modes
    ensures |ms| == 0 ==> r == Optimal
    ensures |ms| > 0 ==> r == NormaliseS3(ms[0])
  {
    var norm := NormaliseS3Modes(ms);
    if |norm| == 0 then Optimal else norm[0]
  }

  /** The combination table, highest priority first. */
  function CombineHostMode(storage: Mode, s3: Mode): (r: Mode)
    ensures r in {Offline, Decommissioned, Decommissioning, Untrusted, DataActivity, HasIssues, Optimal}
    ensures r == Offline <==> storage == Offline && s3 == Offline
    ensures r == Decommissioned <==> storage == Decommissioned && s3 == Decommissioned
    ensures r == Untrusted <==> storage == Untrusted
    ensures r == DataActivity <==> storage in {DataActivity, Initializing}
    ensures storage in StorageIssueModes || s3 == HttpSrvErrors ==> r in {HasIssues, Untrusted, DataActivity}
    ensures r == Optimal ==>
      storage in {Optimal, Decommissioning, Decommissioned} && s3 in {Optimal, Decommissioning, Decommissioned}
  {
    var decom: set<Mode> := {Decommissioning, Decommissioned};
    if storage == Offline && s3 == Offline then Offline
    else if storage == Decommissioned && s3 == Decommissioned then Decommissioned
    else if storage in decom && s3 in decom then Decommissioning
    else if storage == Untrusted then Untrusted
    else if storage in {DataActivity, Initializing} then DataActivity
    else if storage in StorageIssueModes || s3 == HttpSrvErrors then HasIssues
    else if storage in {Optimal} + decom && s3 in {Optimal} + decom then Optimal
    else HasIssues
  }

  datatype HostModes = HostModes(storageMode: Mode, s3Mode: Mode, mode: Mode, s3Normalised: seq<Mode>)

  /** `_calculate_host_mode`. `hostNode` is the host record (the chosen storage
      node with the storage counters aggregated over the host's storage
      nodes); the host reports no issues, so its breakdown is taken with
      `hasIssues` false. */
  function CalculateHostMode(storage: seq<Mode>, s3: seq<Mode>, hostNode: Node, cfg: Config): (r: HostModes)
    ensures |r.s3Normalised| == |s3| && AllIn(r.s3Normalised, S3Modes)
    ensures r.mode == CombineHostMode(r.storageMode, r.s3Mode)
    ensures r.s3Mode == S3Rollup(s3)
    ensures var info := Storage.NodeStorageInfo(hostNode, false, cfg);
      r.storageMode == StorageRollup(storage, info.free, info.used)
  {
    var info := Storage.NodeStorageInfo(hostNode, false, cfg);
    HostModes(StorageRollup(storage, info.free, info.used), S3Rollup(s3),
              CombineHostMode(StorageRollup(storage, info.free, info.used), S3Rollup(s3)),
              NormaliseS3Modes(s3))
  }

  /** A host is OFFLINE exactly when it has storage nodes, all of them
      OFFLINE, and its first gateway node is OFFLINE too; a host without
      gateway nodes is never OFFLINE. */
  lemma HostOfflineIff(storage: seq<Mode>, s3: seq<Mode>, hostNode: Node, cfg: Config)
    ensures CalculateHostMode(storage, s3, hostNode, cfg).mode == Offline <==>
      |storage| > 0 && AllIn(storage, {Offline}) && |s3| > 0 && s3[0] == Offline
  {
  }

  /** An OPTIMAL host has no storage node with issues or untrusted, and its
      first gateway node (if any) is OPTIMAL or DECOMMISSIONED. */
  lemma HostOptimalHasNoIssues(storage: seq<Mode>, s3: seq<Mode>, hostNode: Node, cfg: Config)
    requires CalculateHostMode(storage, s3, hostNode, cfg).mode == Optimal
    ensures forall i :: 0 <= i < |storage| ==> storage[i] !in IssueModes && storage[i] != Untrusted
    ensures |s3| > 0 ==> s3[0] in {Optimal, Decommissioned}
  {
    var info := Storage.NodeStorageInfo(hostNode, false, cfg);
    var sm := StorageRollup(storage, info.free, info.used);
    assert sm in {Optimal, Decommissioning, Decommissioned};
    if |storage| > 0 && sm == Optimal {
      var excluded := IssueModes + {Untrusted, MemoryPressure, Migrating, Decommissioning, Initializing};
      assert !AnyIn(storage, excluded);
      forall i | 0 <= i < |storage|
        ensures storage[i] !in excluded
      {
      }
    }
  }

  /** Host flags that roll up the nodes' flags. */
  datatype HostFlags = HostFlags(online: bool, trusted: bool, decommissioned: bool, decommissioning: bool,
                                 migrating: bool, n2nErrors: bool, gatewayErrors: bool, ioTestErrors: bool,
                                 ioReportedErrors: bool)

  /** The per-node facts the host flags roll up. */
  datatype NodeFlag = IsOnline | IsTrusted | IsDecommissioned | IsDecommissionedOrDecommissioning
                    | IsMigrating | HasN2nErrors | HasGatewayErrors | HasIoTestErrors | HasIoReportedErrors

  predicate HasFlag(item: Item, f: NodeFlag)
  {
    match f
    case IsOnline => item.status.online
    case IsTrusted => item.status.trusted
    case IsDecommissioned => item.node.decommissioned
    case IsDecommissionedOrDecommissioning => item.node.decommissioned || item.node.decommissioning
    case IsMigrating => item.node.migratingToPool
    case HasN2nErrors => item.n2nErrors != 0
    case HasGatewayErrors => item.gatewayErrors != 0
    case HasIoTestErrors => item.ioTestErrors != 0
    case HasIoReportedErrors => item.ioReportedErrors != 0
  }

  /** `host_nodes.some(...)` and `host_nodes.every(...)`, folded from the
      last node back. */
  predicate Some(items: seq<Item>, f: NodeFlag)
  {
    |items| > 0 && (Some(items[..|items| - 1], f) || HasFlag(items[|items| - 1], f))
  }

  predicate Every(items: seq<Item>, f: NodeFlag)
  {
    |items| == 0 || (Every(items[..|items| - 1], f) && HasFlag(items[|items| - 1], f))
  }

  lemma {:induction false} SomeMeans(items: seq<Item>, f: NodeFlag)
    ensures Some(items, f) <==> exists i :: 0 <= i < |items| && HasFlag(items[i], f)
    decreases |items|
  {
    if |items| > 0 {
      var init := items[..|items| - 1];
      SomeMeans(init, f);
      assert forall i :: 0 <= i < |init| ==> init[i] == items[i];
    }
  }

  lemma {:induction false} EveryMeans(items: seq<Item>, f: NodeFlag)
    ensures Every(items, f) <==> forall i :: 0 <= i < |items| ==> HasFlag(items[i], f)
    decreases |items|
  {
    if |items| > 0 {
      var init := items[..|items| - 1];
      EveryMeans(init, f);
      assert forall i :: 0 <= i < |init| ==> init[i] == items[i];
    }
  }

  /** The flag rollup of `_consolidate_host`, over the host's items after
      their status pass: online if any node is, trusted if every node is,
      decommissioned if every node is, decommissioning if not decommissioned
      and every node is one or the other, migrating if any node is, and each
      error flag if any node's timer of that kind runs. */
  function ConsolidateFlags(items: seq<Item>): (r: HostFlags)
    ensures !(r.decommissioned && r.decommissioning)
  {
    var decommissioned := Every(items, IsDecommissioned);
    HostFlags(Some(items, IsOnline), Every(items, IsTrusted), decommissioned,
              !decommissioned && Every(items, IsDecommissionedOrDecommissioning),
              Some(items, IsMigrating), Some(items, HasN2nErrors), Some(items, HasGatewayErrors),
              Some(items, HasIoTestErrors), Some(items, HasIoReportedErrors))
  }

  /** What each rolled-up flag of a host means in terms of its nodes. */
  lemma ConsolidateFlagsMeaning(items: seq<Item>)
    ensures var r := ConsolidateFlags(items);
      (r.online <==> exists i :: 0 <= i < |items| && items[i].status.online)
      && (r.trusted <==> forall i :: 0 <= i < |items| ==> items[i].status.trusted)
      && (r.decommissioned <==> forall i :: 0 <= i < |items| ==> items[i].node.decommissioned)
      && (r.decommissioning <==> (!r.decommissioned &&
            forall i :: 0 <= i < |items| ==> items[i].node.decommissioned || items[i].node.decommissioning))
      && (r.migrating <==> exists i :: 0 <= i < |items| && items[i].node.migratingToPool)
  {
    SomeMeans(items, IsOnline);
    EveryMeans(items, IsTrusted);
    EveryMeans(items, IsDecommissioned);
    EveryMeans(items, IsDecommissionedOrDecommissioning);
    SomeMeans(items, IsMigrating);
  }

  /** Each error flag of a host is raised exactly when some node's timer of
      that kind runs. */
  lemma ConsolidateErrorFlags(items: seq<Item>)
    ensures var r := ConsolidateFlags(items);
      (r.n2nErrors <==> exists i :: 0 <= i < |items| && items[i].n2nErrors != 0)
      && (r.gatewayErrors <==> exists i :: 0 <= i < |items| && items[i].gatewayErrors != 0)
      && (r.ioTestErrors <==> exists i :: 0 <= i < |items| && items[i].ioTestErrors != 0)
      && (r.ioReportedErrors <==> exists i :: 0 <= i < |items| && items[i].ioReportedErrors != 0)
  {
    SomeMeans(items, HasN2nErrors);
    SomeMeans(items, HasGatewayErrors);
    SomeMeans(items, HasIoTestErrors);
    SomeMeans(items, HasIoReportedErrors);
  }

  /** The flags of one node, as the host of that node alone reports them. */
  function NodeFlags(item: Item): HostFlags
  {
    HostFlags(item.status.online, item.status.trusted, item.node.decommissioned,
              !item.node.decommissioned && item.node.decommissioning, item.node.migratingToPool,
              item.n2nErrors != 0, item.gatewayErrors != 0, item.ioTestErrors != 0, item.ioReportedErrors != 0)
  }

  /** Joining the flags of two groups of nodes: the "any" flags are or-ed,
      the "every" flags and-ed, and decommissioning is recomputed from the
      joined decommissioned flag. */
  function JoinFlags(a: HostFlags, b: HostFlags): HostFlags
  {
    var decommissioned := a.decommissioned && b.decommissioned;
    HostFlags(a.online || b.online, a.trusted && b.trusted, decommissioned,
              !decommissioned && (a.decommissioned || a.decommissioning) && (b.decommissioned || b.decommissioning),
              a.migrating || b.migrating, a.n2nErrors || b.n2nErrors, a.gatewayErrors || b.gatewayErrors,
              a.ioTestErrors || b.ioTestErrors, a.ioReportedErrors || b.ioReportedErrors)
  }

  lemma SomeAppend(items: seq<Item>, item: Item, f: NodeFlag)
    ensures Some(items + [item], f) <==> Some(items, f) || HasFlag(item, f)
  {
    assert (items + [item])[..|items|] == items;
  }

  lemma EveryAppend(items: seq<Item>, item: Item, f: NodeFlag)
    ensures Every(items + [item], f) <==> Every(items, f) && HasFlag(item, f)
  {
    assert (items + [item])[..|items|] == items;
  }

  /** The flags of a host with one more node, one "some" or "every" rollup
      at a time. */
  lemma AppendRollups(items: seq<Item>, item: Item)
    ensures Some(items + [item], IsOnline) == (Some(items, IsOnline) || HasFlag(item, IsOnline))
    ensures Every(items + [item], IsTrusted) == (Every(items, IsTrusted) && HasFlag(item, IsTrusted))
    ensures Every(items + [item], IsDecommissioned) == (Every(items, IsDecommissioned) && HasFlag(item, IsDecommissioned))
    ensures Every(items + [item], IsDecommissionedOrDecommissioning)
         == (Every(items, IsDecommissionedOrDecommissioning) && HasFlag(item, IsDecommissionedOrDecommissioning))
    ensures Some(items + [item], IsMigrating) == (Some(items, IsMigrating) || HasFlag(item, IsMigrating))
    ensures Some(items + [item], HasN2nErrors) == (Some(items, HasN2nErrors) || HasFlag(item, HasN2nErrors))
    ensures Some(items + [item], HasGatewayErrors) == (Some(items, HasGatewayErrors) || HasFlag(item, HasGatewayErrors))
    ensures Some(items + [item], HasIoTestErrors) == (Some(items, HasIoTestErrors) || HasFlag(item, HasIoTestErrors))
    ensures Some(items + [item], HasIoReportedErrors)
         == (Some(items, HasIoReportedErrors) || HasFlag(item, HasIoReportedErrors))
  {
    SomeAppend(items, item, IsOnline);
    EveryAppend(items, item, IsTrusted);
    EveryAppend(items, item, IsDecommissioned);
    EveryAppend(items, item, IsDecommissionedOrDecommissioning);
    SomeAppend(items, item, IsMigrating);
    SomeAppend(items, item, HasN2nErrors);
    SomeAppend(items, item, HasGatewayErrors);
    SomeAppend(items, item, HasIoTestErrors);
    SomeAppend(items, item, HasIoReportedErrors);
  }

  /** A host with a single node reports that node's own flags. */
  lemma SingleNodeHostFlags(item: Item)
    ensures ConsolidateFlags([item]) == NodeFlags(item)
  {
    AppendRollups([], item);
    assert [] + [item] == [item];
  }

  /** Adding a node to a host joins its flags to the host's: it can only turn
      online, migrating and the error flags on, and trusted and
      decommissioned off. */
  lemma AddingNodeJoinsFlags(items: seq<Item>, item: Item)
    ensures ConsolidateFlags(items + [item]) == JoinFlags(ConsolidateFlags(items), NodeFlags(item))
  {
    AppendRollups(items, item);
    var a := ConsolidateFlags(items);
    assert a.decommissioned || a.decommissioning <==> Every(items, IsDecommissionedOrDecommissioning) by {
      EveryMeans(items, IsDecommissioned);
      EveryMeans(items, IsDecommissionedOrDecommissioning);
    }
  }
}

=== FILE: issues.dfy ===
/** The bounded per-node issue log (`report_error_on_node_blocks`): every
    block error reported against a node appends one entry, and the log is
    trimmed to `MAX_ISSUES_REPORT` entries by folding the oldest entry into
    the next one. An entry stands for itself plus `count` folded reports. */
module Issues {
  import opened Base
  import opened Types
  import opened NodeRegistry
  import M = Monitor

  /** Number of reports a log accounts for. */
  function Represented(log: seq<Issue>): nat
  {
    if |log| == 0 then 0 else 1 + log[0].count + Represented(log[1..])
  }

  /** The earlier of two timestamps, 0 standing for "unset". */
  function EarliestSet(a: nat, b: nat): (r: nat)
    ensures r == 0 <==> a == 0 && b == 0
    ensures r == a || r == b
    ensures a != 0 ==> r <= a
    ensures b != 0 ==> r <= b
  {
    if a == 0 then b else if b == 0 then a else Min(a, b)
  }

  /** One trimming step as the source writes it: the next entry's count grows
      by one and its `countSince` moves back to the dropped entry's time. The
      reports the dropped entry had already absorbed are not carried over. */
  function FoldOldestAsWritten(log: seq<Issue>): (r: seq<Issue>)
    requires |log| >= 2
    ensures |r| == |log| - 1 && r[1..] == log[2..]
  {
    var oldest := log[0];
    var first := log[1];
    var since := if first.countSince == 0 || first.countSince > oldest.time then oldest.time else first.countSince;
    [first.(count := first.count + 1, countSince := since)] + log[2..]
  }

  /** One trimming step that keeps every report: the next entry absorbs the
      dropped entry together with everything the dropped entry had absorbed,
      and `countSince` becomes the earliest time among them. */
  function FoldOldest(log: seq<Issue>): (r: seq<Issue>)
    requires |log| >= 2
    ensures |r| == |log| - 1 && r[1..] == log[2..]
    ensures r[0] == log[1].(count := r[0].count, countSince := r[0].countSince)
    ensures log[0].time != 0 ==> r[0].countSince != 0 && r[0].countSince <= log[0].time
    ensures log[0].countSince != 0 ==> r[0].countSince <= log[0].countSince
    ensures log[1].countSince != 0 ==> r[0].countSince <= log[1].countSince
    ensures Represented(r) == Represented(log)
  {
    var oldest := log[0];
    var first := log[1];
    var since := EarliestSet(first.countSince, EarliestSet(oldest.countSince, oldest.time));
    var r := [first.(count := first.count + oldest.count + 1, countSince := since)] + log[2..];
    assert r[1..] == log[2..] && log[1..][1..] == log[2..];
    r
  }

  /** The `while (length > MAX)` loop over the as-written step. */
  function TrimAsWritten(log: seq<Issue>): (r: seq<Issue>)
    ensures |r| == if |log| <= MAX_ISSUES_REPORT then |log| else MAX_ISSUES_REPORT
    decreases |log|
  {
    if |log| <= MAX_ISSUES_REPORT then log else TrimAsWritten(FoldOldestAsWritten(log))
  }

  /** The same loop over the corrected step: the log is bounded, its newest
      entries are kept verbatim and no report is lost. */
  function Trim(log: seq<Issue>): (r: seq<Issue>)
    ensures |r| == if |log| <= MAX_ISSUES_REPORT then |log| else MAX_ISSUES_REPORT
    ensures |log| > MAX_ISSUES_REPORT ==> r[1..] == log[|log| - MAX_ISSUES_REPORT + 1..]
    ensures |log| > MAX_ISSUES_REPORT ==> r[0].time == log[|log| - MAX_ISSUES_REPORT].time
                                          && r[0].action == log[|log| - MAX_ISSUES_REPORT].action
                                          && r[0].reason == log[|log| - MAX_ISSUES_REPORT].reason
    ensures Represented(r) == Represented(log)
    decreases |log|
  {
    if |log| <= MAX_ISSUES_REPORT then log
    else
      var f := FoldOldest(log);
      assert f[1..] == log[2..];
      assert |f| > MAX_ISSUES_REPORT ==> f[|f| - MAX_ISSUES_REPORT + 1..] == log[|log| - MAX_ISSUES_REPORT + 1..];
      assert |f| > MAX_ISSUES_REPORT ==> f[|f| - MAX_ISSUES_REPORT] == log[|log| - MAX_ISSUES_REPORT];
      Trim(f)
  }

  /** A fresh report: no folded reports yet. */
  function NewIssue(now: nat, action: IssueAction, reason: string): Issue
  {
    Issue(now, action, reason, 0, 0)
  }

  function AppendAsWritten(log: seq<Issue>, issue: Issue): seq<Issue>
  {
    TrimAsWritten(log + [issue])
  }

  function Append(log: seq<Issue>, issue: Issue): (r: seq<Issue>)
    ensures |log| <= MAX_ISSUES_REPORT ==> |r| <= MAX_ISSUES_REPORT
    ensures |r| > 0 && r[|r| - 1] == issue
    ensures Represented(r) == Represented(log) + 1 + issue.count
  {
    RepresentedAppend(log, issue);
    var r := Trim(log + [issue]);
    assert |log + [issue]| > MAX_ISSUES_REPORT ==> r[|r| - 1] == r[1..][|r| - 2];
    r
  }

  lemma {:induction false} RepresentedAppend(log: seq<Issue>, issue: Issue)
    ensures Represented(log + [issue]) == Represented(log) + 1 + issue.count
  {
    if |log| > 0 {
      assert (log + [issue])[1..] == log[1..] + [issue];
      RepresentedAppend(log[1..], issue);
    }
  }

  /** Each as-written trimming step drops exactly the reports the dropped
      entry had absorbed. */
  lemma FoldOldestAsWrittenLoses(log: seq<Issue>)
    requires |log| >= 2
    ensures Represented(FoldOldestAsWritten(log)) + log[0].count == Represented(log)
  {
    var r := FoldOldestAsWritten(log);
    assert r[1..] == log[1..][1..];
  }

  /** A log one entry over the bound is trimmed by a single step. */
  lemma TrimAsWrittenOverflow(log: seq<Issue>)
    requires |log| == MAX_ISSUES_REPORT + 1
    ensures TrimAsWritten(log) == FoldOldestAsWritten(log)
  {
  }

  /** Two more reports against a full log always leave the as-written log
      accounting for fewer reports than were made: the first overflow folds
      an entry, and the second drops that folded entry's count. Twenty-two
      reports against an empty log are the smallest instance. */
  lemma AsWrittenUndercounts(log: seq<Issue>, a: Issue, b: Issue)
    requires |log| == MAX_ISSUES_REPORT && a.count == 0 && b.count == 0
    ensures Represented(AppendAsWritten(AppendAsWritten(log, a), b)) < Represented(log) + 2
  {
    var l0 := log + [a];
    RepresentedAppend(log, a);
    FoldOldestAsWrittenLoses(l0);
    TrimAsWrittenOverflow(l0);
    var l1 := FoldOldestAsWritten(l0);
    assert l1[0].count >= 1;
    var l2 := l1 + [b];
    RepresentedAppend(l1, b);
    assert l2[0] == l1[0];
    FoldOldestAsWrittenLoses(l2);
    TrimAsWrittenOverflow(l2);
  }

  /** The corrected log accounts for every report made. */
  lemma {:induction false} AppendKeepsEveryReport(log: seq<Issue>, issues: seq<Issue>)
    requires forall i :: 0 <= i < |issues| ==> issues[i].count == 0
    ensures Represented(AppendAll(log, issues)) == Represented(log) + |issues|
    decreases |issues|
  {
    if |issues| > 0 {
      AppendKeepsEveryReport(Append(log, issues[0]), issues[1..]);
    }
  }

  function AppendAll(log: seq<Issue>, issues: seq<Issue>): (r: seq<Issue>)
    ensures |log| <= MAX_ISSUES_REPORT ==> |r| <= MAX_ISSUES_REPORT
    decreases |issues|
  {
    if |issues| == 0 then log else AppendAll(Append(log, issues[0]), issues[1..])
  }

  /** One entry of a block error report: the node the block lives on, the
      failed action and the error code (empty when the agent gave none). */
  datatype BlockReport = BlockReport(nodeId: string, action: IssueAction, rpcCode: string)

  /** One report: an unknown node is skipped; a known node (online or not)
      gets the issue appended and is disconnected so that it reconnects. */
  function ReportOne(reg: Registry, rep: BlockReport, now: nat, cfg: Config): (r: Registry)
    requires Consistent(reg) && reg.loaded
    ensures Consistent(r) && r.started == reg.started && r.loaded && r.items.Keys == reg.items.Keys
    ensures Lookup(reg, NodeIdentity(rep.nodeId, "", "", "")).None? ==> r == reg
    ensures Lookup(reg, NodeIdentity(rep.nodeId, "", "", "")).Some? ==>
      var h := Lookup(reg, NodeIdentity(rep.nodeId, "", "", "")).value;
      r.items[h].node.issues == Append(reg.items[h].node.issues, NewIssue(now, rep.action, rep.rpcCode))
      && r.items[h].connection.None? && h in r.dirty
      && forall g :: g in reg.items && g != h ==> r.items[g] == reg.items[g]
  {
    match GetNode(reg, NodeIdentity(rep.nodeId, "", "", ""), true, true)
    case Failure(_) => reg
    case Success(found) =>
      if found.None? then reg
      else
        var h := found.value;
        var item := reg.items[h];
        var updated := item.(node := item.node.(issues := Append(item.node.issues, NewIssue(now, rep.action, rep.rpcCode))));
        var reg1 := M.Put(reg, h, updated);
        M.Disconnect(reg1, h, now, cfg)
  }

  /** `report_error_on_node_blocks`: refused while the monitor is not
      started, then while it has not loaded; otherwise each report in turn. */
  function ReportErrors(reg: Registry, reports: seq<BlockReport>, now: nat, cfg: Config)
    : (r: Result<Registry, LookupError>)
    requires Consistent(reg)
    ensures r.Failure? <==> !reg.started || !reg.loaded
    ensures !reg.started ==> r == Failure(MonitorNotStarted)
    ensures reg.started && !reg.loaded ==> r == Failure(MonitorNotLoaded)
    ensures r.Success? ==> Consistent(r.value) && r.value.items.Keys == reg.items.Keys
    decreases |reports|
  {
    if !reg.started then Failure(MonitorNotStarted)
    else if !reg.loaded then Failure(MonitorNotLoaded)
    else if |reports| == 0 then Success(reg)
    else ReportErrors(ReportOne(reg, reports[0], now, cfg), reports[1..], now, cfg)
  }

  /** Whatever reports arrive, no node's log grows past the bound. */
  lemma {:induction false} ReportErrorsKeepsLogsBounded(reg: Registry, reports: seq<BlockReport>, now: nat, cfg: Config)
    requires Consistent(reg) && reg.started && reg.loaded
    requires forall h :: h in reg.items ==> |reg.items[h].node.issues| <= MAX_ISSUES_REPORT
    ensures var r := ReportErrors(reg, reports, now, cfg);
      r.Success? && forall h :: h in r.value.items ==> |r.value.items[h].node.issues| <= MAX_ISSUES_REPORT
    decreases |reports|
  {
    if |reports| > 0 {
      var reg1 := ReportOne(reg, reports[0], now, cfg);
      forall h | h in reg1.items
        ensures |reg1.items[h].node.issues| <= MAX_ISSUES_REPORT
      {
        var found := Lookup(reg, NodeIdentity(reports[0].nodeId, "", "", ""));
        if found.Some? && h != found.value {
          assert reg1.items[h] == reg.items[h];
        }
      }
      ReportErrorsKeepsLogsBounded(reg1, reports[1..], now, cfg);
    }
  }
}

=== FILE: monitor.dfy ===
/** Per-item monitor operations over the registry: the status pass, attaching
    and closing agent connections, decommissioning and deletion requests, and
    the effect of the periodic health probes on the detention timers. Every
    operation that changes an item marks it dirty for persistence. */
module Monitor {
  import opened Base
  import opened Types
  import S = StatusEngine
  import A = DataActivity
  import opened NodeRegistry

  /** `_close_node_connection`: the connection is dropped and the node's rpc
      address is forgotten. */
  function CloseConnection(item: Item): (r: Item)
    ensures r.connection.None?
    ensures item.connection.None? ==> r == item
    ensures item.connection.Some? ==> r.node == item.node.(rpcAddress := "")
    ensures r.stored == item.stored && r.activity == item.activity && SameKeys(item, r)
  {
    if item.connection.None? then item
    else item.(connection := None, node := item.node.(rpcAddress := ""))
  }

  /** The first half of a status pass: refresh the reported-errors timer and
      derive the status fields; nothing else about the item changes. */
  function Evaluate(item: Item, online: bool, now: nat, cfg: Config): (r: Item)
    ensures r == item.(ioReportedErrors := r.ioReportedErrors, status := r.status)
    ensures r.status.online == online
    ensures r.status.writable ==> r.status.readable
    ensures r.status.mode == Offline <==> !online
    ensures item.ioReportedErrors != 0 ==> r.ioReportedErrors == item.ioReportedErrors
  {
    var timed := item.(ioReportedErrors := S.ReportedErrorsTimer(item, now, cfg));
    timed.(status := S.Derive(timed, online, cfg))
  }

  /** The body of `_update_status` after the online verdict: refresh the
      reported-errors timer, derive the status fields, advance the activity. */
  function StatusPass(item: Item, online: bool, now: nat, cfg: Config): (r: Item)
    ensures r.status.online == online
    ensures r.status.writable ==> r.status.readable
    ensures r.status.mode == Offline <==> !online
    ensures r.connection == item.connection && r.stored == item.stored && SameKeys(item, r)
    ensures item.ioReportedErrors != 0 ==> r.ioReportedErrors == item.ioReportedErrors
    ensures A.DoneOnlyAfterWiping(item) ==> A.DoneOnlyAfterWiping(r)
    ensures A.WipingFlagsOnly(item.node, r.node)
  {
    var derived := Evaluate(item, online, now, cfg);
    assert A.DoneOnlyAfterWiping(item) == A.DoneOnlyAfterWiping(derived);
    A.UpdateDataActivityKeepsWiping(derived, now, cfg);
    A.UpdateDataActivity(derived, now, cfg)
  }

  /** `_update_status`. An item not yet stored is left alone. A connection
      whose heartbeat is stale is closed first, and the close runs a full
      status pass of its own (the source recurses through `_disconnect_node`)
      before the outer pass completes. */
  function UpdateStatus(item: Item, now: nat, cfg: Config): (r: Item)
    ensures item.stored.None? ==> r == item
    ensures item.stored.Some? ==> (r.status.online <==> S.Online(item, now))
    ensures item.stored.Some? ==> (r.connection.Some? <==> S.Online(item, now))
    ensures S.Online(item, now) ==> r.connection == item.connection
    ensures item.stored.Some? ==> (r.status.mode == Offline <==> !S.Online(item, now))
    ensures item.stored.Some? ==> (r.status.writable ==> r.status.readable)
    ensures r.stored == item.stored && SameKeys(item, r)
    ensures r.node.decommissioning == item.node.decommissioning && r.node.deleting == item.node.deleting
    ensures r.node.heartbeat == item.node.heartbeat && r.node.s3Agent == item.node.s3Agent
    ensures r.node.issues == item.node.issues
    ensures item.node.decommissioned ==> r.node.decommissioned
    ensures r.node.decommissioned ==> item.node.decommissioned || item.node.decommissioning
  {
    if item.stored.None? then item
    else if S.Online(item, now) || item.connection.None? then
      var r := StatusPass(item, S.Online(item, now), now, cfg);
      A.WipingFlagsOnlyKeeps(item.node, r.node);
      r
    else
      var closed := CloseConnection(item);
      var inner := StatusPass(closed, false, now, cfg);
      var r := StatusPass(inner, false, now, cfg);
      A.WipingFlagsOnlyKeeps(closed.node, inner.node);
      A.WipingFlagsOnlyKeeps(inner.node, r.node);
      r
  }

  /** A status pass keeps the activity invariant: an activity is only done
      after its WIPING stage finished (or, for RESTORING, without one). */
  lemma UpdateStatusKeepsDoneOnlyAfterWiping(item: Item, now: nat, cfg: Config)
    ensures var r := UpdateStatus(item, now, cfg);
      A.DoneOnlyAfterWiping(item) ==> A.DoneOnlyAfterWiping(r)
  {
  }

  /** An item is left online by a status pass exactly when its connection is
      live and its last heartbeat lies within the grace time. */
  lemma StaleHeartbeatGoesOffline(item: Item, now: nat, cfg: Config)
    requires item.stored.Some? && item.connection.Some?
    ensures var r := UpdateStatus(item, now, cfg);
      (now >= item.node.heartbeat + AGENT_HEARTBEAT_GRACE_TIME ==> r.connection.None? && r.status.mode == Offline)
      && (now < item.node.heartbeat + AGENT_HEARTBEAT_GRACE_TIME ==> r.connection == item.connection && r.status.online)
  {
  }

  /** Replace one item, keeping its index keys. */
  function Put(reg: Registry, h: Handle, item: Item): (r: Registry)
    requires h in reg.items && SameKeys(reg.items[h], item)
    ensures r.items.Keys == reg.items.Keys && r.items[h] == item
    ensures forall g :: g in reg.items && g != h ==> r.items[g] == reg.items[g]
    ensures r.byId == reg.byId && r.byPeer == reg.byPeer && r.byName == reg.byName && r.dirty == reg.dirty
    ensures Consistent(reg) ==> Consistent(r)
    ensures forall g :: Registered(reg, g) ==> Registered(r, g)
  {
    reg.(items := reg.items[h := item])
  }

  /** `_rebuild_node` at the registry: the item takes the result of one batch
      and of the activity update after it. When that update reaches the
      schedule step and the step asks for a store update, the item is marked
      dirty. Nothing is marked when the item has no activity, a batch is
      already in flight, or the update finds no reason left. Consistency is
      stated by RebuildStepKeepsConsistent. */
  function RebuildStep(reg: Registry, h: Handle, outcome: A.BatchOutcome, inMaintenance: bool, now: nat, cfg: Config)
    : (r: Registry)
    requires h in reg.items
    requires reg.items[h].activity.Some? ==> A.RebuildReady(reg.items[h].activity.value)
    // only this item changes, to the batch's result; the indexes are kept
    ensures r == reg.(items := reg.items[h := A.RebuildNode(reg.items[h], outcome, now, cfg)], dirty := r.dirty)
    // only this item's dirty mark can change, and it is set exactly when a
    // batch ran and left the activity done
    ensures forall g :: g != h ==> (g in r.dirty <==> g in reg.dirty)
    ensures var item := reg.items[h]; var next := A.RebuildNode(item, outcome, now, cfg);
      h in r.dirty <==>
        (h in reg.dirty
         || (item.activity.Some? && !item.activity.value.running && next.activity.Some? && next.activity.value.done))
  {
    var item := reg.items[h];
    var next := A.RebuildNode(item, outcome, now, cfg);
    var ran := item.activity.Some? && !item.activity.value.running;
    reg.(items := reg.items[h := next], dirty := DirtyAfterBatch(reg.dirty, h, ran, next, inMaintenance))
  }

  /** The dirty set after `_rebuild_node`: when a batch ran, the schedule
      step's store-update request adds the item. */
  function DirtyAfterBatch(dirty: set<Handle>, h: Handle, ran: bool, next: Item, inMaintenance: bool)
    : (r: set<Handle>)
    requires next.activity.Some? ==> next.activity.value.stage.Some?
    ensures forall g :: g != h ==> (g in r <==> g in dirty)
    ensures h in r <==> (h in dirty || (ran && next.activity.Some? && next.activity.value.done))
  {
    if ran && next.activity.Some? && A.PersistRequested(next, inMaintenance) then dirty + {h} else dirty
  }

  /** A rebuild step keeps every index entry filed under its item's own key. */
  lemma RebuildStepKeepsConsistent(reg: Registry, h: Handle, outcome: A.BatchOutcome, inMaintenance: bool,
                                   now: nat, cfg: Config)
    requires Consistent(reg) && h in reg.items
    requires reg.items[h].activity.Some? ==> A.RebuildReady(reg.items[h].activity.value)
    ensures Consistent(RebuildStep(reg, h, outcome, inMaintenance, now, cfg))
  {
    var item := reg.items[h];
    var next := A.RebuildNode(item, outcome, now, cfg);
    A.WipingFlagsOnlyKeeps(item.node, next.node);
    var stored := Put(reg, h, next);
    MarkingDirtyKeepsConsistent(stored, {h});
    var r := RebuildStep(reg, h, outcome, inMaintenance, now, cfg);
    assert r == stored || r == stored.(dirty := stored.dirty + {h});
  }

  /** Store a changed item, mark it dirty and run its status pass: the common
      tail of every operation that changes an item. */
  function Touch(reg: Registry, h: Handle, item: Item, now: nat, cfg: Config): (r: Registry)
    requires h in reg.items && SameKeys(reg.items[h], item)
    ensures r.items.Keys == reg.items.Keys && r.items[h] == UpdateStatus(item, now, cfg)
    ensures r.dirty == reg.dirty + {h}
    ensures forall g :: g in reg.items && g != h ==> r.items[g] == reg.items[g]
    ensures Consistent(reg) ==> Consistent(r)
  {
    Put(reg, h, UpdateStatus(item, now, cfg)).(dirty := reg.dirty + {h})
  }

  /** `_disconnect_node`: close, mark dirty, run a status pass. */
  function Disconnect(reg: Registry, h: Handle, now: nat, cfg: Config): (r: Registry)
    requires h in reg.items
    ensures r.items.Keys == reg.items.Keys && r.dirty == reg.dirty + {h}
    ensures r.items[h].connection.None?
    ensures reg.items[h].stored.Some? ==> !r.items[h].status.online && r.items[h].status.mode == Offline
    ensures r.items[h].node.issues == reg.items[h].node.issues
    ensures forall g :: g in reg.items && g != h ==> r.items[g] == reg.items[g]
    ensures Consistent(reg) ==> Consistent(r)
  {
    Touch(reg, h, CloseConnection(reg.items[h]), now, cfg)
  }

  datatype ConnectError = Duplicate | NodeNotFound

  predicate SameConnection(item: Item, conn: Connection)
  {
    item.connection.Some? && item.connection.value.connId == conn.connId
  }

  /** `_check_duplicate_agent`: a still-connected agent reached from another
      host means the new connection comes from a cloned agent. */
  predicate DuplicateAgent(item: Item, conn: Connection)
  {
    item.connection.Some? && item.connection.value.connected
    && conn.hostname != item.connection.value.hostname
  }

  /** `_set_connection`: attaching the connection the item already has is a
      no-op; a duplicate agent is refused; otherwise the previous connection
      is closed, the new one attached with a fresh heartbeat, and the item is
      marked dirty and re-evaluated (so it is online afterwards). */
  function SetConnection(reg: Registry, h: Handle, conn: Connection, now: nat, cfg: Config)
    : (r: Result<Registry, ConnectError>)
    requires h in reg.items
    ensures SameConnection(reg.items[h], conn) ==> r == Success(reg)
    ensures r.Failure? <==> !SameConnection(reg.items[h], conn) && DuplicateAgent(reg.items[h], conn)
    ensures r.Failure? ==> r.error == Duplicate
    ensures r.Success? ==> r.value.items.Keys == reg.items.Keys
    ensures r.Success? && !SameConnection(reg.items[h], conn) ==>
      var it := r.value.items[h];
      it.connection == Some(conn) && it.node.heartbeat == now && h in r.value.dirty
      && (it.stored.Some? ==> it.status.online && it.status.mode != Offline)
    ensures r.Success? ==> forall g :: g in reg.items && g != h ==> r.value.items[g] == reg.items[g]
    ensures r.Success? && Consistent(reg) ==> Consistent(r.value)
  {
    var item := reg.items[h];
    if SameConnection(item, conn) then Success(reg)
    else if DuplicateAgent(item, conn) then Failure(Duplicate)
    else
      var closed := CloseConnection(item);
      var attached := closed.(connection := Some(conn), node := closed.node.(heartbeat := now));
      assert S.Online(attached, now);
      Success(Touch(reg, h, attached, now, cfg))
  }

  /** `_connect_node`: a reconnecting agent names its node by id. */
  function ConnectNode(reg: Registry, nodeId: string, conn: Connection, now: nat, cfg: Config)
    : (r: Result<Registry, ConnectError>)
    requires Closed(reg)
    ensures nodeId !in reg.byId ==> r == Failure(NodeNotFound)
    ensures nodeId in reg.byId ==> r == SetConnection(reg, reg.byId[nodeId], conn, now, cfg)
  {
    if nodeId !in reg.byId then Failure(NodeNotFound)
    else SetConnection(reg, reg.byId[nodeId], conn, now, cfg)
  }

  /** `_on_connection_close`: a close event of a connection that has since been
      replaced is ignored; otherwise the node is disconnected. */
  function OnConnectionClose(reg: Registry, h: Handle, conn: Connection, now: nat, cfg: Config): (r: Registry)
    requires h in reg.items
    ensures !SameConnection(reg.items[h], conn) ==> r == reg
    ensures r.items.Keys == reg.items.Keys
    ensures SameConnection(reg.items[h], conn) ==> r.items[h].connection.None? && h in r.dirty
    ensures Consistent(reg) ==> Consistent(r)
  {
    if SameConnection(reg.items[h], conn) then Disconnect(reg, h, now, cfg) else reg
  }

  /** A replaced connection's late close event cannot take the node offline. */
  lemma ReplacedConnectionCloseIsIgnored(reg: Registry, h: Handle, prev: Connection, conn: Connection,
                                         now: nat, cfg: Config)
    requires h in reg.items && prev.connId != conn.connId
    requires SetConnection(reg, h, conn, now, cfg).Success?
    ensures var r := SetConnection(reg, h, conn, now, cfg).value;
      OnConnectionClose(r, h, prev, now, cfg) == r && SameConnection(r.items[h], conn)
  {
  }

  /** `_set_decommission`: a node starts decommissioning (an S3 gateway is
      decommissioned at once); it is marked dirty and re-evaluated either way. */
  function SetDecommission(reg: Registry, h: Handle, now: nat, cfg: Config): (r: Registry)
    requires h in reg.items
    ensures r.items.Keys == reg.items.Keys
    ensures r.items[h].node.decommissioning
    ensures !reg.items[h].node.decommissioning && reg.items[h].node.s3Agent ==> r.items[h].node.decommissioned
    ensures h in r.dirty
    ensures forall g :: g in reg.items && g != h ==> r.items[g] == reg.items[g]
    ensures Consistent(reg) ==> Consistent(r)
  {
    var item := reg.items[h];
    var n := item.node;
    var n1 := if n.decommissioning then n
              else n.(decommissioning := true, decommissioned := n.decommissioned || n.s3Agent);
    Touch(reg, h, item.(node := n1), now, cfg)
  }

  /** `_clear_decommission`: both decommission marks are removed. */
  function ClearDecommission(reg: Registry, h: Handle, now: nat, cfg: Config): (r: Registry)
    requires h in reg.items
    ensures r.items.Keys == reg.items.Keys && h in r.dirty
    ensures !r.items[h].node.decommissioning && !r.items[h].node.decommissioned
    ensures forall g :: g in reg.items && g != h ==> r.items[g] == reg.items[g]
    ensures Consistent(reg) ==> Consistent(r)
  {
    var item := reg.items[h];
    var cleared := item.(node := item.node.(decommissioning := false, decommissioned := false));
    Touch(reg, h, cleared, now, cfg)
  }

  /** `decommission_node`: a node already decommissioning or decommissioned is
      left alone; otherwise decommissioning starts. Offline nodes can be named. */
  function DecommissionNode(reg: Registry, ident: NodeIdentity, now: nat, cfg: Config)
    : (r: Result<Registry, LookupError>)
    requires Closed(reg)
    // a monitor not started refuses before any lookup
    ensures !reg.started ==> r == Failure(MonitorNotStarted)
    ensures r.Failure? <==> !reg.started || GetNode(reg, ident, true, false).Failure?
    ensures reg.started && r.Failure? ==> r.error == GetNode(reg, ident, true, false).error
    ensures r.Success? ==> Lookup(reg, ident).Some? && r.value.items.Keys == reg.items.Keys
    ensures r.Success? ==> var h := Lookup(reg, ident).value;
      r.value.items[h].node.decommissioning || r.value.items[h].node.decommissioned
    // a node already decommissioning or decommissioned is left alone
    ensures r.Success? ==> var h := Lookup(reg, ident).value;
      (reg.items[h].node.decommissioning || reg.items[h].node.decommissioned) ==> r.value == reg
    // otherwise it is marked dirty, and no other item changes
    ensures r.Success? ==> var h := Lookup(reg, ident).value;
      (!reg.items[h].node.decommissioning && !reg.items[h].node.decommissioned ==>
        r.value.items[h].node.decommissioning && r.value.dirty == reg.dirty + {h})
      && forall g :: g in reg.items && g != h ==> r.value.items[g] == reg.items[g]
    ensures r.Success? && Consistent(reg) ==> Consistent(r.value)
  {
    if !reg.started then Failure(MonitorNotStarted)
    else match GetNode(reg, ident, true, false)
    case Failure(e) => Failure(e)
    case Success(found) =>
      var h := found.value;
      var n := reg.items[h].node;
      if n.decommissioned || n.decommissioning then Success(reg)
      else Success(SetDecommission(reg, h, now, cfg))
  }

  /** `recommission_node`: a node that is neither decommissioning nor
      decommissioned is left alone; otherwise both marks are cleared. */
  function RecommissionNode(reg: Registry, ident: NodeIdentity, now: nat, cfg: Config)
    : (r: Result<Registry, LookupError>)
    requires Closed(reg)
    // a monitor not started refuses before any lookup
    ensures !reg.started ==> r == Failure(MonitorNotStarted)
    ensures r.Failure? <==> !reg.started || GetNode(reg, ident, true, false).Failure?
    ensures reg.started && r.Failure? ==> r.error == GetNode(reg, ident, true, false).error
    ensures r.Success? ==> Lookup(reg, ident).Some? && r.value.items.Keys == reg.items.Keys
    ensures r.Success? ==> var h := Lookup(reg, ident).value;
      !r.value.items[h].node.decommissioning && !r.value.items[h].node.decommissioned
    // a node that is neither decommissioning nor decommissioned is left alone
    ensures r.Success? ==> var h := Lookup(reg, ident).value;
      (!reg.items[h].node.decommissioning && !reg.items[h].node.decommissioned) ==> r.value == reg
    // otherwise it is marked dirty, and no other item changes
    ensures r.Success? ==> var h := Lookup(reg, ident).value;
      ((reg.items[h].node.decommissioning || reg.items[h].node.decommissioned) ==> r.value.dirty == reg.dirty + {h})
      && forall g :: g in reg.items && g != h ==> r.value.items[g] == reg.items[g]
    ensures r.Success? && Consistent(reg) ==> Consistent(r.value)
  {
    if !reg.started then Failure(MonitorNotStarted)
    else match GetNode(reg, ident, true, false)
    case Failure(e) => Failure(e)
    case Success(found) =>
      var h := found.value;
      var n := reg.items[h].node;
      if !n.decommissioned && !n.decommissioning then Success(reg)
      else Success(ClearDecommission(reg, h, now, cfg))
  }

  /** `delete_node`: the node is marked deleting (once), marked dirty and
      re-evaluated; its data activity then evacuates it. */
  function DeleteNode(reg: Registry, ident: NodeIdentity, now: nat, cfg: Config)
    : (r: Result<Registry, LookupError>)
    requires Closed(reg)
    // a monitor not started refuses before any lookup
    ensures !reg.started ==> r == Failure(MonitorNotStarted)
    ensures r.Failure? <==> !reg.started || GetNode(reg, ident, true, false).Failure?
    ensures reg.started && r.Failure? ==> r.error == GetNode(reg, ident, true, false).error
    ensures r.Success? ==> Lookup(reg, ident).Some? && r.value.items.Keys == reg.items.Keys
    ensures r.Success? ==> var h := Lookup(reg, ident).value;
      r.value.items[h].node.deleting && r.value.dirty == reg.dirty + {h}
      && forall g :: g in reg.items && g != h ==> r.value.items[g] == reg.items[g]
    ensures r.Success? && Consistent(reg) ==> Consistent(r.value)
  {
    if !reg.started then Failure(MonitorNotStarted)
    else match GetNode(reg, ident, true, false)
    case Failure(e) => Failure(e)
    case Success(found) =>
      var h := found.value;
      var item := reg.items[h];
      Success(Touch(reg, h, item.(node := item.node.(deleting := true)), now, cfg))
  }
}

=== FILE: names.dfy ===
/** Naming a node on its first agent report (`_get_agent_info` for a node not
    yet in the store): the agent's name is taken if free, otherwise the first
    free `<base>-<counter>` with counter 1, 2, ... where the base is the
    agent's name, or `node` when it sent none. */
module Names {
  import opened Base
  import opened Types
  import opened NodeRegistry

  function Candidate(base: string, k: nat): string
  {
    base + "-" + NatToString(k)
  }

  lemma CandidateInjective(base: string, j: nat, k: nat)
    requires Candidate(base, j) == Candidate(base, k)
    ensures j == k
  {
    var a := Candidate(base, j);
    assert a[|base| + 1..] == NatToString(j);
    assert Candidate(base, k)[|base| + 1..] == NatToString(k);
    NatToStringInjective(j, k);
  }

  /** The candidates numbered 1 up to (not including) `n`. */
  function Tried(base: string, n: nat): (r: set<string>)
    ensures forall k :: 1 <= k < n ==> Candidate(base, k) in r
  {
    if n <= 1 then {} else Tried(base, n - 1) + {Candidate(base, n - 1)}
  }

  lemma {:induction false} TriedExcludesLater(base: string, n: nat, k: nat)
    requires k >= n
    ensures Candidate(base, k) !in Tried(base, n)
    decreases n
  {
    if n > 1 {
      TriedExcludesLater(base, n - 1, k);
      if Candidate(base, k) == Candidate(base, n - 1) {
        CandidateInjective(base, k, n - 1);
      }
    }
  }

  /** The candidates are pairwise distinct, so `n - 1` of them were tried. */
  lemma {:induction false} TriedCard(base: string, n: nat)
    requires n >= 1
    ensures |Tried(base, n)| == n - 1
    decreases n
  {
    if n > 1 {
      TriedCard(base, n - 1);
      TriedExcludesLater(base, n - 1, n - 1);
    }
  }

  function BaseName(wanted: string): string
  {
    if wanted == "" then "node" else wanted
  }

  /** The de-collision loop. The result is free; it is the wanted name when
      that is free, and otherwise the lowest-numbered free candidate. */
  method UniqueName(taken: set<string>, wanted: string) returns (name: string)
    ensures name !in taken
    ensures wanted !in taken ==> name == wanted
    ensures wanted in taken ==> exists k :: 1 <= k && name == Candidate(BaseName(wanted), k)
                                   && forall j :: 1 <= j < k ==> Candidate(BaseName(wanted), j) in taken
  {
    var base := BaseName(wanted);
    name := wanted;
    if name !in taken {
      return;
    }
    var counter: nat := 1;
    name := Candidate(base, counter);
    counter := counter + 1;
    while name in taken
      invariant 2 <= counter
      invariant name == Candidate(base, counter - 1)
      invariant forall j :: 1 <= j < counter - 1 ==> Candidate(base, j) in taken
      invariant Tried(base, counter - 1) <= taken
      decreases |taken| - |Tried(base, counter - 1)|
    {
      TriedCard(base, counter - 1);
      TriedCard(base, counter);
      assert Tried(base, counter) == Tried(base, counter - 1) + {name};
      SubsetCard(Tried(base, counter), taken);
      name := Candidate(base, counter);
      counter := counter + 1;
    }
  }

  lemma SubsetCard<T>(a: set<T>, b: set<T>)
    requires a <= b
    ensures |a| <= |b|
  {
    assert b == a + (b - a);
  }

  /** The registry side of naming: the node's old name key is dropped, the
      new name is filed under the node, and the node takes that name. */
  function Rename(reg: Registry, h: Handle, name: string): (r: Registry)
    requires Consistent(reg) && h in reg.items
    requires name !in reg.byName.Keys - {reg.items[h].node.name}
    ensures Consistent(r) && r.items.Keys == reg.items.Keys
    ensures r.items[h].node == reg.items[h].node.(name := name)
    ensures name in r.byName && r.byName[name] == h
    ensures r.dirty == reg.dirty + {h}
    ensures forall g :: g in reg.items && g != h ==> r.items[g] == reg.items[g]
  {
    RenameConsistent(reg, h, name);
    var item := reg.items[h];
    reg.(items := reg.items[h := item.(node := item.node.(name := name))],
         byName := (reg.byName - {item.node.name})[name := h], dirty := reg.dirty + {h})
  }

  lemma RenameConsistent(reg: Registry, h: Handle, name: string)
    requires Consistent(reg) && h in reg.items
    requires name !in reg.byName.Keys - {reg.items[h].node.name}
    ensures var item := reg.items[h];
      Consistent(reg.(items := reg.items[h := item.(node := item.node.(name := name))],
                      byName := (reg.byName - {item.node.name})[name := h], dirty := reg.dirty + {h}))
  {
    RenameClosed(reg, h, name);
    RenameKeepsKeys(reg, h, name);
  }

  /** After a rename every index entry still points at an existing item. */
  lemma RenameClosed(reg: Registry, h: Handle, name: string)
    requires Closed(reg) && h in reg.items
    ensures var item := reg.items[h];
      Closed(reg.(items := reg.items[h := item.(node := item.node.(name := name))],
                  byName := (reg.byName - {item.node.name})[name := h], dirty := reg.dirty + {h}))
  {
    var item := reg.items[h];
    var items := reg.items[h := item.(node := item.node.(name := name))];
    var byName := (reg.byName - {item.node.name})[name := h];
    assert items.Keys == reg.items.Keys;
    forall v | v in byName.Values ensures v in items.Keys {
      var k :| k in byName && byName[k] == v;
      if k != name {
        assert reg.byName[k] in reg.byName.Values;
      }
    }
  }

  /** After a rename every index entry is still filed under its item's key. */
  lemma RenameKeepsKeys(reg: Registry, h: Handle, name: string)
    requires Consistent(reg) && h in reg.items
    requires name !in reg.byName.Keys - {reg.items[h].node.name}
    ensures var item := reg.items[h];
      var items := reg.items[h := item.(node := item.node.(name := name))];
      var byName := (reg.byName - {item.node.name})[name := h];
      (forall k :: k in reg.byId ==> items[reg.byId[k]].node.id == k)
      && (forall k :: k in reg.byPeer ==> items[reg.byPeer[k]].node.peerId == k)
      && (forall k :: k in byName ==> byName[k] in items && items[byName[k]].node.name == k)
  {
    var item := reg.items[h];
    var items := reg.items[h := item.(node := item.node.(name := name))];
    var byName := (reg.byName - {item.node.name})[name := h];
    forall k | k in reg.byId ensures items[reg.byId[k]].node.id == k {
      assert reg.byId[k] in reg.byId.Values;
    }
    forall k | k in reg.byPeer ensures items[reg.byPeer[k]].node.peerId == k {
      assert reg.byPeer[k] in reg.byPeer.Values;
    }
    forall k | k in byName ensures byName[k] in items && items[byName[k]].node.name == k {
      if k != name {
        assert reg.byName[k] in reg.byName.Values;
      }
    }
  }

  /** Every other node whose name differs from the renamed node's old name
      stays registered. */
  lemma RenameKeepsOthersRegistered(reg: Registry, h: Handle, name: string, g: Handle)
    requires Consistent(reg) && h in reg.items
    requires name !in reg.byName.Keys - {reg.items[h].node.name}
    requires g != h && Registered(reg, g) && reg.items[g].node.name != reg.items[h].node.name
    ensures Registered(Rename(reg, h, name), g)
  {
  }

  /** Naming a node: a free name is chosen against every other node's name
      and filed under the node. */
  method AssignName(reg: Registry, h: Handle, wanted: string) returns (r: Registry, name: string)
    requires Consistent(reg) && h in reg.items
    ensures Consistent(r) && r.items.Keys == reg.items.Keys
    ensures name !in reg.byName.Keys - {reg.items[h].node.name}
    ensures wanted !in reg.byName.Keys - {reg.items[h].node.name} ==> name == wanted
    ensures r.items[h].node == reg.items[h].node.(name := name)
    ensures name in r.byName && r.byName[name] == h
    ensures r.dirty == reg.dirty + {h}
    ensures forall g :: g in reg.items && g != h ==> r.items[g] == reg.items[g]
    ensures forall g :: g != h && Registered(reg, g) && reg.items[g].node.name != reg.items[h].node.name
                        ==> Registered(r, g)
  {
    var others := reg.byName.Keys - {reg.items[h].node.name};
    name := UniqueName(others, wanted);
    r := Rename(reg, h, name);
    forall g | g != h && Registered(reg, g) && reg.items[g].node.name != reg.items[h].node.name
      ensures Registered(r, g)
    {
      RenameKeepsOthersRegistered(reg, h, name, g);
    }
  }
}

=== FILE: persistence.dfy ===
/** The persistence batcher (`_update_nodes_store`): dirty items are flushed
    in coalesced batches, split into deletions, updates of stored nodes and
    creations of new nodes. The store and the agents are remote; their
    answers are inputs. */
module Persistence {
  import opened Base
  import opened Types
  import opened NodeRegistry
  import M = Monitor
  import A = DataActivity

  datatype FlushPlan = FlushPlan(deleted: set<Handle>, existing: set<Handle>, created: set<Handle>)

  /** Whether a flush runs at all: something must be dirty, and without
      `force` at least the coalescing threshold of items. */
  predicate FlushRuns(reg: Registry, force: bool)
  {
    |reg.dirty| != 0 && (force || |reg.dirty| >= UPDATE_STORE_MIN_ITEMS)
  }

  /** The first half of `_update_nodes_store`: partition the dirty set (items
      ready to be deleted first, then stored items, then new ones) and empty
      it before any write is issued, so changes made while the writes are in
      flight are collected for the next flush. */
  function PlanFlush(reg: Registry, force: bool): (r: Option<(FlushPlan, Registry)>)
    requires reg.dirty <= reg.items.Keys
    ensures r.None? <==> !FlushRuns(reg, force)
    ensures r.Some? ==> r.value.1 == reg.(dirty := {})
    ensures r.Some? ==> var p := r.value.0;
      p.deleted + p.existing + p.created == reg.dirty
      && p.deleted !! p.existing && p.deleted !! p.created && p.existing !! p.created
    ensures r.Some? ==> var p := r.value.0;
      (forall h :: h in p.deleted <==> h in reg.dirty && reg.items[h].readyToBeDeleted)
      && (forall h :: h in p.existing <==> h in reg.dirty && !reg.items[h].readyToBeDeleted && reg.items[h].stored.Some?)
      && (forall h :: h in p.created <==> h in reg.dirty && !reg.items[h].readyToBeDeleted && reg.items[h].stored.None?)
  {
    if !FlushRuns(reg, force) then None
    else
      var deleted := set h | h in reg.dirty && reg.items[h].readyToBeDeleted;
      var existing := set h | h in reg.dirty && !reg.items[h].readyToBeDeleted && reg.items[h].stored.Some?;
      var created := set h | h in reg.dirty && !reg.items[h].readyToBeDeleted && reg.items[h].stored.None?;
      Some((FlushPlan(deleted, existing, created), reg.(dirty := {})))
  }

  datatype NewNodeDecision = Discard | HoldBack | SendToken

  /** What `_update_new_nodes` does with one new item: one that lost its
      connection before being created is discarded; one still carrying the
      placeholder name is held back until its agent info arrives; otherwise
      the agent is sent its auth token and, if that succeeds, the node is
      created. */
  function DecideNewNode(item: Item): (d: NewNodeDecision)
    ensures d == Discard <==> item.connection.None?
    ensures d == HoldBack <==> item.connection.Some? && StartsWith(item.node.name, NO_NAME_PREFIX)
  {
    if item.connection.None? then Discard
    else if StartsWith(item.node.name, NO_NAME_PREFIX) then HoldBack
    else SendToken
  }

  /** Whether `_update_deleted_nodes` writes a deletion for one item. A node
      already marked deleted is written only while its stored copy is not
      (and not at all if it has no stored copy, where the source fails on
      it); an ordinary node is marked deleted at once; an internal node is
      not supported; a cloud or mongo node waits for its agent process to be
      removed. */
  predicate WritesDeletion(item: Item, agentRemoved: bool)
  {
    if item.node.deleted then item.stored.Some? && !item.stored.value.deleted
    else if !item.node.isCloud && !item.node.isMongo && !item.node.isInternal then true
    else if item.node.isInternal then false
    else agentRemoved
  }

  /** The three `bulk_update` calls of one flush. */
  datatype WriteBatch = ExistingBatch | NewBatch | DeletedBatch

  /** The answers of the remote side to one flush: new items whose agent
      accepted its token, cloud/mongo items whose agent process was removed,
      items the store reported as failed writes, and the `bulk_update` calls
      that were rejected as a whole (their error is only logged, so a
      rejected batch reports neither failures nor updates). */
  datatype WriteOutcomes = WriteOutcomes(tokenOk: set<Handle>, agentRemoved: set<Handle>,
                                         storeFailed: set<Handle>, rejected: set<WriteBatch>)

  /** Items of a batch the store reports as written (`res.updated`). */
  function Written(out: WriteOutcomes, batch: WriteBatch, hs: set<Handle>): set<Handle>
  {
    if batch in out.rejected then {} else hs - out.storeFailed
  }

  /** Items of a batch the store reports as failed (`res.failed`). */
  function Failed(out: WriteOutcomes, batch: WriteBatch, hs: set<Handle>): set<Handle>
  {
    if batch in out.rejected then {} else hs * out.storeFailed
  }

  /** Items of the plan that are sent to the store as creations. */
  function ToCreate(reg: Registry, p: FlushPlan, out: WriteOutcomes): set<Handle>
    requires p.created <= reg.items.Keys
  {
    set h | h in p.created && DecideNewNode(reg.items[h]) == SendToken && h in out.tokenOk
  }

  /** Items of the plan that are sent to the store as deletions. */
  function ToDelete(reg: Registry, p: FlushPlan, out: WriteOutcomes): set<Handle>
    requires p.deleted <= reg.items.Keys
  {
    set h | h in p.deleted && WritesDeletion(reg.items[h], h in out.agentRemoved)
  }

  /** New items that are discarded without being written. */
  function Discarded(reg: Registry, p: FlushPlan): set<Handle>
    requires p.created <= reg.items.Keys
  {
    set h | h in p.created && DecideNewNode(reg.items[h]) == Discard
  }

  /** New items the store created: they gain their stored copy and a status
      pass. */
  function Created(reg: Registry, p: FlushPlan, out: WriteOutcomes): (r: set<Handle>)
    requires p.created <= reg.items.Keys
    ensures r <= p.created
  {
    Written(out, NewBatch, ToCreate(reg, p, out))
  }

  /** Created items whose status pass finds a connection without a recent
      heartbeat: the pass disconnects them, which marks them dirty. */
  function StaleCreated(reg: Registry, p: FlushPlan, out: WriteOutcomes, now: nat): (r: set<Handle>)
    requires p.created <= reg.items.Keys
    ensures r <= Created(reg, p, out)
  {
    set h | h in Created(reg, p, out) && reg.items[h].connection.Some? && !M.S.Online(reg.items[h], now)
  }

  /** Items put back into the dirty set for the next flush: failed writes, new
      items held back, and new items whose agent refused the token. */
  function Requeued(reg: Registry, p: FlushPlan, out: WriteOutcomes): (r: set<Handle>)
    requires p.created <= reg.items.Keys && p.deleted <= reg.items.Keys
    ensures r <= p.existing + p.created + p.deleted
  {
    Failed(out, ExistingBatch, p.existing)
    + (set h | h in p.created && DecideNewNode(reg.items[h]) != Discard && h !in ToCreate(reg, p, out))
    + Failed(out, NewBatch, ToCreate(reg, p, out))
    + Failed(out, DeletedBatch, ToDelete(reg, p, out))
  }

  /** The effect of the writes on one item: a created node gets its stored
      copy and a status pass; a node sent for deletion is marked deleted
      before the write, so whatever the store answers. */
  function AfterWrite(item: Item, created: bool, deleted: bool, now: nat, cfg: Config): (r: Item)
    ensures SameKeys(item, r)
    ensures created ==> r.stored == Some(StoredRecord(item.node.deleted))
    ensures created ==> (r.connection.Some? <==> M.S.Online(item, now))
    ensures !created && deleted ==> r.node.deleted && r.stored == item.stored
    ensures !created && !deleted ==> r == item
  {
    if created then M.UpdateStatus(item.(stored := Some(StoredRecord(item.node.deleted))), now, cfg)
    else if deleted then item.(node := item.node.(deleted := true))
    else item
  }

  /** Apply the effect of the writes to every item of the registry. */
  function ApplyWrites(reg: Registry, create: set<Handle>, delete: set<Handle>, now: nat, cfg: Config): (r: Registry)
    ensures r.items.Keys == reg.items.Keys
    ensures r == reg.(items := r.items)
    ensures forall h :: h in create && h in r.items ==> r.items[h].stored.Some?
    ensures forall h :: h in delete && h !in create && h in r.items ==>
      r.items[h].node.deleted && r.items[h].stored == reg.items[h].stored
    ensures forall h :: h in r.items && h !in create && h !in delete ==> r.items[h] == reg.items[h]
    ensures Consistent(reg) ==> Consistent(r)
    ensures forall g :: Registered(reg, g) ==> Registered(r, g)
  {
    var items := map h | h in reg.items :: AfterWrite(reg.items[h], h in create, h in delete, now, cfg);
    KeyPreservingUpdate(reg, items);
    reg.(items := items)
  }

  /** Items removed from the indexes by a flush: discarded new items (whatever
      the store answers) and deletions the store wrote. */
  function Removed(reg: Registry, p: FlushPlan, out: WriteOutcomes): (r: set<Handle>)
    requires p.deleted <= reg.items.Keys && p.created <= reg.items.Keys
    ensures r <= p.created + p.deleted
  {
    Discarded(reg, p) + Written(out, DeletedBatch, ToDelete(reg, p, out))
  }

  /** Drop the removed items from the indexes and the dirty set, then mark the
      `again` items dirty. */
  function Settle(reg: Registry, removed: set<Handle>, again: set<Handle>): (r: Registry)
    requires again <= reg.items.Keys
    ensures r.items == reg.items
    ensures r.dirty == (reg.dirty - removed) + again
    ensures forall h :: h in removed ==> h !in r.byId.Values && h !in r.byPeer.Values && h !in r.byName.Values
    ensures forall g :: g !in removed && Registered(reg, g) ==> Registered(r, g)
    ensures Consistent(reg) ==> Consistent(r)
  {
    var reg1 := RemoveNodesFromMaps(reg, removed);
    MarkingDirtyKeepsConsistent(reg1, again);
    reg1.(dirty := reg1.dirty + again)
  }

  /** The second half of `_update_nodes_store`, applied to the registry as it
      is when the writes complete. Discarded items and written deletions leave
      the indexes (with the intended removal, which only drops entries that
      point at them); the requeued items, and created items whose status pass
      disconnects them, are dirty again. */
  function CompleteFlush(reg: Registry, p: FlushPlan, out: WriteOutcomes, now: nat, cfg: Config): (r: Registry)
    requires Closed(reg)
    requires p.deleted <= reg.items.Keys && p.existing <= reg.items.Keys && p.created <= reg.items.Keys
    ensures r.items.Keys == reg.items.Keys
    ensures Consistent(reg) ==> Consistent(r)
    // removed items are no longer reachable from any index, and nothing else is removed
    ensures forall h :: h in Removed(reg, p, out) ==>
      h !in r.byId.Values && h !in r.byPeer.Values && h !in r.byName.Values
    ensures forall g :: (Registered(reg, g) && g !in Removed(reg, p, out)) ==> Registered(r, g)
    ensures r.dirty == (reg.dirty - Removed(reg, p, out)) + Requeued(reg, p, out) + StaleCreated(reg, p, out, now)
  {
    var reg1 := ApplyWrites(reg, Created(reg, p, out), ToDelete(reg, p, out), now, cfg);
    Settle(reg1, Removed(reg, p, out), Requeued(reg, p, out) + StaleCreated(reg, p, out, now))
  }

  /** Where each stored item of the plan ends up after the flush: it is dirty
      again exactly when it was re-dirtied meanwhile or the store reported
      its write as failed; a rejected batch retries nothing. */
  lemma FlushRequeuesStored(reg: Registry, p: FlushPlan, out: WriteOutcomes, now: nat, cfg: Config)
    requires Closed(reg)
    requires p.deleted <= reg.items.Keys && p.existing <= reg.items.Keys && p.created <= reg.items.Keys
    requires p.deleted !! p.existing && p.deleted !! p.created && p.existing !! p.created
    ensures var r := CompleteFlush(reg, p, out, now, cfg);
      forall h :: h in p.existing ==>
        (h in r.dirty <==> h in reg.dirty || (ExistingBatch !in out.rejected && h in out.storeFailed))
  {
    var r := CompleteFlush(reg, p, out, now, cfg);
    forall h | h in p.existing
      ensures h in r.dirty <==> h in reg.dirty || (ExistingBatch !in out.rejected && h in out.storeFailed)
    {
      ExistingRequeuedOnFailure(reg, p, out, now, h);
    }
  }

  /** Where each new item of the plan ends up after the flush: a held-back or
      refused new item is dirty again, and so is one whose creation the store
      reported as failed or whose status pass disconnected it; nothing outside
      the plan becomes dirty. */
  lemma FlushRequeues(reg: Registry, p: FlushPlan, out: WriteOutcomes, now: nat, cfg: Config)
    requires Closed(reg)
    requires p.deleted <= reg.items.Keys && p.existing <= reg.items.Keys && p.created <= reg.items.Keys
    requires p.deleted !! p.existing && p.deleted !! p.created && p.existing !! p.created
    ensures var r := CompleteFlush(reg, p, out, now, cfg);
      (forall h :: h in p.created && DecideNewNode(reg.items[h]) == HoldBack ==> h in r.dirty)
      && (forall h :: h in p.created && DecideNewNode(reg.items[h]) == SendToken && h !in out.tokenOk
                      ==> h in r.dirty)
      && (forall h :: h in ToCreate(reg, p, out) && NewBatch !in out.rejected && h in out.storeFailed
                      ==> h in r.dirty)
      && (forall h :: h in Created(reg, p, out) && !M.S.Online(reg.items[h], now) ==> h in r.dirty)
      && r.dirty <= reg.dirty + p.deleted + p.existing + p.created
  {
    var r := CompleteFlush(reg, p, out, now, cfg);
    forall h | h in p.created
      ensures (DecideNewNode(reg.items[h]) == HoldBack ==> h in r.dirty)
      && (DecideNewNode(reg.items[h]) == SendToken && h !in out.tokenOk ==> h in r.dirty)
      && (h in ToCreate(reg, p, out) && NewBatch !in out.rejected && h in out.storeFailed ==> h in r.dirty)
      && (h in Created(reg, p, out) && !M.S.Online(reg.items[h], now) ==> h in r.dirty)
    {
      NewItemFate(reg, p, out, now, h);
    }
  }

  /** The bookkeeping sets a flush puts one new item of the plan in. */
  lemma NewItemFate(reg: Registry, p: FlushPlan, out: WriteOutcomes, now: nat, h: Handle)
    requires p.deleted <= reg.items.Keys && p.created <= reg.items.Keys
    requires p.deleted !! p.created
    requires h in p.created
    ensures h in Removed(reg, p, out) <==> DecideNewNode(reg.items[h]) == Discard
    ensures DecideNewNode(reg.items[h]) == HoldBack ==> h in Requeued(reg, p, out)
    ensures DecideNewNode(reg.items[h]) == SendToken && h !in out.tokenOk ==> h in Requeued(reg, p, out)
    ensures h in ToCreate(reg, p, out) && NewBatch !in out.rejected && h in out.storeFailed ==> h in Requeued(reg, p, out)
    ensures h in Created(reg, p, out) && !M.S.Online(reg.items[h], now) ==> h in StaleCreated(reg, p, out, now)
  {
    assert h !in p.deleted;
    assert h !in ToDelete(reg, p, out);
  }

  /** The bookkeeping sets a flush puts one deleted item of the plan in: it
      leaves the indexes when the store wrote it, is retried when the store
      reported it failed, and is never a creation. */
  lemma DeletedItemFate(reg: Registry, p: FlushPlan, out: WriteOutcomes, now: nat, h: Handle)
    requires p.deleted <= reg.items.Keys && p.existing <= reg.items.Keys && p.created <= reg.items.Keys
    requires p.deleted !! p.existing && p.deleted !! p.created
    requires h in p.deleted
    ensures h !in StaleCreated(reg, p, out, now)
    ensures h in Removed(reg, p, out) <==> h in Written(out, DeletedBatch, ToDelete(reg, p, out))
    ensures h in Requeued(reg, p, out) <==> h in Failed(out, DeletedBatch, ToDelete(reg, p, out))
  {
    assert h !in p.created && h !in p.existing;
    assert h !in ToCreate(reg, p, out) && h !in Discarded(reg, p);
  }

  /** A stored item is never removed and never created, and is requeued
      exactly when the store reported its write as failed. */
  lemma ExistingRequeuedOnFailure(reg: Registry, p: FlushPlan, out: WriteOutcomes, now: nat, h: Handle)
    requires p.deleted <= reg.items.Keys && p.existing <= reg.items.Keys && p.created <= reg.items.Keys
    requires p.deleted !! p.existing && p.existing !! p.created
    requires h in p.existing
    ensures h !in Removed(reg, p, out) && h !in StaleCreated(reg, p, out, now)
    ensures h in Requeued(reg, p, out) <==> ExistingBatch !in out.rejected && h in out.storeFailed
  {
    assert h !in p.created && h !in p.deleted;
    assert h !in ToCreate(reg, p, out) && h !in ToDelete(reg, p, out);
  }

  /** When the deletion batch is rejected, no deletion leaves the indexes and
      none is retried: each stays registered, dirty only if it was re-dirtied
      meanwhile, and marked deleted. */
  lemma RejectedDeletionsStay(reg: Registry, p: FlushPlan, out: WriteOutcomes, now: nat, cfg: Config)
    requires Closed(reg)
    requires p.deleted <= reg.items.Keys && p.existing <= reg.items.Keys && p.created <= reg.items.Keys
    requires p.deleted !! p.existing && p.deleted !! p.created && p.existing !! p.created
    requires DeletedBatch in out.rejected
    ensures var r := CompleteFlush(reg, p, out, now, cfg);
      forall h :: h in ToDelete(reg, p, out) ==>
        (Registered(reg, h) ==> Registered(r, h)) && (h in r.dirty <==> h in reg.dirty) && r.items[h].node.deleted
  {
    var r := CompleteFlush(reg, p, out, now, cfg);
    forall h | h in ToDelete(reg, p, out)
      ensures (Registered(reg, h) ==> Registered(r, h)) && (h in r.dirty <==> h in reg.dirty) && r.items[h].node.deleted
    {
      DeletedItemFate(reg, p, out, now, h);
      FlushWritesAt(reg, p, out, now, cfg, h);
    }
  }

  /** What the writes leave in one item of the plan: a created node has a
      stored copy, a node whose creation was not written still has none, and
      a node sent for deletion is marked deleted. */
  lemma FlushWritesAt(reg: Registry, p: FlushPlan, out: WriteOutcomes, now: nat, cfg: Config, h: Handle)
    requires Closed(reg)
    requires p.deleted <= reg.items.Keys && p.existing <= reg.items.Keys && p.created <= reg.items.Keys
    requires p.deleted !! p.created
    requires h in reg.items
    ensures var r := CompleteFlush(reg, p, out, now, cfg);
      (h in Created(reg, p, out) ==> r.items[h].stored.Some?)
      && (h in p.created && h !in Created(reg, p, out) ==> r.items[h].stored == reg.items[h].stored)
      && (h in ToDelete(reg, p, out) ==> r.items[h].node.deleted)
  {
    var create := Created(reg, p, out);
    var delete := ToDelete(reg, p, out);
    assert create <= p.created && delete <= p.deleted;
    var reg1 := ApplyWrites(reg, create, delete, now, cfg);
    assert h in p.created ==> h !in delete;
  }

  /** What the writes leave in the items: created nodes have a stored copy,
      new nodes the store did not create still have none, and deletions are
      marked deleted. */
  lemma FlushWrites(reg: Registry, p: FlushPlan, out: WriteOutcomes, now: nat, cfg: Config)
    requires Closed(reg)
    requires p.deleted <= reg.items.Keys && p.existing <= reg.items.Keys && p.created <= reg.items.Keys
    requires p.deleted !! p.created
    ensures var r := CompleteFlush(reg, p, out, now, cfg);
      (forall h :: h in Created(reg, p, out) ==> r.items[h].stored.Some?)
      && (forall h :: h in p.created && h !in Created(reg, p, out) ==> r.items[h].stored == reg.items[h].stored)
      && (forall h :: h in ToDelete(reg, p, out) ==> r.items[h].node.deleted)
  {
    forall h | h in reg.items
      ensures var r := CompleteFlush(reg, p, out, now, cfg);
        (h in Created(reg, p, out) ==> r.items[h].stored.Some?)
        && (h in p.created && h !in Created(reg, p, out) ==> r.items[h].stored == reg.items[h].stored)
        && (h in ToDelete(reg, p, out) ==> r.items[h].node.deleted)
    {
      FlushWritesAt(reg, p, out, now, cfg, h);
    }
  }

  /** A deleting node whose WIPING scan ends with a clean batch is dirty and
      ready to be deleted afterwards, so the next flush that runs sends it
      with the deletions. */
  lemma FinishedWipingIsFlushedForDeletion(reg: Registry, h: Handle, b: nat, inMaintenance: bool,
                                           now: nat, cfg: Config, force: bool)
    requires reg.dirty <= reg.items.Keys && h in reg.items
    requires var item := reg.items[h];
      A.Eligible(item) && item.node.deleting
      && item.activity.Some? && A.RebuildReady(item.activity.value) && !item.activity.value.running
      && A.HasStage(item, Wiping) && !item.activity.value.stage.value.rebuildError
    ensures var r := M.RebuildStep(reg, h, A.BatchSucceeded(None, b), inMaintenance, now, cfg);
      h in r.dirty && r.items[h].readyToBeDeleted
      && (FlushRuns(r, force) ==> h in PlanFlush(r, force).value.0.deleted)
  {
    A.DeletingNodeFinishesWiping(reg.items[h], b, now, cfg);
  }
}

=== FILE: probes.dfy ===
/** The effect of the periodic health probes of `_test_nodes_validity` on an
    item's detention timers. The probes themselves are remote calls; their
    outcomes are inputs here. */
module Probes {
  import opened Types
  import S = StatusEngine

  datatype ProbeOutcome = ProbeOk | ProbeFailed

  /** The store test fails with a reason code, or succeeds. */
  datatype StoreOutcome = StoreOk | StoreNotExistError | StoreAuthError | StoreOtherError

  /** Outcomes of the three probes of one round (a probe the round skips has
      no effect whatever its outcome field says). */
  datatype Round = Round(networkPerf: ProbeOutcome, storePerf: StoreOutcome, networkToServer: ProbeOutcome)

  /** Shared timer rule: a failure starts the timer unless it already runs (so
      the timer keeps the time of the first failure); a success stops it only
      once it has run longer than the detention threshold. */
  function TimerAfter(t: nat, failed: bool, now: nat, threshold: nat): (r: nat)
    ensures failed && t != 0 ==> r == t
    ensures failed && t == 0 ==> r == now
    ensures !failed ==> (r == 0 <==> t == 0 || now - t > threshold)
    ensures !failed && r != 0 ==> r == t
  {
    if failed then (if t == 0 then now else t)
    else if t != 0 && now - t > threshold then 0
    else t
  }

  /** A store-test mark (missing storage, auth failure): a success clears it,
      a failure with the mark's own reason code sets it unless already set,
      any other failure keeps it. */
  function MarkAfter(t: nat, outcome: StoreOutcome, reason: StoreOutcome, now: nat): (r: nat)
    requires !reason.StoreOk?
    ensures outcome.StoreOk? ==> r == 0
    ensures outcome == reason ==> r == (if t == 0 then now else t)
    ensures !outcome.StoreOk? && outcome != reason ==> r == t
  {
    if outcome.StoreOk? then 0
    else if outcome == reason && t == 0 then now
    else t
  }

  /** One probe round. Nothing is probed for a deleted or not yet stored
      node; the network probes need a connection and an rpc address, the
      store probe a connection. A successful store test also clears the
      missing-storage and auth-failure marks; a failed one with those reason
      codes sets them unless set. The reported-errors timer expires like the
      others. The boolean result tells whether a probe asked for the item to
      be persisted. */
  function ApplyRound(item: Item, round: Round, now: nat, cfg: Config): (r: (Item, bool))
    ensures item.node.deleted || item.stored.None? ==> r == (item, false)
    ensures r.0.node == item.node && r.0.connection == item.connection && r.0.stored == item.stored
    ensures r.0.activity == item.activity && r.0.status == item.status
    ensures item.connection.None? ==>
      r.0.n2nErrors == item.n2nErrors && r.0.gatewayErrors == item.gatewayErrors
      && r.0.ioTestErrors == item.ioTestErrors && r.0.storageNotExist == item.storageNotExist
    // a failing probe leaves its timer running (started now when it was not)
    ensures (!item.node.deleted && item.stored.Some? && item.connection.Some? && item.node.rpcAddress != ""
             && round.networkPerf == ProbeFailed) ==> r.0.n2nErrors == (if item.n2nErrors == 0 then now else item.n2nErrors)
    ensures (!item.node.deleted && item.stored.Some? && item.connection.Some? && item.node.rpcAddress != ""
             && round.networkToServer == ProbeFailed) ==> r.0.gatewayErrors == (if item.gatewayErrors == 0 then now else item.gatewayErrors)
    ensures !item.node.deleted && item.stored.Some? && item.connection.Some? && !round.storePerf.StoreOk?
            ==> r.0.ioTestErrors == (if item.ioTestErrors == 0 then now else item.ioTestErrors)
    ensures !item.node.deleted && item.stored.Some? && item.connection.Some? && round.storePerf.StoreOk?
            ==> r.0.storageNotExist == 0 && r.0.authFailed == 0
    // a timer never starts on a success
    ensures item.n2nErrors == 0 && round.networkPerf == ProbeOk ==> r.0.n2nErrors == 0
    ensures item.ioTestErrors == 0 && round.storePerf.StoreOk? ==> r.0.ioTestErrors == 0
    ensures r.0.ioReportedErrors == 0 || r.0.ioReportedErrors == item.ioReportedErrors
  {
    if item.node.deleted || item.stored.None? then (item, false)
    else
      var thr := cfg.ioDetentionThreshold;
      var connected := item.connection.Some?;
      var reachable := connected && item.node.rpcAddress != "";
      var n2n := if reachable then TimerAfter(item.n2nErrors, round.networkPerf == ProbeFailed, now, thr)
                 else item.n2nErrors;
      var storeFailed := !round.storePerf.StoreOk?;
      var ioTest := if connected then TimerAfter(item.ioTestErrors, storeFailed, now, thr) else item.ioTestErrors;
      var notExist := if connected then MarkAfter(item.storageNotExist, round.storePerf, StoreNotExistError, now)
                      else item.storageNotExist;
      var authFailed := if connected then MarkAfter(item.authFailed, round.storePerf, StoreAuthError, now)
                        else item.authFailed;
      var gateway := if reachable then TimerAfter(item.gatewayErrors, round.networkToServer == ProbeFailed, now, thr)
                     else item.gatewayErrors;
      var reported := TimerAfter(item.ioReportedErrors, false, now, thr);
      var persist := (connected && round.storePerf.StoreOk?) || (reachable && round.networkToServer == ProbeOk);
      (item.(n2nErrors := n2n, ioTestErrors := ioTest, storageNotExist := notExist, authFailed := authFailed,
             gatewayErrors := gateway, ioReportedErrors := reported), persist)
  }

  /** A connected node whose store test fails is detained at once, and so is
      neither readable nor writable after the next status pass. */
  lemma FailedStoreTestDetains(item: Item, round: Round, now: nat, cfg: Config, online: bool)
    requires !item.node.deleted && item.stored.Some? && item.connection.Some?
    requires !round.storePerf.StoreOk? && now > 0
    ensures var s := S.Derive(ApplyRound(item, round, now, cfg).0, online, cfg);
      s.ioDetention != 0 && !s.readable && !s.writable && s.hasIssues
  {
  }

  /** Once every timer is older than the threshold, a round of successful
      probes on a reachable node releases it from detention. */
  lemma SuccessfulRoundReleasesDetention(item: Item, now: nat, cfg: Config, online: bool)
    requires !item.node.deleted && item.stored.Some? && item.connection.Some? && item.node.rpcAddress != ""
    requires item.n2nErrors == 0 || now - item.n2nErrors > cfg.ioDetentionThreshold
    requires item.gatewayErrors == 0 || now - item.gatewayErrors > cfg.ioDetentionThreshold
    requires item.ioTestErrors == 0 || now - item.ioTestErrors > cfg.ioDetentionThreshold
    requires item.ioReportedErrors == 0 || now - item.ioReportedErrors > cfg.ioDetentionThreshold
    ensures var s := S.Derive(ApplyRound(item, Round(ProbeOk, StoreOk, ProbeOk), now, cfg).0, online, cfg);
      s.ioDetention == 0
  {
  }
}

=== FILE: query.dfy ===
/** Listing nodes (`_filter_nodes`, `_paginate_nodes_list`): stored nodes are
    re-evaluated, filtered by the query's base predicates, counted, and only
    then filtered by the has-issues, online and mode predicates, so the
    counts describe every mode even when the list shows only some. */
module Query {
  import opened Base
  import opened Types
  import M = Monitor

  /** The query predicates the model covers; `None` is an absent field. */
  datatype NodeQuery = NodeQuery(
    pools: Option<set<string>>,
    skipAddress: string,
    skipNoAddress: bool,
    strictlyCloud: bool, skipCloud: bool,
    strictlyMongo: bool, skipMongo: bool,
    strictlyInternal: bool, skipInternal: bool,
    readable: Option<bool>, writable: Option<bool>, trusted: Option<bool>,
    migrating: Option<bool>, decommissioning: Option<bool>, decommissioned: Option<bool>,
    accessibility: Option<Accessibility>,
    hasIssues: Option<bool>, online: Option<bool>, modes: Option<set<Mode>>)

  predicate Matches(want: Option<bool>, actual: bool)
  {
    want.None? || want.value == actual
  }

  /** The predicates applied before counting. A query that both requires and
      excludes a node kind matches nothing. */
  predicate BaseFilter(item: Item, q: NodeQuery)
  {
    !((q.strictlyCloud && q.skipCloud) || (q.strictlyMongo && q.skipMongo) || (q.strictlyInternal && q.skipInternal))
    && (q.pools.None? || item.node.pool in q.pools.value)
    && (q.skipAddress == "" || q.skipAddress != item.node.rpcAddress)
    && (!q.skipNoAddress || item.node.rpcAddress != "")
    && (!q.strictlyCloud || item.node.isCloud) && (!q.skipCloud || !item.node.isCloud)
    && (!q.strictlyMongo || item.node.isMongo) && (!q.skipMongo || !item.node.isMongo)
    && (!q.strictlyInternal || item.node.isInternal) && (!q.skipInternal || !item.node.isInternal)
    && Matches(q.readable, item.status.readable) && Matches(q.writable, item.status.writable)
    && Matches(q.trusted, item.status.trusted) && Matches(q.migrating, item.node.migratingToPool)
    && Matches(q.decommissioning, item.node.decommissioning)
    && Matches(q.decommissioned, item.node.decommissioned)
    && (q.accessibility.None? || q.accessibility.value == item.status.accessibility)
  }

  /** The predicates applied after counting. */
  predicate PostFilter(item: Item, q: NodeQuery)
  {
    Matches(q.hasIssues, item.status.hasIssues) && Matches(q.online, item.status.online)
    && (q.modes.None? || item.status.mode in q.modes.value)
  }

  /** The query without its post-count predicates. */
  function WithoutPostFilters(q: NodeQuery): NodeQuery
  {
    q.(hasIssues := None, online := None, modes := None)
  }

  /** Reference definition of the counted items: the stored candidates, each
      after its status pass, that pass the base predicates, in order. */
  function Counted(items: seq<Item>, q: NodeQuery, now: nat, cfg: Config): (r: seq<Item>)
    ensures |r| <= |items|
    ensures forall i :: 0 <= i < |r| ==> BaseFilter(r[i], q) && r[i].stored.Some?
  {
    if |items| == 0 then []
    else
      var rest := Counted(items[..|items| - 1], q, now, cfg);
      var last := items[|items| - 1];
      var it := M.UpdateStatus(last, now, cfg);
      if last.stored.Some? && BaseFilter(it, q) then rest + [it] else rest
  }

  /** Reference definition of the post-count selection. */
  function Listed(xs: seq<Item>, q: NodeQuery): (r: seq<Item>)
    ensures |r| <= |xs|
    ensures forall i :: 0 <= i < |r| ==> PostFilter(r[i], q)
  {
    if |xs| == 0 then []
    else
      var rest := Listed(xs[..|xs| - 1], q);
      if PostFilter(xs[|xs| - 1], q) then rest + [xs[|xs| - 1]] else rest
  }

  function CountOnline(xs: seq<Item>): (n: nat)
    ensures n <= |xs|
  {
    if |xs| == 0 then 0
    else CountOnline(xs[..|xs| - 1]) + (if xs[|xs| - 1].status.online then 1 else 0)
  }

  function CountMode(xs: seq<Item>, m: Mode): (n: nat)
    ensures n <= |xs|
  {
    if |xs| == 0 then 0
    else CountMode(xs[..|xs| - 1], m) + (if xs[|xs| - 1].status.mode == m then 1 else 0)
  }

  /** One more candidate extends the counted items by its re-evaluated
      version exactly when it is stored and passes the base predicates. */
  lemma CountedStep(items: seq<Item>, i: nat, q: NodeQuery, now: nat, cfg: Config)
    requires i < |items|
    ensures var it := M.UpdateStatus(items[i], now, cfg);
      Counted(items[..i + 1], q, now, cfg)
      == if items[i].stored.Some? && BaseFilter(it, q) then Counted(items[..i], q, now, cfg) + [it]
         else Counted(items[..i], q, now, cfg)
  {
    assert items[..i + 1][..i] == items[..i];
  }

  lemma ListedAppend(xs: seq<Item>, x: Item, q: NodeQuery)
    ensures Listed(xs + [x], q) == if PostFilter(x, q) then Listed(xs, q) + [x] else Listed(xs, q)
  {
    assert (xs + [x])[..|xs|] == xs;
  }

  lemma CountsAppend(xs: seq<Item>, x: Item)
    ensures CountOnline(xs + [x]) == CountOnline(xs) + (if x.status.online then 1 else 0)
    ensures forall m :: CountMode(xs + [x], m) == CountMode(xs, m) + (if x.status.mode == m then 1 else 0)
  {
    assert (xs + [x])[..|xs|] == xs;
  }

  datatype FilterCounts = FilterCounts(count: nat, online: nat, byMode: map<Mode, nat>)

  /** Counting one more item. */
  function AddCount(counts: FilterCounts, it: Item): (r: FilterCounts)
    ensures r.count == counts.count + 1
    ensures r.online == counts.online + (if it.status.online then 1 else 0)
    ensures r.byMode.Keys == counts.byMode.Keys + {it.status.mode}
    ensures forall m :: m in r.byMode ==>
      r.byMode[m] == (if m in counts.byMode then counts.byMode[m] else 0) + (if m == it.status.mode then 1 else 0)
  {
    var mode := it.status.mode;
    var prev := if mode in counts.byMode then counts.byMode[mode] else 0;
    FilterCounts(counts.count + 1, counts.online + (if it.status.online then 1 else 0), counts.byMode[mode := prev + 1])
  }

  /** The counts describe exactly the given items. */
  predicate CountsOf(counts: FilterCounts, xs: seq<Item>)
  {
    counts.count == |xs| && counts.online == CountOnline(xs)
    && (forall m :: m in counts.byMode <==> CountMode(xs, m) > 0)
    && (forall m :: m in counts.byMode ==> counts.byMode[m] == CountMode(xs, m))
  }

  lemma AddCountStep(counts: FilterCounts, xs: seq<Item>, it: Item)
    requires CountsOf(counts, xs)
    ensures CountsOf(AddCount(counts, it), xs + [it])
  {
    CountsAppend(xs, it);
  }

  /** `_filter_nodes` over the candidate items in iteration order (all
      registered items, or the ones the query names). */
  method FilterNodes(items: seq<Item>, q: NodeQuery, now: nat, cfg: Config)
    returns (list: seq<Item>, counts: FilterCounts)
    ensures list == Listed(Counted(items, q, now, cfg), q)
    ensures CountsOf(counts, Counted(items, q, now, cfg))
  {
    list := [];
    counts := FilterCounts(0, 0, map[]);
    var i := 0;
    while i < |items|
      invariant 0 <= i <= |items|
      invariant list == Listed(Counted(items[..i], q, now, cfg), q)
      invariant CountsOf(counts, Counted(items[..i], q, now, cfg))
    {
      var item := items[i];
      CountedStep(items, i, q, now, cfg);
      if item.stored.Some? {
        var it := M.UpdateStatus(item, now, cfg);
        if BaseFilter(it, q) {
          var before := Counted(items[..i], q, now, cfg);
          ListedAppend(before, it, q);
          AddCountStep(counts, before, it);
          counts := AddCount(counts, it);
          if PostFilter(it, q) {
            list := list + [it];
          }
        }
      }
      i := i + 1;
    }
    assert items[..|items|] == items;
  }

  /** The base selection never reads the post-count predicates. */
  lemma {:induction false} CountedIgnoresPostFilters(items: seq<Item>, q: NodeQuery, now: nat, cfg: Config)
    ensures Counted(items, q, now, cfg) == Counted(items, WithoutPostFilters(q), now, cfg)
  {
    if |items| > 0 {
      CountedIgnoresPostFilters(items[..|items| - 1], q, now, cfg);
      var it := M.UpdateStatus(items[|items| - 1], now, cfg);
      assert BaseFilter(it, q) == BaseFilter(it, WithoutPostFilters(q));
    }
  }

  /** Without post-count predicates every counted item is listed. */
  lemma {:induction false} ListedWithoutPostFiltersIsCounted(xs: seq<Item>, q: NodeQuery)
    ensures Listed(xs, WithoutPostFilters(q)) == xs
  {
    if |xs| > 0 {
      ListedWithoutPostFiltersIsCounted(xs[..|xs| - 1], q);
      assert xs[..|xs| - 1] + [xs[|xs| - 1]] == xs;
    }
  }

  /** The counts of a query are those of the same query without its
      has-issues, online and mode predicates, and that query lists exactly
      the counted items. */
  lemma CountsIgnorePostFilters(items: seq<Item>, q: NodeQuery, now: nat, cfg: Config)
    ensures |Counted(items, q, now, cfg)| == |Counted(items, WithoutPostFilters(q), now, cfg)|
    ensures Listed(Counted(items, WithoutPostFilters(q), now, cfg), WithoutPostFilters(q))
            == Counted(items, q, now, cfg)
  {
    CountedIgnoresPostFilters(items, q, now, cfg);
    ListedWithoutPostFiltersIsCounted(Counted(items, WithoutPostFilters(q), now, cfg), q);
  }

  /** `_paginate_nodes_list`: a missing (or zero) skip starts at the
      beginning, a missing (or zero) limit takes the whole list, and the
      window is clamped to the list as the slice operation does. */
  function Paginate<T>(list: seq<T>, skip: nat, limit: nat): (r: seq<T>)
    ensures skip >= |list| ==> r == []
    ensures skip < |list| && limit == 0 ==> r == list[skip..]
    ensures |r| == if skip >= |list| then 0 else Min(if limit == 0 then |list| else limit, |list| - skip)
    ensures forall i :: 0 <= i < |r| ==> r[i] == list[skip + i]
  {
    var lim := if limit == 0 then |list| else limit;
    var start := Min(skip, |list|);
    var end := Min(skip + lim, |list|);
    list[start..end]
  }

  /** Consecutive pages of the same size tile the list. */
  lemma PagesConcatenate<T>(list: seq<T>, skip: nat, limit: nat)
    requires limit > 0
    ensures Paginate(list, skip, limit) + Paginate(list, skip + limit, limit) == Paginate(list, skip, 2 * limit)
  {
    var a := Paginate(list, skip, limit);
    var b := Paginate(list, skip + limit, limit);
    var c := Paginate(list, skip, 2 * limit);
    assert |a + b| == |c|;
    forall i | 0 <= i < |c| ensures (a + b)[i] == c[i] {
      if i >= |a| {
        assert i - |a| < |b|;
      }
    }
  }
}

=== FILE: registry.dfy ===
/** The registry: the item objects the monitor holds, the three string-keyed
    indexes (node id, peer id, name), the host grouping and the dirty set of
    items awaiting persistence, with lookup by identity. */
module NodeRegistry {
  import opened Base
  import opened Types

  /** `items` stands for the item objects themselves (keyed by object
      identity); the maps and the dirty set are the monitor's indexes over
      them. The host grouping keeps every item appended to it. `started`
      holds between `start` and `stop`; `loaded` holds once the stored nodes
      have been read, which only happens while started. */
  datatype Registry = Registry(
    items: map<Handle, Item>,
    byId: map<string, Handle>,
    byPeer: map<string, Handle>,
    byName: map<string, Handle>,
    byHost: map<string, seq<Handle>>,
    dirty: set<Handle>,
    started: bool,
    loaded: bool)

  datatype Collision = IdCollision | PeerIdCollision | NameCollision

  /** Every index entry points at an existing item. */
  predicate Closed(reg: Registry)
  {
    reg.byId.Values <= reg.items.Keys && reg.byPeer.Values <= reg.items.Keys
    && reg.byName.Values <= reg.items.Keys && reg.dirty <= reg.items.Keys
  }

  /** Every index entry is filed under the item's own key, so no item is
      reachable under a key that is not its own. */
  predicate Consistent(reg: Registry)
  {
    Closed(reg)
    && (forall k :: k in reg.byId ==> reg.items[reg.byId[k]].node.id == k)
    && (forall k :: k in reg.byPeer ==> reg.items[reg.byPeer[k]].node.peerId == k)
    && (forall k :: k in reg.byName ==> reg.items[reg.byName[k]].node.name == k)
  }

  /** The index keys of an item are the same in both versions. */
  predicate SameKeys(a: Item, b: Item)
  {
    a.node.id == b.node.id && a.node.peerId == b.node.peerId && a.node.name == b.node.name
    && a.node.hostId == b.node.hostId
  }

  /** Replacing items by versions with the same keys keeps the indexes valid
      and every registration. */
  lemma KeyPreservingUpdate(reg: Registry, items: map<Handle, Item>)
    requires items.Keys == reg.items.Keys
    requires forall h :: h in items ==> SameKeys(reg.items[h], items[h])
    ensures Consistent(reg) ==> Consistent(reg.(items := items))
    ensures forall g :: Registered(reg, g) ==> Registered(reg.(items := items), g)
  {
  }

  /** Marking existing items dirty touches no index. */
  lemma MarkingDirtyKeepsConsistent(reg: Registry, extra: set<Handle>)
    requires extra <= reg.items.Keys
    ensures Consistent(reg) ==> Consistent(reg.(dirty := reg.dirty + extra))
    ensures forall g :: Registered(reg, g) ==> Registered(reg.(dirty := reg.dirty + extra), g)
  {
  }

  /** All three indexes send the item's keys to it. */
  predicate Registered(reg: Registry, h: Handle)
  {
    h in reg.items
    && var n := reg.items[h].node;
    n.id in reg.byId && reg.byId[n.id] == h
    && n.peerId in reg.byPeer && reg.byPeer[n.peerId] == h
    && n.name in reg.byName && reg.byName[n.name] == h
  }

  /** In a consistent registry an item sits under exactly one key of each index. */
  lemma ConsistentIndexesAreInjective(reg: Registry, k1: string, k2: string)
    requires Consistent(reg)
    requires k1 in reg.byId && k2 in reg.byId && reg.byId[k1] == reg.byId[k2]
    ensures k1 == k2
  {
  }

  predicate Collides(m: map<string, Handle>, k: string, h: Handle)
  {
    k in m && m[k] != h
  }

  /** `_add_node_to_maps`: a key already held by a different item is a
      collision (checked id, then peer id, then name) and nothing changes;
      otherwise all three indexes send the item's keys to it. */
  function AddNodeToMaps(reg: Registry, h: Handle): (r: Result<Registry, Collision>)
    requires h in reg.items
    ensures r.Failure? <==>
      Collides(reg.byId, reg.items[h].node.id, h) || Collides(reg.byPeer, reg.items[h].node.peerId, h)
      || Collides(reg.byName, reg.items[h].node.name, h)
    ensures r.Failure? && r.error == IdCollision <==> Collides(reg.byId, reg.items[h].node.id, h)
    ensures r.Failure? && r.error == PeerIdCollision <==>
      !Collides(reg.byId, reg.items[h].node.id, h) && Collides(reg.byPeer, reg.items[h].node.peerId, h)
    ensures r.Failure? && r.error == NameCollision <==>
      !Collides(reg.byId, reg.items[h].node.id, h) && !Collides(reg.byPeer, reg.items[h].node.peerId, h)
      && Collides(reg.byName, reg.items[h].node.name, h)
    ensures r.Success? ==> Registered(r.value, h)
    ensures r.Success? ==> r.value.items == reg.items && r.value.dirty == reg.dirty && r.value.byHost == reg.byHost
    ensures r.Success? ==> forall k :: k in reg.byId && k != reg.items[h].node.id ==> k in r.value.byId && r.value.byId[k] == reg.byId[k]
    ensures r.Success? ==> forall k :: k in reg.byPeer && k != reg.items[h].node.peerId ==> k in r.value.byPeer && r.value.byPeer[k] == reg.byPeer[k]
    ensures r.Success? ==> forall k :: k in reg.byName && k != reg.items[h].node.name ==> k in r.value.byName && r.value.byName[k] == reg.byName[k]
    ensures r.Success? ==> r.value.byId.Keys == reg.byId.Keys + {reg.items[h].node.id}
                           && r.value.byPeer.Keys == reg.byPeer.Keys + {reg.items[h].node.peerId}
                           && r.value.byName.Keys == reg.byName.Keys + {reg.items[h].node.name}
  {
    var n := reg.items[h].node;
    if Collides(reg.byId, n.id, h) then Failure(IdCollision)
    else if Collides(reg.byPeer, n.peerId, h) then Failure(PeerIdCollision)
    else if Collides(reg.byName, n.name, h) then Failure(NameCollision)
    else Success(reg.(byId := reg.byId[n.id := h], byPeer := reg.byPeer[n.peerId := h],
                      byName := reg.byName[n.name := h]))
  }

  /** A successful indexing keeps a consistent registry consistent and every
      other registered item registered. */
  lemma AddNodeToMapsKeepsConsistent(reg: Registry, h: Handle)
    requires h in reg.items && AddNodeToMaps(reg, h).Success?
    ensures Consistent(reg) ==> Consistent(AddNodeToMaps(reg, h).value)
    ensures forall g :: g != h && Registered(reg, g) ==> Registered(AddNodeToMaps(reg, h).value, g)
  {
  }

  /** `_add_node_to_hosts_map`: the item is appended to its host's list. */
  function AddToHostsMap(reg: Registry, hostId: string, h: Handle): (r: Registry)
    ensures hostId in r.byHost && |r.byHost[hostId]| >= 1 && r.byHost[hostId][|r.byHost[hostId]| - 1] == h
    ensures hostId in reg.byHost ==> r.byHost[hostId][..|r.byHost[hostId]| - 1] == reg.byHost[hostId]
    ensures hostId !in reg.byHost ==> r.byHost[hostId] == [h]
    ensures forall o :: o != hostId && o in reg.byHost ==> o in r.byHost && r.byHost[o] == reg.byHost[o]
    ensures r.items == reg.items && r.byId == reg.byId && r.byName == reg.byName && r.dirty == reg.dirty
  {
    var prev := if hostId in reg.byHost then reg.byHost[hostId] else [];
    reg.(byHost := reg.byHost[hostId := prev + [h]])
  }

  /** `_add_existing_node`: an item loaded from the store, without a
      connection, indexed and grouped under its host when it has one. */
  /** Adding an object that no index refers to keeps the registry consistent. */
  lemma FreshItemKeepsConsistent(reg: Registry, h: Handle, item: Item)
    requires h !in reg.items
    ensures Consistent(reg) ==> Consistent(reg.(items := reg.items[h := item]))
    ensures Consistent(reg) ==> Consistent(reg.(items := reg.items[h := item], dirty := reg.dirty + {h}))
  {
    if !Consistent(reg) { return; }
    var r := reg.(items := reg.items[h := item]);
    forall k | k in r.byId ensures r.items[r.byId[k]].node.id == k {
      assert reg.byId[k] in reg.items;
    }
    forall k | k in r.byPeer ensures r.items[r.byPeer[k]].node.peerId == k {
      assert reg.byPeer[k] in reg.items;
    }
    forall k | k in r.byName ensures r.items[r.byName[k]].node.name == k {
      assert reg.byName[k] in reg.items;
    }
  }

  /** A freshly loaded item: no connection, no timers, no status yet. */
  function LoadedItem(node: Node): (item: Item)
    ensures item.node == node && item.connection.None? && item.stored == Some(StoredRecord(node.deleted))
    ensures item.activity.None? && item.status == InitialStatus
  {
    Item(node, None, Some(StoredRecord(node.deleted)), 0, 0, 0, 0, 0, 0, false, InitialStatus, None)
  }

  function AddExistingNode(reg: Registry, h: Handle, node: Node): (r: Result<Registry, Collision>)
    requires h !in reg.items
    ensures r.Success? ==> Registered(r.value, h) && r.value.items[h].stored == Some(StoredRecord(node.deleted))
    ensures r.Success? ==> r.value.items[h].connection.None? && r.value.dirty == reg.dirty
    ensures r.Success? && node.hostId != "" ==> node.hostId in r.value.byHost
    ensures r.Success? && Consistent(reg) ==> Consistent(r.value)
    ensures r.Failure? <==> Collides(reg.byId, node.id, h) || Collides(reg.byPeer, node.peerId, h)
                            || Collides(reg.byName, node.name, h)
  {
    var reg1 := reg.(items := reg.items[h := LoadedItem(node)]);
    FreshItemKeepsConsistent(reg, h, LoadedItem(node));
    match AddNodeToMaps(reg1, h)
    case Failure(e) => Failure(e)
    case Success(reg2) =>
      AddNodeToMapsKeepsConsistent(reg1, h);
      Success(if node.hostId != "" then AddToHostsMap(reg2, node.hostId, h) else reg2)
  }

  /** `_add_new_node` up to attaching the connection: the new item is marked
      dirty BEFORE it is indexed, so when indexing fails the item stays in the
      dirty set without being registered. The registry after the attempt is
      returned together with the collision, if any. */
  function AddNewNode(reg: Registry, h: Handle, item: Item): (r: (Registry, Option<Collision>))
    requires h !in reg.items
    ensures h in r.0.dirty && h in r.0.items && r.0.items[h] == item
    ensures r.1.None? <==> !(Collides(reg.byId, item.node.id, h) || Collides(reg.byPeer, item.node.peerId, h)
                             || Collides(reg.byName, item.node.name, h))
    ensures r.1.None? ==> Registered(r.0, h)
    ensures r.1.Some? ==> r.0.byId == reg.byId && r.0.byPeer == reg.byPeer && r.0.byName == reg.byName
    ensures Consistent(reg) ==> Consistent(r.0)
  {
    var reg1 := reg.(items := reg.items[h := item], dirty := reg.dirty + {h});
    FreshItemKeepsConsistent(reg, h, item);
    match AddNodeToMaps(reg1, h)
    case Failure(e) => (reg1, Some(e))
    case Success(reg2) =>
      AddNodeToMapsKeepsConsistent(reg1, h);
      (reg2, None)
  }

  function IdKeys(reg: Registry, hs: set<Handle>): set<string>
  {
    set h | h in hs && h in reg.items :: reg.items[h].node.id
  }

  function PeerKeys(reg: Registry, hs: set<Handle>): set<string>
  {
    set h | h in hs && h in reg.items :: reg.items[h].node.peerId
  }

  function NameKeys(reg: Registry, hs: set<Handle>): set<string>
  {
    set h | h in hs && h in reg.items :: reg.items[h].node.name
  }

  /** `_remove_node_from_maps` exactly as the source writes it, lifted to a
      set of items: each item's three keys are deleted from the indexes
      whatever item they currently point at, and the items leave the dirty
      set. The host grouping is not touched. */
  function RemoveNodesFromMapsAsWritten(reg: Registry, hs: set<Handle>): (r: Registry)
    ensures r.dirty == reg.dirty - hs && r.items == reg.items && r.byHost == reg.byHost
    // every key of a removed item is gone, whatever item it pointed at
    ensures forall h :: h in hs && h in reg.items ==>
      reg.items[h].node.id !in r.byId && reg.items[h].node.peerId !in r.byPeer
      && reg.items[h].node.name !in r.byName
    // every other entry survives unchanged, and nothing is added
    ensures r.byId.Keys <= reg.byId.Keys && r.byPeer.Keys <= reg.byPeer.Keys && r.byName.Keys <= reg.byName.Keys
    ensures forall k :: k in reg.byId && k !in IdKeys(reg, hs) ==> k in r.byId && r.byId[k] == reg.byId[k]
    ensures forall k :: k in reg.byPeer && k !in PeerKeys(reg, hs) ==> k in r.byPeer && r.byPeer[k] == reg.byPeer[k]
    ensures forall k :: k in reg.byName && k !in NameKeys(reg, hs) ==> k in r.byName && r.byName[k] == reg.byName[k]
  {
    reg.(byId := reg.byId - IdKeys(reg, hs), byPeer := reg.byPeer - PeerKeys(reg, hs),
         byName := reg.byName - NameKeys(reg, hs), dirty := reg.dirty - hs)
  }

  function DropValues(m: map<string, Handle>, hs: set<Handle>): (r: map<string, Handle>)
    ensures forall k :: k in r <==> k in m && m[k] !in hs
    ensures forall k :: k in r ==> r[k] == m[k]
  {
    map k | k in m && m[k] !in hs :: m[k]
  }

  /** Removal as intended: only the index entries that point at the removed
      items are deleted, so no other item loses a key. */
  function RemoveNodesFromMaps(reg: Registry, hs: set<Handle>): (r: Registry)
    ensures r.dirty == reg.dirty - hs && r.items == reg.items && r.byHost == reg.byHost
    ensures forall k :: k in r.byId ==> r.byId[k] !in hs
    ensures forall k :: k in r.byPeer ==> r.byPeer[k] !in hs
    ensures forall k :: k in r.byName ==> r.byName[k] !in hs
    ensures forall g :: g !in hs && Registered(reg, g) ==> Registered(r, g)
    ensures Consistent(reg) ==> Consistent(r)
  {
    reg.(byId := DropValues(reg.byId, hs), byPeer := DropValues(reg.byPeer, hs),
         byName := DropValues(reg.byName, hs), dirty := reg.dirty - hs)
  }

  lemma IdRemovalAgrees(reg: Registry, hs: set<Handle>)
    requires Consistent(reg)
    requires forall h :: h in hs ==> Registered(reg, h)
    ensures reg.byId - IdKeys(reg, hs) == DropValues(reg.byId, hs)
  {
    forall k | k in reg.byId && reg.byId[k] in hs
      ensures k in IdKeys(reg, hs)
    {
      assert reg.items[reg.byId[k]].node.id == k;
    }
  }

  lemma PeerRemovalAgrees(reg: Registry, hs: set<Handle>)
    requires Consistent(reg)
    requires forall h :: h in hs ==> Registered(reg, h)
    ensures reg.byPeer - PeerKeys(reg, hs) == DropValues(reg.byPeer, hs)
  {
    forall k | k in reg.byPeer && reg.byPeer[k] in hs
      ensures k in PeerKeys(reg, hs)
    {
      assert reg.items[reg.byPeer[k]].node.peerId == k;
    }
  }

  lemma NameRemovalAgrees(reg: Registry, hs: set<Handle>)
    requires Consistent(reg)
    requires forall h :: h in hs ==> Registered(reg, h)
    ensures reg.byName - NameKeys(reg, hs) == DropValues(reg.byName, hs)
  {
    forall k | k in reg.byName && reg.byName[k] in hs
      ensures k in NameKeys(reg, hs)
    {
      assert reg.items[reg.byName[k]].node.name == k;
    }
  }

  /** For items that are properly registered the correction changes nothing. */
  lemma RemovalAgreesOnRegisteredItems(reg: Registry, hs: set<Handle>)
    requires Consistent(reg)
    requires forall h :: h in hs ==> Registered(reg, h)
    ensures RemoveNodesFromMapsAsWritten(reg, hs) == RemoveNodesFromMaps(reg, hs)
  {
    IdRemovalAgrees(reg, hs);
    PeerRemovalAgrees(reg, hs);
    NameRemovalAgrees(reg, hs);
  }

  /** Counterexample for the source as written: a second new node whose
      placeholder name equals that of an existing node fails to be indexed but
      stays dirty; when the persistence flush discards it (it has no
      connection), the as-written removal deletes the OTHER node's name key.
      The intended removal leaves the other node registered. */
  lemma AsWrittenRemovalUnregistersAnotherNode()
    ensures exists reg: Registry, h: Handle, item: Item ::
      Consistent(reg) && h !in reg.items
      && var (r1, err) := AddNewNode(reg, h, item);
         err == Some(NameCollision) && h in r1.dirty
         && (exists g :: Registered(r1, g)
                         && !Registered(RemoveNodesFromMapsAsWritten(r1, {h}), g)
                         && Registered(RemoveNodesFromMaps(r1, {h}), g))
  {
    var storage := StorageCounters(0, 0, 0, 0, 0, 0, 0);
    var nodeA := Node("idA", "peerA", "a-node-has-no-name-k", "", "pool", "", 1, OtherNodeType,
                      false, false, false, false, false, false, false, false, false, false, storage, []);
    var nodeB := nodeA.(id := "idB", peerId := "peerB");
    var itemA := Item(nodeA, None, None, 0, 0, 0, 0, 0, 0, false, InitialStatus, None);
    var itemB := itemA.(node := nodeB);
    var reg := Registry(map[1 := itemA], map["idA" := 1], map["peerA" := 1],
                        map["a-node-has-no-name-k" := 1], map[], {}, true, true);
    assert Registered(reg, 1);
    var (r1, err) := AddNewNode(reg, 2, itemB);
    assert err == Some(NameCollision);
    assert Registered(r1, 1);
    assert !Registered(RemoveNodesFromMapsAsWritten(r1, {2}), 1);
  }

  /** How a caller names a node; empty strings stand for absent fields. */
  datatype NodeIdentity = NodeIdentity(id: string, name: string, peerId: string, rpcAddress: string)

  datatype LookupError = MonitorNotStarted | MonitorNotLoaded | NoSuchNode | NodeOffline

  function Find(m: map<string, Handle>, k: string): Option<Handle>
  {
    if k in m then Some(m[k]) else None
  }

  /** The first present identity field decides the index; an rpc address is
      looked up as a peer id after its `n2n://` prefix length. */
  function Lookup(reg: Registry, ident: NodeIdentity): Option<Handle>
  {
    if ident.id != "" then Find(reg.byId, ident.id)
    else if ident.name != "" then Find(reg.byName, ident.name)
    else if ident.peerId != "" then Find(reg.byPeer, ident.peerId)
    else if ident.rpcAddress != "" then
      Find(reg.byPeer, if |ident.rpcAddress| >= 6 then ident.rpcAddress[6..] else "")
    else None
  }

  /** `_get_node`: a missing node is an error unless missing results are
      allowed; a node without a connection is an error unless offline nodes
      are allowed. */
  function GetNode(reg: Registry, ident: NodeIdentity, allowOffline: bool, allowMissing: bool)
    : (r: Result<Option<Handle>, LookupError>)
    requires Closed(reg)
    ensures !reg.loaded ==> r == Failure(MonitorNotLoaded)
    ensures reg.loaded ==> (r == Failure(NoSuchNode) <==> Lookup(reg, ident).None? && !allowMissing)
    ensures reg.loaded ==> (r == Failure(NodeOffline) <==>
      Lookup(reg, ident).Some? && reg.items[Lookup(reg, ident).value].connection.None? && !allowOffline)
    ensures r.Success? ==> r.value == Lookup(reg, ident)
    ensures r.Success? && r.value.Some? && !allowOffline ==> reg.items[r.value.value].connection.Some?
    ensures r.Success? && r.value.None? ==> allowMissing
  {
    if !reg.loaded then Failure(MonitorNotLoaded)
    else
      var found := Lookup(reg, ident);
      if found.None? && !allowMissing then Failure(NoSuchNode)
      else if found.Some? && reg.items[found.value].connection.None? && !allowOffline then Failure(NodeOffline)
      else Success(found)
  }

  /** A registered item is found by its id, by its name and by its peer id. */
  lemma RegisteredItemIsFound(reg: Registry, h: Handle)
    requires Registered(reg, h)
    ensures var n := reg.items[h].node;
      (n.id != "" ==> Lookup(reg, NodeIdentity(n.id, "", "", "")) == Some(h))
      && (n.name != "" ==> Lookup(reg, NodeIdentity("", n.name, "", "")) == Some(h))
      && (n.peerId != "" ==> Lookup(reg, NodeIdentity("", "", n.peerId, "")) == Some(h))
      && Lookup(reg, NodeIdentity("", "", "", "n2n://" + n.peerId)) == Some(h)
  {
    var n := reg.items[h].node;
    assert ("n2n://" + n.peerId)[6..] == n.peerId;
  }
}

=== FILE: schedule.dfy ===
/** The monitor's run timer (`_schedule_next_run`). Only the scheduling
    decision is modelled; the timer itself is left out. `nextRun` is the
    time of the pending run, 0 when none is pending. */
module Schedule {
  import opened Base
  import opened Types

  /** The requested delay, clamped into [0, RUN_DELAY_MS]; a missing or zero
      request means the full delay. */
  function RunDelay(requested: int): (d: nat)
    ensures d <= RUN_DELAY_MS
    ensures requested == 0 ==> d == RUN_DELAY_MS
    ensures 0 < requested <= RUN_DELAY_MS ==> d == requested
    ensures requested > RUN_DELAY_MS ==> d == RUN_DELAY_MS
    ensures requested < 0 ==> d == 0
  {
    var wanted := if requested == 0 then RUN_DELAY_MS as int else requested;
    Max(0, Min(RUN_DELAY_MS, wanted))
  }

  /** The pending run time after a scheduling request made at `now`: the
      earlier of the pending run, if any, and the requested one. */
  function ScheduleNextRun(nextRun: nat, now: nat, requested: int): (r: nat)
    ensures r == nextRun || r == now + RunDelay(requested)
    ensures r <= now + RunDelay(requested)
    ensures nextRun != 0 ==> r <= nextRun
  {
    var delay := RunDelay(requested);
    if nextRun != 0 && nextRun < now + delay then nextRun else now + delay
  }

  /** A request never postpones a pending run, always leaves one pending, and
      leaves it at most RUN_DELAY_MS after the request. */
  lemma SchedulingNeverPostpones(nextRun: nat, now: nat, requested: int)
    ensures var r := ScheduleNextRun(nextRun, now, requested);
      (nextRun != 0 ==> r <= nextRun)
      && (now > 0 ==> r != 0)
      && r <= now + RUN_DELAY_MS
  {
  }

  /** Requests are absorbed by the earliest one: scheduling twice at the same
      moment leaves the earlier of the two clamped delays pending. */
  lemma SchedulingTwiceKeepsEarlier(now: nat, a: int, b: int)
    requires now > 0
    ensures ScheduleNextRun(ScheduleNextRun(0, now, a), now, b) == now + Min(RunDelay(a), RunDelay(b))
  {
  }
}

=== FILE: status.dfy ===
/** The status engine: pure functions deriving online / trusted / detention /
    readable / writable / accessibility / mode from an item's fields. */
module StatusEngine {
  import opened Base
  import opened Types
  import Storage

  /** `_get_connection_status`: online means a connection exists and the last
      heartbeat is younger than the grace time. */
  predicate Online(item: Item, now: nat)
  {
    item.connection.Some? && now < item.node.heartbeat + AGENT_HEARTBEAT_GRACE_TIME
  }

  function HasTamperingIssue(issues: seq<Issue>): (r: bool)
    ensures r <==> exists i :: 0 <= i < |issues| && issues[i].reason == TAMPERING
  {
    if |issues| == 0 then false
    else issues[0].reason == TAMPERING || HasTamperingIssue(issues[1..])
  }

  /** Trust is lost by the tampering flag or any tampering report in the log. */
  predicate Trusted(node: Node)
  {
    !node.permissionTampering && !HasTamperingIssue(node.issues)
  }

  predicate IsIoAction(a: IssueAction)
  {
    a == ReadAction || a == WriteAction || a == ReplicateAction
  }

  /** Number of read/write/replicate issues younger than the detention threshold. */
  function RecentIoIssues(issues: seq<Issue>, now: nat, threshold: nat): (n: nat)
    ensures n <= |issues|
  {
    if |issues| == 0 then 0
    else
      var i := issues[|issues| - 1];
      RecentIoIssues(issues[..|issues| - 1], now, threshold)
        + (if IsIoAction(i.action) && now - i.time < threshold then 1 else 0)
  }

  /** Enough recent IO issues start the reported-errors detention timer, unless
      it is already running. */
  function ReportedErrorsTimer(item: Item, now: nat, cfg: Config): (t: nat)
    ensures item.ioReportedErrors != 0 ==> t == item.ioReportedErrors
    ensures item.ioReportedErrors == 0 ==>
      (t != 0 <==> RecentIoIssues(item.node.issues, now, cfg.ioDetentionThreshold) >= cfg.ioDetentionRecentIssues && now != 0)
  {
    if item.ioReportedErrors == 0
       && RecentIoIssues(item.node.issues, now, cfg.ioDetentionThreshold) >= cfg.ioDetentionRecentIssues
    then now
    else item.ioReportedErrors
  }

  function MinNonZero(a: nat, b: nat): nat
  {
    if a == 0 then b else if b == 0 then a else Min(a, b)
  }

  /** `_get_item_io_detention`: the earliest of the running detention timers,
      or 0 when none runs. */
  function IoDetention(n2n: nat, gateway: nat, ioTest: nat, ioReported: nat): (r: nat)
    ensures r == 0 <==> n2n == 0 && gateway == 0 && ioTest == 0 && ioReported == 0
    ensures r != 0 ==> r == n2n || r == gateway || r == ioTest || r == ioReported
    ensures n2n != 0 ==> r <= n2n
    ensures gateway != 0 ==> r <= gateway
    ensures ioTest != 0 ==> r <= ioTest
    ensures ioReported != 0 ==> r <= ioReported
  {
    MinNonZero(MinNonZero(n2n, gateway), MinNonZero(ioTest, ioReported))
  }

  /** `_get_item_storage_full`: a configured limit is checked against used
      space, otherwise free space against the per-role reserve. */
  predicate StorageFull(node: Node, cfg: Config)
  {
    var reserve := if node.nodeType == BlockStoreFs then cfg.nodesFreeSpaceReserve else 0;
    if node.storage.limit != 0 then node.storage.used >= node.storage.limit
    else node.storage.free <= reserve
  }

  predicate HasIssues(item: Item, online: bool, trusted: bool, detention: nat)
  {
    !(online && trusted && item.stored.Some? && item.node.rpcAddress != ""
      && detention == 0
      && !item.node.migratingToPool && !item.node.decommissioning
      && !item.node.decommissioned && !item.node.deleting && !item.node.deleted)
  }

  /** Decommissioning nodes stay readable; decommissioned ones do not. */
  predicate Readable(item: Item, online: bool, trusted: bool, detention: nat)
  {
    online && trusted && item.stored.Some? && item.node.rpcAddress != ""
    && item.storageNotExist == 0 && item.authFailed == 0 && detention == 0
    && !item.node.decommissioned && !item.node.deleting && !item.node.deleted
    && !item.node.s3Agent
  }

  predicate Writable(item: Item, online: bool, trusted: bool, detention: nat, storageFull: bool)
  {
    online && trusted && item.stored.Some? && item.node.rpcAddress != ""
    && item.storageNotExist == 0 && item.authFailed == 0 && detention == 0
    && !storageFull && !item.node.migratingToPool && !item.node.decommissioning
    && !item.node.decommissioned && !item.node.deleting && !item.node.deleted
    && !item.node.s3Agent
  }

  function AccessibilityOf(readable: bool, writable: bool): Accessibility
  {
    if readable && writable then FullAccess
    else if readable then ReadOnly
    else NoAccess
  }

  /** Integer percentage of free space, truncated, 0 for an empty node. */
  function FreeRatio(free: nat, used: nat): nat
  {
    if free + used == 0 then 0 else (free * 100) / (free + used)
  }

  lemma MulLeft(a: int, b: int, t: nat)
    requires a <= b
    ensures a * t <= b * t
  {
    var d := b - a;
    assert b * t == a * t + d * t;
  }

  /** The truncated ratio test "free ratio <= 20" accepts exactly the nodes
      whose free space is strictly below 21% of free plus used. */
  lemma LowCapacityThreshold(free: nat, used: nat)
    requires free + used > 0
    ensures FreeRatio(free, used) <= 20 <==> 100 * free < 21 * (free + used)
  {
    var t := free + used;
    var n := free * 100;
    var q := n / t;
    assert n == q * t + n % t && 0 <= n % t < t;
    if q <= 20 {
      MulLeft(q, 20, t);
    } else {
      MulLeft(21, q, t);
    }
  }

  /** The condition under which each node mode applies, independent of order. */
  predicate ModeHolds(item: Item, online: bool, trusted: bool, free: nat, used: nat, m: Mode)
  {
    match m
    case Offline => !online
    case Initializing => item.node.rpcAddress == ""
    case Untrusted => !trusted
    case Deleting => item.node.deleting
    case Deleted => item.node.deleted
    case StorageNotExist => item.storageNotExist != 0
    case AuthFailed => item.authFailed != 0
    case Decommissioned => item.node.decommissioned
    case Decommissioning => item.node.decommissioning
    case Migrating => item.node.migratingToPool
    case N2nErrors => item.n2nErrors != 0
    case GatewayErrors => item.gatewayErrors != 0
    case IoErrors => item.ioTestErrors != 0 || item.ioReportedErrors != 0
    case NoCapacity => !item.node.s3Agent && free <= MB
    case LowCapacity => !item.node.s3Agent && FreeRatio(free, used) <= 20
    case Optimal => true
    case _ => false
  }

  /** Position of a mode in the node priority chain; host-only modes sit past
      its end. */
  function NodeModeRank(m: Mode): nat
  {
    match m
    case Offline => 0
    case Initializing => 1
    case Untrusted => 2
    case Deleting => 3
    case Deleted => 4
    case StorageNotExist => 5
    case AuthFailed => 6
    case Decommissioned => 7
    case Decommissioning => 8
    case Migrating => 9
    case N2nErrors => 10
    case GatewayErrors => 11
    case IoErrors => 12
    case NoCapacity => 13
    case LowCapacity => 14
    case Optimal => 15
    case _ => 16
  }

  /** `_get_item_mode`: the first applicable mode of the chain. `free` and
      `used` come from the node's storage breakdown. */
  function ModeOf(item: Item, online: bool, trusted: bool, free: nat, used: nat): (m: Mode)
    ensures NodeModeRank(m) < 16
  {
    if !online then Offline
    else if item.node.rpcAddress == "" then Initializing
    else if !trusted then Untrusted
    else if item.node.deleting then Deleting
    else if item.node.deleted then Deleted
    else if item.storageNotExist != 0 then StorageNotExist
    else if item.authFailed != 0 then AuthFailed
    else if item.node.decommissioned then Decommissioned
    else if item.node.decommissioning then Decommissioning
    else if item.node.migratingToPool then Migrating
    else if item.n2nErrors != 0 then N2nErrors
    else if item.gatewayErrors != 0 then GatewayErrors
    else if item.ioTestErrors != 0 then IoErrors
    else if item.ioReportedErrors != 0 then IoErrors
    else if !item.node.s3Agent && free <= MB then NoCapacity
    else if !item.node.s3Agent && FreeRatio(free, used) <= 20 then LowCapacity
    else Optimal
  }

  /** The mode is the highest-priority mode whose condition holds. */
  lemma ModeIsFirstMatch(item: Item, online: bool, trusted: bool, free: nat, used: nat)
    ensures ModeHolds(item, online, trusted, free, used, ModeOf(item, online, trusted, free, used))
    ensures forall m :: NodeModeRank(m) < NodeModeRank(ModeOf(item, online, trusted, free, used))
                        ==> !ModeHolds(item, online, trusted, free, used, m)
  {
    var r := ModeOf(item, online, trusted, free, used);
    forall m | NodeModeRank(m) < NodeModeRank(r)
      ensures !ModeHolds(item, online, trusted, free, used, m)
    {
      match m
      case Offline =>
      case Initializing =>
      case Untrusted =>
      case Deleting =>
      case Deleted =>
      case StorageNotExist =>
      case AuthFailed =>
      case Decommissioned =>
      case Decommissioning =>
      case Migrating =>
      case N2nErrors =>
      case GatewayErrors =>
      case IoErrors =>
      case NoCapacity =>
      case LowCapacity =>
      case Optimal =>
      case _ =>
    }
  }

  /** A node that is both offline and decommissioned reports OFFLINE. */
  lemma OfflineBeatsDecommissioned(item: Item, trusted: bool, free: nat, used: nat)
    requires item.node.decommissioned
    ensures ModeOf(item, false, trusted, free, used) == Offline
  {
    ModeIsFirstMatch(item, false, trusted, free, used);
  }

  /** All derived fields of one status pass, given the online verdict and an
      item whose reported-errors timer is already up to date. */
  function Derive(item: Item, online: bool, cfg: Config): (s: Status)
    ensures s.online == online
    ensures s.trusted <==> !item.node.permissionTampering
                           && forall i :: 0 <= i < |item.node.issues| ==> item.node.issues[i].reason != TAMPERING
    ensures s.ioDetention == 0 <==> item.n2nErrors == 0 && item.gatewayErrors == 0
                                    && item.ioTestErrors == 0 && item.ioReportedErrors == 0
    ensures s.writable ==> s.readable
    ensures s.writable ==> !s.hasIssues
    ensures s.accessibility == FullAccess <==> s.readable && s.writable
    ensures s.accessibility == ReadOnly <==> s.readable && !s.writable
    ensures s.accessibility == NoAccess <==> !s.readable
    ensures s.mode == Offline <==> !online
    ensures !online ==> s.hasIssues && !s.readable
    ensures s.readable ==> s.mode != Offline && s.mode != Untrusted && s.mode != Decommissioned
    ensures s.mode == Optimal ==> online && s.trusted && s.ioDetention == 0
  {
    var trusted := Trusted(item.node);
    var detention := IoDetention(item.n2nErrors, item.gatewayErrors, item.ioTestErrors, item.ioReportedErrors);
    var full := StorageFull(item.node, cfg);
    var hasIssues := HasIssues(item, online, trusted, detention);
    var readable := Readable(item, online, trusted, detention);
    var writable := Writable(item, online, trusted, detention, full);
    var info := Storage.NodeStorageInfo(item.node, hasIssues, cfg);
    var mode := ModeOf(item, online, trusted, info.free, info.used);
    Status(online, trusted, detention, full, hasIssues, readable, writable,
           AccessibilityOf(readable, writable), mode)
  }
}

=== FILE: storage.dfy ===
/** The storage breakdown reported for a node (`_node_storage_info`): the free
    space reserve is carved out of free space, free space of a node with
    issues is reported as unavailable, and whatever the other counters do not
    explain is `usedOther`. All arithmetic is on unbounded integers, as the
    source does it with big integers. */
module Storage {
  import opened Base
  import opened Types

  datatype StorageInfo = StorageInfo(
    total: nat, free: nat, used: nat, alloc: nat, limit: nat,
    reserved: nat, usedOther: nat, unavailableFree: nat)

  /** Internal, cloud and mongo nodes keep no free space reserve. */
  predicate IgnoresReserve(node: Node)
  {
    node.isInternal || node.isCloud || node.isMongo
  }

  function NodeStorageInfo(node: Node, hasIssues: bool, cfg: Config): (r: StorageInfo)
    // the reserve never exceeds the (clamped) free space, and is zero for nodes that ignore it
    ensures r.reserved <= Max(node.storage.free, 0)
    ensures IgnoresReserve(node) ==> r.reserved == 0
    ensures !IgnoresReserve(node) ==> r.reserved == Min(cfg.nodesFreeSpaceReserve, Max(node.storage.free, 0))
    // free space is split between reserve and free (healthy) or reserve and unavailable (with issues)
    ensures !hasIssues ==> r.reserved + r.free == Max(node.storage.free, 0)
    ensures !hasIssues ==> r.unavailableFree == node.storage.unavailableFree
    ensures hasIssues ==> r.free == 0 && r.reserved + r.unavailableFree == Max(node.storage.free, 0)
    // usedOther completes the breakdown to the total whenever the total is not already exceeded
    ensures r.usedOther > 0 ==> r.used + r.reserved + r.free + r.unavailableFree + r.usedOther == r.total
    ensures r.usedOther == 0 ==> r.used + r.reserved + r.free + r.unavailableFree >= r.total
    ensures r.total == node.storage.total && r.used == node.storage.used
    ensures r.alloc == node.storage.alloc && r.limit == node.storage.limit
  {
    var s := node.storage;
    var free0: nat := Max(s.free, 0);
    var reserved: nat := if IgnoresReserve(node) then 0 else Min(cfg.nodesFreeSpaceReserve, free0);
    var free1: nat := free0 - reserved;
    var unavailable: nat := if hasIssues then free1 else s.unavailableFree;
    var free: nat := if hasIssues then 0 else free1;
    var usedOther: nat := Max(s.total - s.used - reserved - free - unavailable, 0);
    StorageInfo(s.total, free, s.used, s.alloc, s.limit, reserved, usedOther, unavailable)
  }
}

=== FILE: types.dfy ===
/** The monitor's data model: a node item is the persisted node record plus
    the transient fields the monitor keeps beside it (connection, detention
    timers, derived status, data activity). Lifecycle timestamps that the
    monitor only ever tests for truthiness (`decommissioning`, `deleted`, ...)
    are booleans here; timestamps whose value is read (heartbeat, detention
    timers) are naturals with 0 meaning "unset". */
module Types {
  import opened Base

  /** Identity of one item object (the source compares items by reference). */
  type Handle = nat

  const AGENT_HEARTBEAT_GRACE_TIME: nat := 10 * 60 * 1000
  const UPDATE_STORE_MIN_ITEMS: nat := 30
  const RUN_DELAY_MS: nat := 60000
  const MAX_ISSUES_REPORT: nat := 20
  const MB: nat := 1024 * 1024
  const NO_NAME_PREFIX: string := "a-node-has-no-name-"
  const TAMPERING: string := "TAMPERING"

  /** Operational thresholds that the source reads from its configuration
      module; they are injected rather than fixed. */
  datatype Config = Config(
    nodesFreeSpaceReserve: nat,
    ioDetentionThreshold: nat,
    ioDetentionRecentIssues: nat,
    rebuildNodeOfflineGrace: nat)

  /** Node modes (the first sixteen, in the priority order of the node chain)
      followed by the modes only a consolidated host can have. */
  datatype Mode =
    | Offline | Initializing | Untrusted | Deleting | Deleted
    | StorageNotExist | AuthFailed | Decommissioned | Decommissioning
    | Migrating | N2nErrors | GatewayErrors | IoErrors
    | NoCapacity | LowCapacity | Optimal
    | Detention | HasIssues | MemoryPressure | DataActivity | HttpSrvErrors

  datatype Accessibility = FullAccess | ReadOnly | NoAccess

  datatype NodeType = BlockStoreFs | EndpointS3 | OtherNodeType

  datatype IssueAction = ReadAction | WriteAction | ReplicateAction | OtherAction

  /** One entry of a node's bounded issue log. `count` is how many older
      entries were folded into this one, `countSince` the time of the oldest
      of them (0 when none were). */
  datatype Issue = Issue(time: nat, action: IssueAction, reason: string, count: nat, countSince: nat)

  /** Capacity counters as the agent reports them; `free` may be negative in a
      report and is clamped wherever it is used. */
  datatype StorageCounters = StorageCounters(
    total: nat, free: int, used: nat, alloc: nat, limit: nat,
    usedOther: nat, unavailableFree: nat)

  datatype Node = Node(
    id: string,
    peerId: string,
    name: string,
    hostId: string,
    pool: string,
    rpcAddress: string,
    heartbeat: nat,
    nodeType: NodeType,
    s3Agent: bool,
    isCloud: bool,
    isMongo: bool,
    isInternal: bool,
    permissionTampering: bool,
    decommissioning: bool,
    decommissioned: bool,
    migratingToPool: bool,
    deleting: bool,
    deleted: bool,
    storage: StorageCounters,
    issues: seq<Issue>)

  /** An agent connection; `hostname` is the remote origin used to detect
      cloned agents. */
  datatype Connection = Connection(connId: nat, hostname: string, connected: bool)

  /** The part of the durable copy of a node the monitor consults. */
  datatype StoredRecord = StoredRecord(deleted: bool)

  /** Fields recomputed by every status pass. */
  datatype Status = Status(
    online: bool,
    trusted: bool,
    ioDetention: nat,
    storageFull: bool,
    hasIssues: bool,
    readable: bool,
    writable: bool,
    accessibility: Accessibility,
    mode: Mode)

  /** Before the first status pass every derived field reads as falsy. */
  const InitialStatus := Status(false, false, 0, false, false, false, false, NoAccess, Offline)

  datatype Reason = ActDeleting | ActDecommissioning | ActMigrating | ActRestoring

  datatype StageName = OfflineGrace | Rebuilding | Wiping

  datatype Size = Size(total: nat, remaining: nat, completed: nat)

  /** One stage of a data activity. `graceEnd` is meaningful for the grace
      stage only; `size` is absent for it. `marker` is the resumable scan
      cursor (None once a scan has reached the end); `rebuildError` records
      that a batch failed since the last rewind (the source stores the time of
      the first failure and only tests it for truthiness). */
  datatype Stage = Stage(
    name: StageName,
    start: nat,
    graceEnd: nat,
    size: Option<Size>,
    done: bool,
    marker: Option<nat>,
    rebuildError: bool,
    errorMarker: Option<nat>,
    errorMarkerCompleted: nat)

  datatype Activity = Activity(reason: Reason, stage: Option<Stage>, done: bool, running: bool)

  datatype Item = Item(
    node: Node,
    connection: Option<Connection>,
    stored: Option<StoredRecord>,
    storageNotExist: nat,
    authFailed: nat,
    n2nErrors: nat,
    gatewayErrors: nat,
    ioTestErrors: nat,
    ioReportedErrors: nat,
    readyToBeDeleted: bool,
    status: Status,
    activity: Option<Activity>)
}
